=== FILE: README.md ===
# glitter, modelled in Dafny

glitter is a Rust wrapper over OpenGL ES 2. It uses the type system to
stop a program from binding a second object to a GL binding point while a
binding to that point is still live. A value of `ContextOf<B, F, P, R, T>` holds
one "binder" for each piece of GL state:

- `B`: the two buffer targets;
- `F`: the framebuffer;
- `P`: the program;
- `R`: the renderbuffer;
- `T`: the eight texture units.

The context's `bind_*` methods take the context by value. What comes back
is a *binding*, which data is sent through, plus a new context whose slot
for that target is `()`. A context with `()` in a slot has no method that
could bind that target again. The binders themselves, though, bind through
`&mut self`, and the binding they return is not tied to the binder. So a
program that takes a binder out with `split_*`, or that activates a unit it
holds with `active()`, can bind the same target twice.

This project models that core:

- **The typestate context.** `ContextState`, `BufferContext`,
  `FramebufferContext`, `RenderbufferContext`, `TextureUnits` and
  `TextureBinders` model it. A slot holds `Slot<B> = Free(binder) | Used`,
  which stands for "a binder of type `B`" or `()`. Each trait bound
  `X: BorrowMut<Binder>` becomes the precondition that the slot is `Free`.
  Each `swap_*` and `split_*` is a generic function over the slot types, so
  the type-changing shape of the Rust code is kept.
- **The GL driver.** `GlDriver.Driver` is a plain value:
  - what is bound at each binding point (a context-wide target, or a target
    of one texture unit);
  - which texture unit is active;
  - the list of GL calls issued so far.

  `GlDriver.Issue` appends one call: a bind call rebinds its target (a
  texture target on the active unit), `glActiveTexture` selects the active
  unit, a delete call unbinds the deleted object wherever it is bound, and
  every other call leaves both alone. `GlDriver.IssueAll` issues
  several calls in order, and `GlDriver.IssueAllInert` proves that calls
  which bind nothing change no binding and not the active unit. Every
  operation that calls into GL returns the driver with its calls appended.
  Contracts therefore state which calls are issued, in what order and with
  which arguments, together with the bindings that result.
- **The guarantee itself.** `Context` states it. A program starts from
  `current_context`. It may bind through the context, take binders and
  units out with `split_*` (by value or through `&mut`), bind through the
  binders it holds, and activate the units it holds. Each step exists in two
  builds: as written, and corrected. In the corrected build, binding through
  a binder or activating a unit uses it up, and a texture bind re-activates
  the binding's unit. For the corrected build, `Context.AtMostOneBindingPerTarget`
  proves that no binding point is handed out twice and that every binding
  handed out is still the object the driver has bound at that point. As
  written, both halves fail, and lemmas exhibit the programs that break
  them: `Context.AsWrittenBindBreaksHeld`, `Context.KeptBinderBindsTwice`,
  `Context.RepeatedActivationBindsTwice` and
  `Context.BorrowedBinderLeavesSlotFree` (the first two Findings).
- **The builders.** Texture, framebuffer and renderbuffer builders are
  modelled: their setters, the GL calls that `try_unwrap` issues, and each
  error case with the crate's own message.
- **Data layout.**
  - vertex, index and uniform data, with their byte views (the per-element
    encoding is a parameter);
  - pixels and their RGBA byte layout;
  - every `gl_enum` table, with the crate's ES2 constant values.
- **Vertex and index buffers.** The `AttribBinder` name matching, the
  `attrib_pointers!` macro, and drawing from buffered vertex and index data.

Four places where the code differs from what it evidently intends are
listed under Findings. Each is modelled both as written and as corrected;
the rest of the model uses the corrected version. The one exception is the
texture builder, which binds right after activating unit 0; there the bind
as written is modelled, since both versions then bind the same thing
(`TextureUnits.BindTexture2dAgreesWhenActive`).

## Model

| member | source | states |
|---|---|---|
| ContextState.SwapBuffers | src/context/mod.rs:282-296 | returns the old buffer binder and a context holding the new one; the other four slots are untouched |
| ContextState.SwapFramebuffer | src/context/mod.rs:309-323 | returns the old framebuffer binder and a context holding the new one; the other four slots are untouched |
| ContextState.SwapProgram | src/context/mod.rs:336-350 | returns the old program binder and a context holding the new one; the other four slots are untouched |
| ContextState.SwapRenderbuffer | src/context/mod.rs:363-377 | returns the old renderbuffer binder and a context holding the new one; the other four slots are untouched |
| ContextState.SwapTexUnits | src/context/mod.rs:390-404 | returns the old texture units and a context holding the new ones; the other four slots are untouched |
| ContextState.SwapRoundTrips | src/context/mod.rs:282-404 | swapping a slot's old value back in restores the original context, for each of the five slots |
| ContextState.CurrentProgramBinder | src/context/mod.rs:185-194 | the program slot of the current context is free |
| ContextState.GetError | src/context/mod.rs:204-221 | an error is reported exactly for the five GL error codes; the error reported carries that code |
| ContextState.ErrorCode | src/context/mod.rs:204-221 | each error that `get_error` can report has a code other than NO_ERROR |
| ContextState.GetErrorRoundTrip | src/context/mod.rs:204-221 | the code of each driver error decodes back to the same error |
| Context.CurrentContext | src/context/mod.rs:185-194 | `current_context` holds a binder in every slot: both buffer targets, the framebuffer, the renderbuffer and all eight texture units are free |
| Context.ActivateTexture | src/context/texture_units.rs:415-581 | `active_texture_k` makes unit k active in the driver, uses up unit k's slot, and returns a binding for unit k with both texture targets free |
| Context.Initial | src/context/mod.rs:185-194 | a fresh world holds the current context and has handed out no binding |
| Context.InitialInv | src/context/mod.rs:36-124 | the fresh context satisfies the typestate invariant: a slot is free exactly when nothing was bound through it |
| Context.BindArrayInv | src/context/buffer_context.rs:264-270 | binding the array buffer keeps the invariant |
| Context.BindElementArrayInv | src/context/buffer_context.rs:290-296 | binding the element-array buffer keeps the invariant |
| Context.BindFboInv | src/context/framebuffer_context.rs:361-367 | binding a framebuffer keeps the invariant |
| Context.BindRboInv | src/context/renderbuffer_context.rs:177-183 | binding a renderbuffer keeps the invariant |
| Context.ActivateUnitInv | src/context/texture_units.rs:415-420 | activating a texture unit keeps the invariant |
| Context.BindTex2dInv | src/context/texture_units.rs:1471-1477 | binding a 2D texture through a unit binding keeps the invariant |
| Context.BindCubeMapInv | src/context/texture_units.rs:1493-1499 | binding a cube map through a unit binding keeps the invariant |
| Context.SplitSlot | src/context/buffer_context.rs:299-313 | `split_*` leaves the binder's slot used and every other slot as it was |
| Context.BinderBind | src/context/buffer_context.rs:621-630 | a binder's `bind` makes the object its point's binding; as written a texture binder binds on the active unit, corrected on its own unit |
| Context.SplitUnitSlot | src/context/texture_units.rs:584-605 | `split_tex_unit_k` leaves unit k's slot used and every other unit slot as it was |
| Context.SplitInv | src/context/buffer_context.rs:315-335 | in the corrected build, taking a binder out, by value or through `&mut`, keeps the invariant |
| Context.BindWithInv | src/context/buffer_context.rs:621-630 | in the corrected build, where binding uses the binder up, binding through a held binder keeps the invariant |
| Context.SplitUnitInv | src/context/texture_units.rs:584-641 | in the corrected build, taking a unit out, by value or through `&mut`, keeps the invariant |
| Context.ActivateWithInv | src/context/texture_units.rs:30-36 | in the corrected build, where activation uses the unit up, activating a held unit keeps the invariant |
| Context.StepInv | src/context/mod.rs:93-99 | in the corrected build, every step the types allow keeps the invariant: binds through the context or a held binder, splits, borrows and activations |
| Context.RunInv | src/context/mod.rs:93-99 | in the corrected build, every sequence of steps the types allow keeps the invariant |
| Context.AtMostOneBindingPerTarget | src/context/mod.rs:36-124 | in the corrected build, starting from `current_context`, no sequence of steps hands out two bindings for the same binding point, and every binding handed out is still what the driver has bound there |
| Context.KeptBinderBindsTwice | src/context/buffer_context.rs:621-630 | as written, splitting a context-wide binder off and binding through it twice succeeds and hands out two bindings of the same point, the first out of effect when the objects differ |
| Context.KeptBinderBindsOnce | src/context/buffer_context.rs:621-630 | in the corrected build, the second bind through a split-off binder is rejected |
| Context.RepeatedActivationBindsTwice | src/context/texture_units.rs:30-36 | as written, activating a held unit twice and binding a 2D texture after each activation succeeds, hands out two bindings of the unit's 2D target, and leaves the first out of effect when the textures differ |
| Context.RepeatedActivationRejected | src/context/texture_units.rs:30-36 | in the corrected build, the second activation of a held unit is rejected |
| Context.BorrowedBinderLeavesSlotFree | src/context/framebuffer_context.rs:381-391 | as written, binding through a framebuffer binder taken through `&mut` leaves the context's framebuffer slot free, so a by-value bind then hands out a second framebuffer binding |
| Context.BorrowedBinderUsesSlot | src/context/framebuffer_context.rs:381-391 | in the corrected build, the by-value bind after a borrowed bind is rejected |
| Context.AsWrittenBindBreaksHeld | src/context/texture_units.rs:1471-1477 | the guarantee depends on the corrected texture binds: after activating units 0 and 1, the as-written bind through unit 0's binding leaves the binding it hands out for unit 0 out of effect, while the corrected bind keeps every binding in effect |
| Context.SecondBindRejected | src/context/mod.rs:55-72 | in the corrected build, once a binding point has been bound, no step binds it again or takes out its binder |
| Context.SecondActivationRejected | src/context/texture_units.rs:584-605 | in the corrected build, a texture unit that has been activated cannot be activated again, from the context or from the unit, nor split off |
| Context.BufferTargetsIndependent | src/context/buffer_context.rs:299-313 | in both builds, binding the array and the element-array buffer succeeds in either order and gives the same bindings |
| GlDriver.UnbindTexture | src/texture.rs:65-70 | deleting a texture resets every unit target bound to it to 0 and leaves every other binding as it was |
| GlDriver.UnbindGlobal | src/framebuffer.rs:38-44 | deleting a framebuffer or renderbuffer resets its target to 0 when it is bound there, and leaves every other binding as it was |
| BufferContext.CurrentBufferBinder | src/context/buffer_context.rs:522-528 | `BufferBinder::current` holds both the array and the element-array binder |
| BufferContext.SwapArray | src/context/buffer_context.rs:544-555 | returns the old array slot and installs the new one; the element-array slot is untouched |
| BufferContext.SwapElementArray | src/context/buffer_context.rs:559-570 | returns the old element-array slot and installs the new one; the array slot is untouched |
| BufferContext.BufferSwapRoundTrips | src/context/buffer_context.rs:544-570 | swapping the old slot back restores the binder |
| BufferContext.ArrayBindingTarget | src/context/buffer_context.rs:482-486 | an array-buffer binding reports the ARRAY_BUFFER target |
| BufferContext.ElementArrayBindingTarget | src/context/buffer_context.rs:495-499 | an element-array-buffer binding reports the ELEMENT_ARRAY_BUFFER target |
| BufferContext.BindArrayBinder | src/context/buffer_context.rs:622-630 | the buffer becomes the driver's ARRAY_BUFFER binding, and the binding refers to it |
| BufferContext.BindElementArrayBinder | src/context/buffer_context.rs:653-662 | the buffer becomes the driver's ELEMENT_ARRAY_BUFFER binding, and the binding refers to it |
| BufferContext.SplitArrayBuffer | src/context/buffer_context.rs:299-313 | hands out the array binder the context held and leaves that slot used, everything else unchanged |
| BufferContext.SplitElementArrayBuffer | src/context/buffer_context.rs:364-378 | hands out the element-array binder the context held and leaves that slot used, everything else unchanged |
| BufferContext.BindArrayBuffer | src/context/buffer_context.rs:264-270 | binds the buffer to ARRAY_BUFFER, and the returned context can no longer bind that target |
| BufferContext.BindElementArrayBuffer | src/context/buffer_context.rs:290-296 | binds the buffer to ELEMENT_ARRAY_BUFFER, and the returned context can no longer bind that target |
| BufferContext.GenBuffer | src/context/buffer_context.rs:62-74 | appends exactly the generation of the new name, which the returned buffer wraps; no binding changes and the active unit stays |
| BufferContext.BufferBytes | src/context/buffer_context.rs:81-102 | appends exactly the upload of the bytes to the binding's target with the usage's GL code; no binding changes and the active unit stays |
| BufferContext.VertexAttribPointer | src/context/buffer_context.rs:119-142 | for a component count of 1 to 4 (the crate's debug assertion), appends exactly the pointer call with the attribute's index, that count, the data type's GL code, the normalization flag, stride and offset; no binding changes and the active unit stays |
| BufferContext.DrawArraysRange | src/context/buffer_context.rs:159-171 | appends exactly one glDrawArrays with the mode's GL code, the first vertex and the count; no binding changes and the active unit stays |
| BufferContext.DrawNElementsBuffered | src/context/buffer_context.rs:187-195 | appends exactly one glDrawElements of `count` indices of the given type, read from the bound element-array buffer rather than client memory; no binding changes and the active unit stays |
| BufferContext.DrawNElements | src/context/buffer_context.rs:208-220 | draws `count` indices, at most the slice's length, passing the slice's bytes as client-side indices; changes no binding and the active unit stays |
| BufferContext.DrawAllElements | src/context/buffer_context.rs:232-239 | draws exactly as many indices as the slice holds |
| FramebufferContext.FramebufferTargetGlEnum | src/context/framebuffer_context.rs:319-326 | the single framebuffer target is FRAMEBUFFER |
| FramebufferContext.AttachmentGlEnum | src/context/framebuffer_context.rs:328-343 | each attachment point maps to its own GL code, in both directions |
| FramebufferContext.AttachmentGlEnumInjective | src/context/framebuffer_context.rs:328-343 | no two attachment points share a GL code |
| FramebufferContext.BindingTarget | src/context/framebuffer_context.rs:402-406 | a framebuffer binding reports the FRAMEBUFFER target |
| FramebufferContext.CurrentFramebufferBinder | src/context/framebuffer_context.rs:420-424 | the current framebuffer slot holds a binder |
| FramebufferContext.BindFramebufferBinder | src/context/framebuffer_context.rs:439-454 | the framebuffer becomes the driver's FRAMEBUFFER binding, and the binding refers to it |
| FramebufferContext.SplitFramebuffer | src/context/framebuffer_context.rs:370-379 | hands out the framebuffer binder and leaves that slot used, everything else unchanged |
| FramebufferContext.BindFramebufferCtx | src/context/framebuffer_context.rs:361-367 | binds the framebuffer, and the returned context can no longer bind that target |
| FramebufferContext.GenFramebuffer | src/context/framebuffer_context.rs:35-45 | appends exactly the generation of the new name, which the returned framebuffer wraps; no binding changes and the active unit stays |
| FramebufferContext.DecodeFramebufferStatus | src/context/framebuffer_context.rs:53-73 | each of the three handled status codes decodes to its error, in both directions; every other code, including FRAMEBUFFER_INCOMPLETE_DIMENSIONS, reports no error |
| FramebufferContext.DecodeFramebufferStatusRoundTrip | src/context/framebuffer_context.rs:53-73 | every framebuffer error except IncompleteDimensions decodes back from its status code; IncompleteDimensions and FRAMEBUFFER_COMPLETE decode to no error |
| FramebufferContext.CheckStatus | src/context/framebuffer_context.rs:53-73 | reports the decoded form of the status the driver answers; appends exactly the status query on FRAMEBUFFER; no binding changes and the active unit stays |
| FramebufferContext.AttachRenderbufferCall | src/context/framebuffer_context.rs:84-103 | appends exactly one attachment of the renderbuffer, on FRAMEBUFFER at the attachment point's GL code; no binding changes and the active unit stays |
| FramebufferContext.AttachTexture2dCall | src/context/framebuffer_context.rs:119-143 | appends exactly one attachment of the 2D texture's level 0, on FRAMEBUFFER at the attachment point's GL code; any other level is refused; no binding changes and the active unit stays |
| FramebufferContext.NewFramebufferBuilder | src/context/framebuffer_context.rs:197-202 | a new builder has no attachments |
| FramebufferContext.Attach | src/context/framebuffer_context.rs:216-244 | records the attachment at its point, overwriting any earlier one there; every other point keeps its attachment |
| FramebufferContext.WithTexture2d | src/context/framebuffer_context.rs:216-229 | records the texture at its point, overwriting any earlier one there; every other point keeps its attachment |
| FramebufferContext.WithRenderbuffer | src/context/framebuffer_context.rs:232-244 | records the renderbuffer at its point, overwriting any earlier one there; every other point keeps its attachment |
| FramebufferContext.LastAttachmentWins | src/context/framebuffer_context.rs:187-192 | attaching twice at one point is the same as attaching only the second object |
| FramebufferContext.AttachmentCall | src/context/framebuffer_context.rs:262-277 | each recorded attachment becomes one attach call at its point's GL code |
| FramebufferContext.AttachmentCalls | src/context/framebuffer_context.rs:262-277 | one attach call per attachment, in iteration order |
| FramebufferContext.ApplyAttachment | src/context/framebuffer_context.rs:262-277 | issues exactly that attachment's call and changes no binding |
| FramebufferContext.ApplyAttachments | src/context/framebuffer_context.rs:262-277 | issues one attach call per attachment in iteration order, and changes no binding |
| FramebufferContext.AttachmentsCovered | src/context/framebuffer_context.rs:262-277 | every recorded attachment is applied |
| FramebufferContext.AttachmentsDistinct | src/context/framebuffer_context.rs:262-277 | no attachment point is attached twice |
| FramebufferContext.AttachmentsAppliedOnce | src/context/framebuffer_context.rs:262-277 | every recorded attachment is applied exactly once, each at a different point |
| FramebufferContext.SizeOfEnumeration | src/context/framebuffer_context.rs:262-277 | an iteration order over the attachments has one entry per attachment |
| FramebufferContext.TryUnwrap | src/context/framebuffer_context.rs:256-286 | generates and binds the framebuffer, applies every attachment, then checks the status; Ok exactly when the status is not one of the decoded errors, otherwise that error; on Ok the framebuffer stays bound, on an error it is dropped, which deletes it and unbinds it; the active unit stays |
| FramebufferContext.Unwrap | src/context/framebuffer_context.rs:294-296 | panics exactly when `try_unwrap` fails |
| RenderbufferContext.BindingTarget | src/context/renderbuffer_context.rs:219-223 | a renderbuffer binding reports the RENDERBUFFER target |
| RenderbufferContext.CurrentRenderbufferBinder | src/context/renderbuffer_context.rs:237-241 | the current renderbuffer slot holds a binder |
| RenderbufferContext.BindRenderbufferBinder | src/context/renderbuffer_context.rs:245-261 | the renderbuffer becomes the driver's RENDERBUFFER binding, and the binding refers to it |
| RenderbufferContext.SplitRenderbuffer | src/context/renderbuffer_context.rs:186-195 | hands out the renderbuffer binder and leaves that slot used, everything else unchanged |
| RenderbufferContext.BindRenderbufferCtx | src/context/renderbuffer_context.rs:177-183 | binds the renderbuffer, and the returned context can no longer bind that target |
| RenderbufferContext.GenRenderbuffer | src/context/renderbuffer_context.rs:110-120 | appends exactly the generation of the new name, which the returned renderbuffer wraps; no binding changes and the active unit stays |
| RenderbufferContext.Storage | src/context/renderbuffer_context.rs:132-151 | appends exactly the storage allocation on RENDERBUFFER with the format's GL code and the given size; no binding changes and the active unit stays |
| RenderbufferContext.NewRenderbufferBuilder | src/context/renderbuffer_context.rs:26-31 | a new builder has no storage parameters |
| RenderbufferContext.WithStorage | src/context/renderbuffer_context.rs:34-42 | records the format and size |
| RenderbufferContext.LastStorageWins | src/context/renderbuffer_context.rs:34-42 | setting storage twice is the same as setting only the second |
| RenderbufferContext.TryUnwrap | src/context/renderbuffer_context.rs:53-71 | fails with the crate's message exactly when no storage was set, after only generating the name and then deleting it on drop, which unbinds it if it was bound; otherwise generates, binds and allocates the storage, and the renderbuffer stays bound; the active unit stays |
| RenderbufferContext.Unwrap | src/context/renderbuffer_context.rs:78-80 | panics exactly when no storage was set |
| TextureBinders.BindingTarget | src/context/texture_context.rs:426-447 | a 2D binding reports TEXTURE_2D and a cube-map binding reports TEXTURE_CUBE_MAP |
| TextureBinders.BindTexture2dBinder | src/context/texture_context.rs:481-491 | binds the texture to TEXTURE_2D of whichever unit the driver has active |
| TextureBinders.BindTextureCubeMapBinder | src/context/texture_context.rs:515-525 | binds the texture to TEXTURE_CUBE_MAP of whichever unit the driver has active |
| TextureBinders.GenTexture | src/context/texture_context.rs:224-234 | appends exactly the generation of the new name; the returned texture wraps it and has the requested type; no binding changes and the active unit stays |
| TextureBinders.TexParameter | src/context/texture_context.rs:373-382 | appends exactly one parameter call on the binding target's GL code; no binding changes and the active unit stays |
| TextureBinders.SetMinFilter | src/context/texture_context.rs:240-249 | appends exactly one TEXTURE_MIN_FILTER call with the filter's GL code, on TEXTURE_2D for a 2D binding and TEXTURE_CUBE_MAP for a cube map; no binding changes and the active unit stays |
| TextureBinders.SetMagFilter | src/context/texture_context.rs:255-264 | appends exactly one TEXTURE_MAG_FILTER call with the filter's GL code, on TEXTURE_2D for a 2D binding and TEXTURE_CUBE_MAP for a cube map; no binding changes and the active unit stays |
| TextureBinders.SetWrapS | src/context/texture_context.rs:270-279 | appends exactly one TEXTURE_WRAP_S call with the wrap mode's GL code, on TEXTURE_2D for a 2D binding and TEXTURE_CUBE_MAP for a cube map; no binding changes and the active unit stays |
| TextureBinders.SetWrapT | src/context/texture_context.rs:285-294 | appends exactly one TEXTURE_WRAP_T call with the wrap mode's GL code, on TEXTURE_2D for a 2D binding and TEXTURE_CUBE_MAP for a cube map; no binding changes and the active unit stays |
| TextureBinders.GenerateMipmapCall | src/context/texture_context.rs:300-306 | appends exactly one mipmap generation, on TEXTURE_2D for a 2D binding and TEXTURE_CUBE_MAP for a cube map; no binding changes and the active unit stays |
| TextureBinders.ImageTargetGlEnum | src/texture.rs:124-179 | the 2D image target is TEXTURE_2D and no cube-map face is |
| TextureBinders.RawTexImage2d | src/context/texture_context.rs:384-408 | appends exactly one upload whose internal format equals the image format, with the format's texel type; no binding changes and the active unit stays |
| TextureBinders.TexImage2d | src/context/texture_context.rs:314-333 | appends one upload to the image target's GL code at the given mip level, carrying the image's size, format, texel type and bytes, with border 0; no binding changes and the active unit stays |
| TextureBinders.PixelsUploadLayout | src/context/texture_context.rs:314-333 | uploading a pixel buffer as an image hands the driver four bytes per pixel, pixel i's r, g, b and a at bytes 4i to 4i + 3 |
| TextureBinders.TexImage2dEmpty | src/context/texture_context.rs:345-364 | appends one upload to the image target's GL code at the given mip level, of the given size, format and texel type, with border 0 and no pixel data; no binding changes and the active unit stays |
| TextureBuilder.BuildTexture2d | src/context/texture_context.rs:36-47 | a new builder has no image, no empty size, no parameters and no mipmap request |
| TextureBuilder.WithImage2d | src/context/texture_context.rs:50-53 | records the image and leaves every other field as it was |
| TextureBuilder.WithEmpty | src/context/texture_context.rs:56-62 | records the empty format and size and leaves every other field as it was |
| TextureBuilder.WithGenerateMipmap | src/context/texture_context.rs:64-67 | requests a mipmap and leaves every other field as it was |
| TextureBuilder.WithMinFilter | src/context/texture_context.rs:70-76 | records the min filter and leaves every other field as it was |
| TextureBuilder.WithPlainMinFilter | src/context/texture_context.rs:70-76 | a plain filter given as min filter is stored as its non-mipmap form, with the same GL code |
| TextureBuilder.WithMagFilter | src/context/texture_context.rs:78-81 | records the mag filter and leaves every other field as it was |
| TextureBuilder.WithWrapS | src/context/texture_context.rs:84-87 | records the S wrap mode and leaves every other field as it was |
| TextureBuilder.WithWrapT | src/context/texture_context.rs:90-93 | records the T wrap mode and leaves every other field as it was |
| TextureBuilder.OptionalParameter | src/context/texture_context.rs:123-134 | a parameter is set on TEXTURE_2D exactly when the builder holds a value for it |
| TextureBuilder.ParameterCalls | src/context/texture_context.rs:123-134 | every parameter call targets TEXTURE_2D and carries the value the builder holds; every value the builder holds is set |
| TextureBuilder.ApplyParameters | src/context/texture_context.rs:123-134 | issues exactly the parameter calls and changes no binding |
| TextureBuilder.MinFilterStep | src/context/texture_context.rs:123-125 | sets TEXTURE_MIN_FILTER on TEXTURE_2D to the given filter's code exactly when one was given, else issues nothing; no binding changes |
| TextureBuilder.MagFilterStep | src/context/texture_context.rs:126-128 | sets TEXTURE_MAG_FILTER on TEXTURE_2D to the given filter's code exactly when one was given, else issues nothing; no binding changes |
| TextureBuilder.WrapSStep | src/context/texture_context.rs:129-131 | sets TEXTURE_WRAP_S on TEXTURE_2D to the given mode's code exactly when one was given, else issues nothing; no binding changes |
| TextureBuilder.WrapTStep | src/context/texture_context.rs:132-134 | sets TEXTURE_WRAP_T on TEXTURE_2D to the given mode's code exactly when one was given, else issues nothing; no binding changes |
| TextureBuilder.ApplyParametersIsIssueAll | src/context/texture_context.rs:123-134 | setting the parameters is the same as issuing the parameter calls one after another directly, since none of them binds anything or changes the active unit |
| TextureBuilder.Upload | src/context/texture_context.rs:138-160 | an image wins over an empty size; an empty texture is uploaded and only then rejected when a side is zero; with neither, nothing is issued and the no-storage error is returned |
| TextureBuilder.Mipmap | src/context/texture_context.rs:162-168 | generates the mipmap when requested; otherwise issues nothing, and fails with the crate's message exactly when the min filter is a mipmap filter |
| TextureBuilder.TryUnwrap | src/context/texture_context.rs:113-172 | Ok exactly when the builder has storage, its empty size (if that is the storage) has no zero side, and it does not pair a mipmap min filter with no mipmap request; each failure returns the crate's message for it; the calls are gen, activate unit 0, bind on the active unit (unit 0), the set parameters, the upload, then the mipmap; on Ok the texture stays bound on unit 0, which stays active; on an error the texture is dropped last, which deletes it and leaves unit 0's 2D target unbound |
| TextureBuilder.Unwrap | src/context/texture_context.rs:180-182 | panics exactly when `try_unwrap` fails |
| TextureBuilder.ImageOverridesEmpty | src/context/texture_context.rs:138-150 | once an image is set, a later empty size makes no difference to the build |
| TextureBuilder.GenerateMipmapAlwaysComplete | src/context/texture_context.rs:162-168 | with storage and a non-zero size, requesting a mipmap makes the build succeed whatever the min filter |
| TextureBuilder.ImageOnlyBuilds | src/context/texture_context.rs:113-172 | a builder given only an image builds in exactly four calls: gen, activate unit 0, bind, upload |
| TextureUnits.UnitIndices | src/context/texture_units.rs:83-90 | the units' indices are 0 to 7, one per unit |
| TextureUnits.UnitCode | src/context/texture_units.rs:15-21 | a unit's GL code is one of the eight from TEXTURE0, and its offset from TEXTURE0 is the unit's index |
| TextureUnits.UnitCodeInjective | src/context/texture_units.rs:15-21 | distinct units have distinct GL codes |
| TextureUnits.CurrentTextureUnits | src/context/texture_units.rs:131-140 | all eight units are free |
| TextureUnits.Swap0 | src/context/texture_units.rs:172-186 | exchanges unit 0 and leaves the other seven untouched |
| TextureUnits.Swap1 | src/context/texture_units.rs:190-204 | exchanges unit 1 and leaves the other seven untouched |
| TextureUnits.Swap2 | src/context/texture_units.rs:208-222 | exchanges unit 2 and leaves the other seven untouched |
| TextureUnits.Swap3 | src/context/texture_units.rs:226-240 | exchanges unit 3 and leaves the other seven untouched |
| TextureUnits.Swap4 | src/context/texture_units.rs:244-258 | exchanges unit 4 and leaves the other seven untouched |
| TextureUnits.Swap5 | src/context/texture_units.rs:262-276 | exchanges unit 5 and leaves the other seven untouched |
| TextureUnits.Swap6 | src/context/texture_units.rs:280-294 | exchanges unit 6 and leaves the other seven untouched |
| TextureUnits.Swap7 | src/context/texture_units.rs:298-312 | exchanges unit 7 and leaves the other seven untouched |
| TextureUnits.UnitSwapRoundTrips | src/context/texture_units.rs:172-312 | swapping the old unit back restores the units, for each of the eight |
| TextureUnits.SplitTexUnit0 | src/context/texture_units.rs:584-605 | hands out unit 0 and leaves its slot used, everything else unchanged |
| TextureUnits.SplitTexUnit1 | src/context/texture_units.rs:681-702 | hands out unit 1 and leaves its slot used, everything else unchanged |
| TextureUnits.SplitTexUnit2 | src/context/texture_units.rs:778-799 | hands out unit 2 and leaves its slot used, everything else unchanged |
| TextureUnits.SplitTexUnit3 | src/context/texture_units.rs:875-896 | hands out unit 3 and leaves its slot used, everything else unchanged |
| TextureUnits.SplitTexUnit4 | src/context/texture_units.rs:972-993 | hands out unit 4 and leaves its slot used, everything else unchanged |
| TextureUnits.SplitTexUnit5 | src/context/texture_units.rs:1069-1090 | hands out unit 5 and leaves its slot used, everything else unchanged |
| TextureUnits.SplitTexUnit6 | src/context/texture_units.rs:1166-1187 | hands out unit 6 and leaves its slot used, everything else unchanged |
| TextureUnits.SplitTexUnit7 | src/context/texture_units.rs:1263-1284 | hands out unit 7 and leaves its slot used, everything else unchanged |
| TextureUnits.ActiveTexture0 | src/context/texture_units.rs:415-420 | activates TEXTURE0 and returns a fresh binding for unit 0; unit 0 can no longer be activated |
| TextureUnits.ActiveTexture1 | src/context/texture_units.rs:438-443 | activates TEXTURE1 and returns a fresh binding for unit 1; unit 1 can no longer be activated |
| TextureUnits.ActiveTexture2 | src/context/texture_units.rs:461-466 | activates TEXTURE2 and returns a fresh binding for unit 2; unit 2 can no longer be activated |
| TextureUnits.ActiveTexture3 | src/context/texture_units.rs:484-489 | activates TEXTURE3 and returns a fresh binding for unit 3; unit 3 can no longer be activated |
| TextureUnits.ActiveTexture4 | src/context/texture_units.rs:507-512 | activates TEXTURE4 and returns a fresh binding for unit 4; unit 4 can no longer be activated |
| TextureUnits.ActiveTexture5 | src/context/texture_units.rs:530-535 | activates TEXTURE5 and returns a fresh binding for unit 5; unit 5 can no longer be activated |
| TextureUnits.ActiveTexture6 | src/context/texture_units.rs:553-558 | activates TEXTURE6 and returns a fresh binding for unit 6; unit 6 can no longer be activated |
| TextureUnits.ActiveTexture7 | src/context/texture_units.rs:576-581 | activates TEXTURE7 and returns a fresh binding for unit 7; unit 7 can no longer be activated |
| TextureUnits.CurrentAtIdx | src/context/texture_units.rs:1377-1384 | a binding for the given unit with both texture targets free |
| TextureUnits.Active | src/context/texture_units.rs:30-36 | makes the unit active in the driver without changing any binding, and returns that unit's binding |
| TextureUnits.GlIdx | src/context/texture_units.rs:1387-1389 | the binding's unit code is TEXTURE0 plus its index |
| TextureUnits.Sampler | src/context/texture_units.rs:1394-1396 | the sampler refers to the binding's unit |
| TextureUnits.SamplerDatumType | src/context/texture_units.rs:1557-1561 | a sampler is sent as a single integer |
| TextureUnits.SplitTexture2d | src/context/texture_units.rs:1398-1408 | hands out the 2D binder and leaves that target used; the unit and its cube-map slot are unchanged |
| TextureUnits.SplitTextureCubeMap | src/context/texture_units.rs:1410-1420 | hands out the cube-map binder and leaves that target used; the unit and its 2D slot are unchanged |
| TextureUnits.BindTexture2dAsWritten | src/context/texture_units.rs:1471-1477 | as written: appends only the bind, so the texture lands on TEXTURE_2D of whichever unit the driver has active, which stays active, not necessarily the binding's own unit |
| TextureUnits.BindTexture2d | src/context/texture_units.rs:1471-1477 | appends the activation of the binding's own unit and then the bind, so the texture lands on TEXTURE_2D of that unit, which is active afterwards |
| TextureUnits.BindTextureCubeMapAsWritten | src/context/texture_units.rs:1493-1499 | as written: appends only the bind, so the cube map lands on TEXTURE_CUBE_MAP of whichever unit the driver has active, which stays active |
| TextureUnits.BindTextureCubeMap | src/context/texture_units.rs:1493-1499 | appends the activation of the binding's own unit and then the bind, so the cube map lands on TEXTURE_CUBE_MAP of that unit, which is active afterwards |
| TextureUnits.BindTexture2dAgreesWhenActive | src/context/texture_units.rs:1471-1477 | when the binding's unit is still the active one, the code as written and the corrected version bind the same thing |
| TextureUnits.TextureUnitAliasing | src/context/texture_units.rs:1471-1477 | after activating units 0 and 1, binding through unit 0's binding as written lands the texture on unit 1 and leaves unit 0 alone; the corrected version binds it on unit 0 |
| Textures.BindingTargetGlEnum | src/texture.rs:193-208 | TEXTURE_2D exactly for the 2D target, otherwise TEXTURE_CUBE_MAP |
| Textures.Target | src/texture.rs:135-187 | a 2D texture binds to the 2D target and a cube map to the cube-map target |
| Textures.Tx2dImageTargetGlEnum | src/texture.rs:124-133 | the 2D image target has the same code as the 2D binding target |
| Textures.CubeMapImageTargetGlEnum | src/texture.rs:146-179 | each cube-map face is one of the six face codes |
| Textures.CubeMapImageTargetGlEnumInjective | src/texture.rs:146-179 | no two faces share a code |
| Textures.VariantAsBindingTarget | src/texture.rs:237-241 | the 2D variant converts to a binding target with code TEXTURE_2D |
| Textures.VariantAsImageTarget | src/texture.rs:243-247 | the 2D variant converts to an image target with code TEXTURE_2D |
| Textures.VariantTexture2dAgrees | src/texture.rs:237-253 | both conversions of the 2D variant agree on the GL code |
| Textures.FilterGlEnum | src/texture.rs:355-371 | a filter is NEAREST or LINEAR |
| Textures.FilterFromGl | src/texture.rs:355-371 | decodes exactly NEAREST and LINEAR, each to the filter with that code |
| Textures.MipmapFilterGlEnum | src/texture.rs:374-398 | a plain filter keeps its own code; a mipmap filter takes one of the four mipmap codes |
| Textures.MipmapFilterFromGl | src/texture.rs:374-398 | decodes exactly the two plain and four mipmap codes, each to the filter with that code |
| Textures.FilterRoundTrip | src/texture.rs:355-371 | decoding a filter's code gives the filter back |
| Textures.MipmapFilterRoundTrip | src/texture.rs:374-398 | decoding a mipmap filter's code gives the filter back |
| Textures.MipmapFilterGlEnumInjective | src/texture.rs:374-398 | no two mipmap filters share a code |
| Textures.MipmapConstantsDecode | src/texture.rs:307-352 | each named mipmap constant decodes to the (filter, mipmap filter) pair its name says |
| Textures.FromFilter | src/texture.rs:400-404 | converting a plain filter gives a non-mipmap filter with the same code |
| Textures.WrapModeGlEnum | src/texture.rs:406-420 | a wrap mode is CLAMP_TO_EDGE, MIRRORED_REPEAT or REPEAT |
| Textures.WrapModeGlEnumInjective | src/texture.rs:406-420 | no two wrap modes share a code |
| Types.FramebufferErrorDisplay | src/types.rs:271-288 | every framebuffer error has a non-empty message |
| Types.FramebufferErrorDescription | src/types.rs:291-299 | every framebuffer error has a non-empty description |
| Types.FramebufferErrorDebug | src/types.rs:255-269 | every framebuffer error has a non-empty variant name |
| Types.Display | src/types.rs:202-228 | a message error displays its own text; a framebuffer error displays its reason's name; every other error has a non-empty message |
| Types.Description | src/types.rs:231-243 | a message error describes itself by its text; a framebuffer error by its reason's description |
| Types.Cause | src/types.rs:245-251 | only a framebuffer error has a cause, and the cause is its reason |
| Types.FromFramebufferError | src/types.rs:301-305 | the converted error has the framebuffer error as its cause |
| Types.FromFramebufferErrorInjective | src/types.rs:301-305 | distinct framebuffer errors convert to distinct errors |
| Types.DisplayDistinguishes | src/types.rs:202-228 | two errors that are not free-text messages display alike only if they are equal |
| Types.FramebufferErrorDescriptionDistinguishes | src/types.rs:291-299 | distinct framebuffer errors have distinct descriptions |
| Types.FramebufferErrorDisplayDistinguishes | src/types.rs:271-288 | distinct framebuffer errors have distinct messages |
| Types.NewViewport | src/types.rs:49-56 | the viewport has the given origin and size |
| Types.DrawingModeGlEnum | src/types.rs:309-344 | each drawing mode is one of the seven primitive codes |
| Types.DataTypeGlEnum | src/types.rs:346-367 | each data type is one of the GL type codes BYTE to FIXED |
| Types.DrawingModeGlEnumInjective | src/types.rs:309-344 | no two drawing modes share a code |
| Types.DataTypeGlEnumInjective | src/types.rs:346-367 | no two data types share a code |
| GlObjects.BufferFromRaw | src/buffer.rs:41-54 | the buffer wraps exactly the given name |
| GlObjects.BufferIntoRaw | src/types.rs:75-94 | gives back the buffer's name |
| GlObjects.FramebufferFromRaw | src/framebuffer.rs:46-59 | the framebuffer wraps exactly the given name |
| GlObjects.FramebufferIntoRaw | src/types.rs:75-94 | gives back the framebuffer's name |
| GlObjects.RenderbufferFromRaw | src/renderbuffer.rs:45-58 | the renderbuffer wraps exactly the given name |
| GlObjects.RenderbufferIntoRaw | src/types.rs:75-94 | gives back the renderbuffer's name |
| GlObjects.RawRoundTrips | src/types.rs:75-94 | `into_raw` after `from_raw` gives the name back, and the other way round, for all three object kinds |
| GlObjects.UsageGlEnum | src/buffer.rs:58-72 | a usage is STREAM_DRAW, STATIC_DRAW or DYNAMIC_DRAW |
| GlObjects.BufferTargetGlEnum | src/buffer.rs:74-84 | ARRAY_BUFFER exactly for the array target, ELEMENT_ARRAY_BUFFER exactly for the element-array target |
| GlObjects.RenderbufferTargetGlEnum | src/renderbuffer.rs:62-68 | the single renderbuffer target is RENDERBUFFER |
| Bytes.SliceBytes | src/index_data.rs:58-63 | the byte view of a slice is `size` bytes per element |
| Bytes.SliceBytesAt | src/index_data.rs:58-63 | byte j of element i sits at offset i * size + j |
| Bytes.SliceBytesIndex | src/index_data.rs:58-63 | every byte of every element sits at its offset, so the view is the elements' encodings laid end to end |
| Bytes.SliceBytesAsWritten | src/index_data.rs:58-63 | as written: panics exactly on the empty slice and otherwise gives the byte view |
| Bytes.EmptySliceBytes | src/index_data.rs:58-63 | on the empty slice the code as written panics, while the intended byte view is empty |
| IndexData.DatumType | src/index_data.rs:45-51 | `u8` indices are UNSIGNED_BYTE and `u16` indices are UNSIGNED_SHORT |
| IndexData.SizeOf | src/index_data.rs:45-51 | one byte per UNSIGNED_BYTE index, two per UNSIGNED_SHORT index |
| IndexData.IndexTypeGlEnum | src/index_data.rs:8-14 | UNSIGNED_BYTE exactly for byte indices, otherwise UNSIGNED_SHORT |
| IndexData.IndexDatumTypeOf | src/index_data.rs:53-57 | a slice's index type is its elements' type |
| IndexData.IndexElements | src/index_data.rs:65-67 | the element count is the slice's length |
| IndexData.IndexBytes | src/index_data.rs:58-63 | the byte view has the index size's bytes per element |
| IndexData.IndexBytesAsWritten | src/index_data.rs:58-63 | as written: panics exactly on an empty index slice |
| VertexData.PrimitiveDataType | src/vertex_data.rs:168-186 | i8, u8, i16, u16 and f32 are described as BYTE, UNSIGNED_BYTE, SHORT, UNSIGNED_SHORT and FLOAT, each the only primitive with its type; none uses FIXED |
| VertexData.PrimitiveDataTypeInjective | src/vertex_data.rs:168-186 | two primitives are described by the same GL data type exactly when they are the same primitive |
| VertexData.PrimitiveSize | src/vertex_data.rs:168-186 | a vertex primitive is 1, 2 or 4 bytes wide, the width GL reads for its data type (table 2.2 of the OpenGL ES 2.0 specification) |
| VertexData.AttribType | src/vertex_data.rs:188-236 | a scalar is one component and an array of n is n components, between 1 and 4; the data type is the primitive's; nothing is normalized |
| VertexData.DatumSize | src/vertex_data.rs:188-236 | an attribute's size is its primitive's size times its component count |
| VertexData.VertexBytes | src/vertex_data.rs:255-262 | the byte view has `size` bytes per vertex |
| VertexData.VertexBytesAsWritten | src/vertex_data.rs:255-262 | as written: panics exactly on an empty vertex slice |
| UniformData.PrimitiveType | src/uniform_data.rs:100-110 | `f32` is the float primitive and `i32` the integer one |
| UniformData.Components | src/uniform_data.rs:19-41 | every uniform type has between 1 and 16 components |
| UniformData.DatumScalars | src/uniform_data.rs:114-160 | every uniform datum holds between 1 and 16 scalars |
| UniformData.DatumPrimitive | src/uniform_data.rs:144-160 | matrices are always float |
| UniformData.MatrixType | src/uniform_data.rs:144-160 | an n-by-n matrix is reported as a matrix type with n * n components |
| UniformData.UniformDatumTypeAsWritten | src/uniform_data.rs:120-142 | as written: every non-matrix datum, arrays of 2 to 4 included, reports a single component of its primitive; a matrix, and only a matrix, reports a matrix type with side * side components |
| UniformData.DatumType | src/uniform_data.rs:114-160 | a datum's type is a matrix type exactly for a matrix, and has exactly as many components as the datum holds scalars; a vector type carries the datum's primitive |
| UniformData.ArrayTypeAsWrittenLosesLength | src/uniform_data.rs:132-136 | a float array of length 3 reports Vec1 as written, losing two components, while the corrected type is Vec3 |
| UniformData.UniformDatumTypeAgreement | src/uniform_data.rs:120-142 | the code as written and the corrected type agree exactly when the datum is not an array longer than one |
| UniformData.DatumSize | src/uniform_data.rs:19-41 | a datum is four bytes per component |
| UniformData.UniformElementsOfDatum | src/uniform_data.rs:173-175 | a single datum counts as one element |
| UniformData.UniformElementsOfSlice | src/uniform_data.rs:190-192 | a slice counts one element per datum |
| UniformData.UniformBytesOfDatum | src/uniform_data.rs:167-171 | a single datum's byte view is its size |
| UniformData.UniformBytesOfSlice | src/uniform_data.rs:183-188 | a slice's byte view is the datum size times the element count |
| UniformData.UniformBytesOfSliceAsWritten | src/uniform_data.rs:183-188 | as written: panics exactly on an empty uniform slice |
| ImageData.RGBA | src/image_data.rs:62-64 | the pixel holds the four channels in the order given |
| ImageData.RGB | src/image_data.rs:77-79 | the pixel is opaque with the given colour |
| ImageData.RgbA | src/image_data.rs:145-150 | takes the colour from the low 24 bits and the alpha from its own argument |
| ImageData.Rgb | src/image_data.rs:93-95 | takes the colour from the low 24 bits, ignores the top byte, and is opaque |
| ImageData.Argb | src/image_data.rs:108-111 | the pixel packs back into the same ARGB word |
| ImageData.Rgba | src/image_data.rs:124-130 | the pixel packs back into the same RGBA word |
| ImageData.RgbaRoundTrip | src/image_data.rs:124-130 | unpacking a pixel's RGBA word gives the pixel back |
| ImageData.ArgbRoundTrip | src/image_data.rs:108-111 | unpacking a pixel's ARGB word gives the pixel back |
| ImageData.PackedConstructorExamples | src/image_data.rs:82-150 | the packed constructors agree with the crate's documented examples |
| ImageData.PixelBytes | src/image_data.rs:37-49 | a pixel is four bytes |
| ImageData.NewPixels | src/image_data.rs:194-200 | a new image has the requested size, and every pixel is the crate's fill colour |
| ImageData.Row | src/image_data.rs:206-210 | row `i` is `width` pixels long, and column j of it is pixel `i * width + j` |
| ImageData.SetPixel | src/image_data.rs:214-218 | writing one pixel changes that pixel only, and keeps the size |
| ImageData.TexelBytes | src/image_data.rs:234-239 | the texel bytes are four bytes per pixel |
| ImageData.TexelBytesAsWritten | src/image_data.rs:234-239 | as written: panics exactly on an image with no pixels |
| ImageData.TexelBytesLayout | src/image_data.rs:234-239 | pixel i's r, g, b and a sit at bytes 4i to 4i + 3 |
| ImageData.TexelTypeGlEnum | src/image_data.rs:242-261 | each texel type is one of its four GL codes |
| ImageData.TexelFormatGlEnum | src/image_data.rs:263-275 | each texel format is ALPHA, RGB or RGBA |
| ImageData.RenderbufferFormatGlEnum | src/image_data.rs:277-297 | each renderbuffer format is one of its five GL codes |
| ImageData.TexelFormatGlEnumInjective | src/image_data.rs:263-275 | no two texel formats share a code |
| ImageData.RenderbufferFormatGlEnumInjective | src/image_data.rs:277-297 | no two renderbuffer formats share a code |
| ImageData.PixelsImage | src/image_data.rs:221-240 | a pixel image has the pixel buffer's size and the RGBA8 format, and its texel bytes are the pixels' r, g, b and a bytes, four per pixel in order |
| VertexBuffers.NewAttribBinder | src/vertex_buffer.rs:48-52 | a new binder holds no attributes |
| VertexBuffers.Add | src/vertex_buffer.rs:62-69 | stores the attribute under its name, replacing an earlier one; the other names keep theirs; reports a duplicate exactly when the name was already present |
| VertexBuffers.AddAll | src/vertex_buffer.rs:536-544 | succeeds exactly when the new names are distinct and not already present; then every name maps to its attribute and the old entries are kept |
| VertexBuffers.AttribPointers | src/vertex_buffer.rs:536-544 | succeeds exactly when the names are distinct; then the binder holds exactly those names, each with its attribute |
| VertexBuffers.MissingNamesEmpty | src/vertex_buffer.rs:80-91 | nothing is reported missing exactly when every vertex attribute is known to the binder |
| VertexBuffers.MatchAttributes | src/vertex_buffer.rs:71-110 | succeeds exactly when the vertex's attribute names equal the binder's; the missing list is the vertex attributes the binder lacks, in visiting order; the unknown set is the binder's names the vertex lacks |
| VertexBuffers.EnableCalls | src/vertex_buffer.rs:126-134 | one enable call per binder attribute, with that attribute's index |
| VertexBuffers.PointerCall | src/vertex_buffer.rs:151-166 | for a vertex attribute of 1 to 4 components, the pointer call takes the index from the program attribute, and the component count, type, normalization, stride and offset from the vertex attribute |
| VertexBuffers.AttribCallsInert | src/vertex_buffer.rs:126-166 | enable and pointer calls change no binding |
| VertexBuffers.Enable | src/vertex_buffer.rs:126-134 | succeeds exactly when the names match; on failure it issues nothing, and on success it enables every attribute |
| VertexBuffers.Bind | src/vertex_buffer.rs:151-166 | for vertex attributes of 1 to 4 components: succeeds exactly when the names match; on failure it issues nothing, and on success it issues one pointer call per attribute, matched to the vertex attribute of that name; no binding changes |
| VertexBuffers.NewVertexBuffer | src/vertex_buffer.rs:228-235 | a new vertex buffer has no attribute binder, holds no vertices and wraps the name just generated, the only call; no binding changes |
| VertexBuffers.BindAttribPointers | src/vertex_buffer.rs:200-202 | installs the binder and keeps the buffer and its count |
| VertexBuffers.BindVertexBuffer | src/vertex_buffer.rs:407-433 | panics with the crate's message exactly when no binder was set, and panics when the names do not match; otherwise binds the buffer to ARRAY_BUFFER, then enables every attribute in the order `enable` walks the binder, then points every attribute at the vertex attribute of its name in the order `bind` walks it, and uses up the array slot |
| VertexBuffers.BufferVertices | src/vertex_buffer.rs:239-250 | uploads the vertices' bytes to ARRAY_BUFFER and records their number as the count |
| VertexBuffers.DrawArraysRangeVbo | src/vertex_buffer.rs:275-287 | draws the requested range, which must lie within the buffered vertices |
| VertexBuffers.DrawArraysVbo | src/vertex_buffer.rs:295-306 | draws every buffered vertex |
| VertexBuffers.NewIndexBuffer | src/vertex_buffer.rs:504-510 | a new index buffer has the index type, holds no indices and wraps the name just generated, the only call; no binding changes |
| VertexBuffers.BindIndexBuffer | src/vertex_buffer.rs:451-464 | binds the buffer to ELEMENT_ARRAY_BUFFER and uses up the element-array slot |
| VertexBuffers.BufferIndices | src/vertex_buffer.rs:254-262 | uploads the indices' bytes to ELEMENT_ARRAY_BUFFER and records their number as the count |
| VertexBuffers.DrawNElementsBufferedVbo | src/vertex_buffer.rs:315-331 | draws the requested number of buffered indices, at most the count, with the buffer's index type |
| VertexBuffers.DrawElementsBufferedVbo | src/vertex_buffer.rs:340-353 | draws every buffered index |
| VertexBuffers.DrawNElementsVbo | src/vertex_buffer.rs:362-372 | draws the requested number of client-side indices, at most the slice's length |
| VertexBuffers.DrawElementsVbo | src/vertex_buffer.rs:380-389 | draws every index in the slice |
| VertexBuffers.BufferedVerticesAllDrawn | src/vertex_buffer.rs:239-306 | after buffering n vertices, drawing the buffer draws vertices 0 to n |
| VertexBuffers.BufferedIndicesAllDrawn | src/vertex_buffer.rs:254-353 | after buffering n indices, drawing the buffer draws n indices |

## Left out

- Shader and program objects, uniforms as calls, `use_program` and the program binder's `bind`: only the program slot of the context is modelled, as one more slot that the typestate frees or uses up.
- `clear`, `enable`/`disable` of capabilities, `clear_color`, `viewport` and the other context-wide state setters. They bind nothing, so they add nothing to the binding guarantee.
- The `&mut` flavours of `split_*` are modelled as `Context.Op.Borrow` and `Context.Op.BorrowUnit`. As written, a borrow hands the binder out and leaves the slot free; the model lets the program use the two in any order, including orders the borrow checker forbids while the borrow is live. Only the counterexamples use that build, and each of them uses an order Rust accepts. The `ToRef` impls and the `&ContextOf` flavours bind nothing and are not modelled.
- Context.AtMostOneBindingPerTarget: stated for the corrected build only. As written, the crate does not keep this promise (see Findings).
- `active_nth` and units past 7: only the eight statically typed units are modelled.
- Calling `current_context` more than once. This is `unsafe` in the crate and breaks its guarantee. The model starts from one call.
- Dropping objects outside the builders. The `Drop` impls call `glDelete*`, and deleting a bound object unbinds it. The builders' error paths, which drop the object they made, are modelled with that unbinding. Dropping any other object is not modelled. In particular, `Texture2dBinder::bind` does not tie its binding's lifetime to the texture, so a bound 2D texture can be dropped while its binding lives. The guarantee does not cover that case.
- Which units a deleted texture is unbound from. The OpenGL ES 2.0 specification says a deleted texture that is bound reverts to 0, without saying clearly whether that covers units other than the active one. The model unbinds it on every unit, as later versions of the standard spell out. Only unit 0 ever holds a texture that is deleted in the model.
- Iteration order of `HashMap`. The order in which the framebuffer builder and `AttribBinder` visit their entries is a parameter, required to list every key exactly once.
- VertexBuffers.MatchAttributes: the crate returns the unknown attribute names as a `Vec` in hash order; the model returns them as a set, because that order is unspecified.
- Debug-only error polling (`dbg_gl_error!`) and the values GL itself reports: `GetError` and `CheckStatus` take the code the driver returns as a parameter.
- Byte reinterpretation (`slice::from_raw_parts` over `#[repr(C)]` data). The per-element encoding is a parameter of known width, so machine layout and endianness are not modelled.
- `u32`, `usize` and `GLint` widths: counts, sizes and object names are unbounded naturals, and overflow of the crate's `as` casts is not modelled.
- `debug_assert!` checks (levels must be 0, ranges must fit the buffer): they are preconditions of the model's operations.
- `load_with`, the GL function loader: this is foreign code.
- `current_binding`-style queries of the driver: the driver state is read directly in contracts instead.
- Types.FramebufferErrorDisplay, Types.FramebufferErrorDescription, Types.FramebufferErrorDebug: the contracts say only that each text is non-empty. That the texts tell the errors apart is stated by the Distinguishes lemmas; the exact wording is in the bodies.
- FramebufferContext.DecodeFramebufferStatus: FRAMEBUFFER_INCOMPLETE_DIMENSIONS is deliberately left undecoded (it is commented out), so it reports no error. The model keeps that behaviour and states it in the contract.

## Findings

| source | as written | input that shows it | evidently intended | confidence | as-written member | corrected member |
|---|---|---|---|---|---|---|
| src/context/texture_units.rs:1471-1477 | binding a texture through a unit's binding calls glBindTexture without re-activating that unit, so the texture goes to whichever unit is active | `active_texture_0`, then `active_texture_1`, then `bind_texture_2d` on the unit-0 binding: the texture is bound on unit 1 and unit 0 is unchanged | the texture is bound on the binding's own unit | not executed | TextureUnits.TextureUnitAliasing | TextureUnits.BindTexture2d |
| src/context/buffer_context.rs:621-630 | a binder's `bind` borrows the binder mutably, and the binding it returns is not tied to the binder. So a binder taken out with `split_*` binds again while the first binding lives. The same holds for the element-array, framebuffer, renderbuffer and texture binders, and for `TextureUnit::active` (texture_units.rs:30-36) | `split_array_buffer` on the context, then `bind` twice on the binder with two buffers: two array-buffer bindings, the first no longer in effect | binding through a binder, or activating a unit, uses it up, so that target cannot be bound again while the binding lives | not executed | Context.KeptBinderBindsTwice | Context.AtMostOneBindingPerTarget |
| src/index_data.rs:58-63 | the byte views of index, vertex, uniform and texel data take their start address from `&self[0]`, which panics on an empty slice | an empty index slice, for example `[u16; 0]` | an empty slice has an empty byte view | not executed | Bytes.EmptySliceBytes | Bytes.SliceBytes |
| src/uniform_data.rs:120-142 | `[T; 2]`, `[T; 3]` and `[T; 4]` report `Vec1` like a scalar, losing the vector's length | `[1.0f32, 2.0, 3.0]` reports `Vec1(Float)`, one component | `Vec2`, `Vec3` and `Vec4` | not executed | UniformData.ArrayTypeAsWrittenLosesLength | UniformData.DatumType |

=== FILE: buffer_context.dfy ===
/**
 * The buffer part of a context: the array-buffer and element-array-buffer
 * binders, splitting them off a context, binding buffers through them, and
 * the buffer-level driver calls (upload, attribute pointers, draws).
 */
module BufferContext {
  import opened Gl
  import opened Bytes
  import opened Types
  import opened GlObjects
  import opened GlDriver
  import opened IndexData
  import opened ContextState

  /** The capability to bind the array-buffer target. */
  datatype ArrayBufferBinder = ArrayBufferBinder

  /** The capability to bind the element-array-buffer target. */
  datatype ElementArrayBufferBinder = ElementArrayBufferBinder

  /** `BufferBinderOf<A, E>`: the two buffer slots of a context. */
  datatype BufferBinderOf<+A, +E> = BufferBinderOf(arrayBuffer: A, elementArray: E)

  /** The buffer slots with the binder-or-used choice written as a value. */
  type BufferBinder = BufferBinderOf<Slot<ArrayBufferBinder>, Slot<ElementArrayBufferBinder>>

  /** `BufferBinder::current`: both buffer targets are free. */
  function CurrentBufferBinder(): (b: BufferBinder)
    ensures b.arrayBuffer.Free? && b.elementArray.Free?
  {
    BufferBinderOf(Free(ArrayBufferBinder), Free(ElementArrayBufferBinder))
  }

  /** `swap_array`: take out the array slot, put `na` in its place. */
  function SwapArray<A, E, NA>(b: BufferBinderOf<A, E>, na: NA): (r: (A, BufferBinderOf<NA, E>))
    ensures r.0 == b.arrayBuffer && r.1.arrayBuffer == na && r.1.elementArray == b.elementArray
  {
    (b.arrayBuffer, BufferBinderOf(na, b.elementArray))
  }

  /** `swap_element_array`: take out the element-array slot, put `ne` in its place. */
  function SwapElementArray<A, E, NE>(b: BufferBinderOf<A, E>, ne: NE): (r: (E, BufferBinderOf<A, NE>))
    ensures r.0 == b.elementArray && r.1.elementArray == ne && r.1.arrayBuffer == b.arrayBuffer
  {
    (b.elementArray, BufferBinderOf(b.arrayBuffer, ne))
  }

  /** Swapping the taken-out slot back in restores the original binder pair. */
  lemma BufferSwapRoundTrips<A, E, N>(b: BufferBinderOf<A, E>, n: N)
    ensures var (old_, rest) := SwapArray(b, n); SwapArray(rest, old_).1 == b
    ensures var (old_, rest) := SwapElementArray(b, n); SwapElementArray(rest, old_).1 == b
  {
  }

  /** Proof that a buffer is bound to the array-buffer target; `buffer` is its id. */
  datatype ArrayBufferBinding = ArrayBufferBinding(buffer: nat)

  /** Proof that a buffer is bound to the element-array-buffer target. */
  datatype ElementArrayBufferBinding = ElementArrayBufferBinding(buffer: nat)

  /** `BufferBinding::target` of an array-buffer binding. */
  function ArrayBindingTarget(b: ArrayBufferBinding): (t: BufferBindingTarget)
    ensures BufferTargetGlEnum(t) == ARRAY_BUFFER
  {
    ArrayBuffer
  }

  /** `BufferBinding::target` of an element-array-buffer binding. */
  function ElementArrayBindingTarget(b: ElementArrayBufferBinding): (t: BufferBindingTarget)
    ensures BufferTargetGlEnum(t) == ELEMENT_ARRAY_BUFFER
  {
    ElementArrayBuffer
  }

  /** `ArrayBufferBinder::bind`: bind the buffer to the array-buffer target. */
  function BindArrayBinder(binder: ArrayBufferBinder, buffer: Buffer, d: Driver): (r: (ArrayBufferBinding, Driver))
    ensures r.0.buffer == buffer.id
    ensures r.1 == Issue(d, BindBuffer(ARRAY_BUFFER, buffer.id))
    ensures r.1.bindings[Global(ARRAY_BUFFER)] == buffer.id
  {
    var binding := ArrayBufferBinding(buffer.id);
    (binding, Issue(d, BindBuffer(BufferTargetGlEnum(ArrayBindingTarget(binding)), buffer.id)))
  }

  /** `ElementArrayBufferBinder::bind`: bind the buffer to the element-array-buffer target. */
  function BindElementArrayBinder(binder: ElementArrayBufferBinder, buffer: Buffer, d: Driver): (r: (ElementArrayBufferBinding, Driver))
    ensures r.0.buffer == buffer.id
    ensures r.1 == Issue(d, BindBuffer(ELEMENT_ARRAY_BUFFER, buffer.id))
    ensures r.1.bindings[Global(ELEMENT_ARRAY_BUFFER)] == buffer.id
  {
    var binding := ElementArrayBufferBinding(buffer.id);
    (binding, Issue(d, BindBuffer(BufferTargetGlEnum(ElementArrayBindingTarget(binding)), buffer.id)))
  }

  /**
   * `split_array_buffer` on an owned context: hand out the array-buffer
   * binder and leave `()` (here `Used`) in its slot. Only a context whose
   * array slot holds the binder offers this.
   */
  function SplitArrayBuffer<E, F, P, R, T>(c: ContextOf<BufferBinderOf<Slot<ArrayBufferBinder>, E>, F, P, R, T>)
    : (r: (ArrayBufferBinder, ContextOf<BufferBinderOf<Slot<ArrayBufferBinder>, E>, F, P, R, T>))
    requires c.buffers.arrayBuffer.Free?
    ensures c.buffers.arrayBuffer == Free(r.0)
    ensures r.1 == c.(buffers := c.buffers.(arrayBuffer := Used))
  {
    var (buffers, gl) := SwapBuffers(c, ());
    var (binder, restBuffers) := SwapArray(buffers, Used);
    var (_, gl) := SwapBuffers(gl, restBuffers);
    (binder.binder, gl)
  }

  /** `split_element_array_buffer` on an owned context. */
  function SplitElementArrayBuffer<A, F, P, R, T>(c: ContextOf<BufferBinderOf<A, Slot<ElementArrayBufferBinder>>, F, P, R, T>)
    : (r: (ElementArrayBufferBinder, ContextOf<BufferBinderOf<A, Slot<ElementArrayBufferBinder>>, F, P, R, T>))
    requires c.buffers.elementArray.Free?
    ensures c.buffers.elementArray == Free(r.0)
    ensures r.1 == c.(buffers := c.buffers.(elementArray := Used))
  {
    var (buffers, gl) := SwapBuffers(c, ());
    var (binder, restBuffers) := SwapElementArray(buffers, Used);
    var (_, gl) := SwapBuffers(gl, restBuffers);
    (binder.binder, gl)
  }

  /**
   * `bind_array_buffer`: split off the binder and bind the buffer. The rest
   * of the context has no array-buffer binder left, so it cannot bind that
   * target a second time.
   */
  function BindArrayBuffer<E, F, P, R, T>(c: ContextOf<BufferBinderOf<Slot<ArrayBufferBinder>, E>, F, P, R, T>, buffer: Buffer, d: Driver)
    : (r: (ArrayBufferBinding, ContextOf<BufferBinderOf<Slot<ArrayBufferBinder>, E>, F, P, R, T>, Driver))
    requires c.buffers.arrayBuffer.Free?
    ensures r.0.buffer == buffer.id
    ensures r.1.buffers.arrayBuffer.Used? && r.1 == c.(buffers := c.buffers.(arrayBuffer := Used))
    ensures r.2 == Issue(d, BindBuffer(ARRAY_BUFFER, buffer.id))
  {
    var (binder, rest) := SplitArrayBuffer(c);
    var (binding, d') := BindArrayBinder(binder, buffer, d);
    (binding, rest, d')
  }

  /** `bind_element_array_buffer`: split off the binder and bind the buffer. */
  function BindElementArrayBuffer<A, F, P, R, T>(c: ContextOf<BufferBinderOf<A, Slot<ElementArrayBufferBinder>>, F, P, R, T>, buffer: Buffer, d: Driver)
    : (r: (ElementArrayBufferBinding, ContextOf<BufferBinderOf<A, Slot<ElementArrayBufferBinder>>, F, P, R, T>, Driver))
    requires c.buffers.elementArray.Free?
    ensures r.0.buffer == buffer.id
    ensures r.1.buffers.elementArray.Used? && r.1 == c.(buffers := c.buffers.(elementArray := Used))
    ensures r.2 == Issue(d, BindBuffer(ELEMENT_ARRAY_BUFFER, buffer.id))
  {
    var (binder, rest) := SplitElementArrayBuffer(c);
    var (binding, d') := BindElementArrayBinder(binder, buffer, d);
    (binding, rest, d')
  }

  /** `gen_buffer`: the driver names a new buffer object `id`. */
  function GenBuffer(id: nat, d: Driver): (r: (Buffer, Driver))
    ensures r.0.id == id
    ensures r.1.calls == d.calls + [GenBuffers(id)]
    ensures r.1.bindings == d.bindings && r.1.active == d.active
  {
    (Buffer(id), Issue(d, GenBuffers(id)))
  }

  /** `buffer_bytes`: upload `bytes` to whatever buffer the binding's target holds. */
  function BufferBytes(target: BufferBindingTarget, bytes: seq<Byte>, usage: BufferDataUsage, d: Driver): (e: Driver)
    ensures e.calls == d.calls + [BufferData(BufferTargetGlEnum(target), bytes, UsageGlEnum(usage))]
    ensures e.bindings == d.bindings && e.active == d.active
  {
    Issue(d, BufferData(BufferTargetGlEnum(target), bytes, UsageGlEnum(usage)))
  }

  /**
   * `vertex_attrib_pointer`: describe how attribute `attrib` reads the bound
   * array buffer. The component count must lie in 1..=4.
   */
  function VertexAttribPointer(attrib: ProgramAttrib, components: int, dataType: DataType,
                               normalized: bool, stride: nat, offset: nat, d: Driver): (e: Driver)
    requires 1 <= components <= 4
    ensures e.calls == d.calls + [Call.VertexAttribPointer(attrib.glIndex, components, DataTypeGlEnum(dataType), normalized, stride, offset)]
    ensures e.bindings == d.bindings && e.active == d.active
  {
    Issue(d, Call.VertexAttribPointer(attrib.glIndex, components, DataTypeGlEnum(dataType), normalized, stride, offset))
  }

  /** `draw_arrays_range`: draw `count` vertices starting at `first`; needs an array-buffer binding. */
  function DrawArraysRange(ab: ArrayBufferBinding, mode: DrawingMode, first: nat, count: nat, d: Driver): (e: Driver)
    ensures e.calls == d.calls + [DrawArrays(DrawingModeGlEnum(mode), first, count)]
    ensures e.bindings == d.bindings && e.active == d.active
  {
    Issue(d, DrawArrays(DrawingModeGlEnum(mode), first, count))
  }

  /** `draw_n_elements_buffered`: draw `count` indices read from the bound element buffer. */
  function DrawNElementsBuffered(ab: ArrayBufferBinding, eab: ElementArrayBufferBinding, mode: DrawingMode,
                                 count: nat, indexType: IndexDatumType, d: Driver): (e: Driver)
    ensures e.calls == d.calls + [DrawElements(DrawingModeGlEnum(mode), count, IndexTypeGlEnum(indexType), BoundElementBuffer)]
    ensures e.bindings == d.bindings && e.active == d.active
  {
    Issue(d, DrawElements(DrawingModeGlEnum(mode), count, IndexTypeGlEnum(indexType), BoundElementBuffer))
  }

  /**
   * `draw_n_elements`: draw the first `count` of the given client-side
   * indices, which must be no more than there are.
   */
  function DrawNElements(ab: ArrayBufferBinding, mode: DrawingMode, count: nat, indices: IndexSlice,
                         encode: nat -> seq<Byte>, d: Driver): (e: Driver)
    requires count <= IndexElements(indices)
    requires forall i :: 0 <= i < |indices.elems| ==> |encode(indices.elems[i])| == SizeOf(indices.ty)
    ensures e.calls == d.calls + [DrawElements(DrawingModeGlEnum(mode), count, IndexTypeGlEnum(IndexDatumTypeOf(indices)),
                                               ClientIndices(IndexBytes(indices, encode)))]
    ensures e.bindings == d.bindings && e.active == d.active
  {
    var source := ClientIndices(IndexBytes(indices, encode));
    Issue(d, DrawElements(DrawingModeGlEnum(mode), count, IndexTypeGlEnum(IndexDatumTypeOf(indices)), source))
  }

  /** `draw_elements`: draw every one of the given client-side indices. */
  function DrawAllElements(ab: ArrayBufferBinding, mode: DrawingMode, indices: IndexSlice,
                           encode: nat -> seq<Byte>, d: Driver): (e: Driver)
    requires forall i :: 0 <= i < |indices.elems| ==> |encode(indices.elems[i])| == SizeOf(indices.ty)
    ensures e == DrawNElements(ab, mode, IndexElements(indices), indices, encode, d)
    ensures e.calls[|d.calls|].count == |indices.elems|
  {
    DrawNElements(ab, mode, IndexElements(indices), indices, encode, d)
  }
}

=== FILE: bytes.dfy ===
/**
 * Byte views of slices. Every `*_bytes` conversion in the crate reinterprets
 * a slice of fixed-size elements as the concatenation of the elements'
 * in-memory bytes; the per-element encoding (field layout and machine
 * endianness) is a parameter of the model.
 */
module Bytes {
  import opened Results

  /** A raw byte. */
  type Byte = bv8

  /** Offset `a * w + j` with `j < w` lies inside the first `n` records when `a < n`. */
  lemma OffsetInRange(a: nat, n: nat, j: nat, w: nat)
    requires a < n && j < w
    ensures a * w + j < n * w
  {
    assert (a + 1) * w <= n * w;
  }

  /**
   * The byte view of a slice whose elements each occupy `size` bytes: the
   * concatenation of the elements' encodings, in slice order.
   */
  function SliceBytes<T>(xs: seq<T>, encode: T -> seq<Byte>, size: nat): (r: seq<Byte>)
    requires forall i :: 0 <= i < |xs| ==> |encode(xs[i])| == size
    ensures |r| == size * |xs|
  {
    if xs == [] then [] else encode(xs[0]) + SliceBytes(xs[1..], encode, size)
  }

  /** Byte `j` of element `i` sits at offset `i * size + j` of the byte view. */
  lemma {:induction false} SliceBytesAt<T>(xs: seq<T>, encode: T -> seq<Byte>, size: nat, i: nat, j: nat)
    requires forall k :: 0 <= k < |xs| ==> |encode(xs[k])| == size
    requires i < |xs| && j < size
    ensures i * size + j < |SliceBytes(xs, encode, size)|
    ensures SliceBytes(xs, encode, size)[i * size + j] == encode(xs[i])[j]
  {
    OffsetInRange(i, |xs|, j, size);
    if i > 0 {
      SliceBytesAt(xs[1..], encode, size, i - 1, j);
      assert i * size + j == size + ((i - 1) * size + j);
      assert xs[1..][i - 1] == xs[i];
    }
  }

  /** Every byte of every element sits at its offset in the byte view. */
  lemma SliceBytesIndex<T>(xs: seq<T>, encode: T -> seq<Byte>, size: nat)
    requires forall k :: 0 <= k < |xs| ==> |encode(xs[k])| == size
    ensures forall i, j :: 0 <= i < |xs| && 0 <= j < size ==>
      SliceBytes(xs, encode, size)[i * size + j] == encode(xs[i])[j]
  {
    forall i, j | 0 <= i < |xs| && 0 <= j < size
      ensures SliceBytes(xs, encode, size)[i * size + j] == encode(xs[i])[j]
    {
      SliceBytesAt(xs, encode, size, i, j);
    }
  }

  /**
   * The byte view as the crate computes it: the start address is taken from
   * `&self[0]`, which panics on an empty slice before the length (zero) is
   * ever used.
   */
  function SliceBytesAsWritten<T>(xs: seq<T>, encode: T -> seq<Byte>, size: nat): (r: Result<seq<Byte>, Panic>)
    requires forall i :: 0 <= i < |xs| ==> |encode(xs[i])| == size
    ensures r.Err? <==> |xs| == 0
    ensures r.Ok? ==> r.value == SliceBytes(xs, encode, size)
  {
    if |xs| == 0 then Err(IndexOutOfBounds) else Ok(SliceBytes(xs, encode, size))
  }

  /**
   * The empty slice is the one input on which the two differ: the crate
   * panics where the intended result is the empty byte string.
   */
  lemma EmptySliceBytes<T>(encode: T -> seq<Byte>, size: nat)
    ensures SliceBytesAsWritten([], encode, size) == Err(IndexOutOfBounds)
    ensures SliceBytes([], encode, size) == []
  {
  }
}

=== FILE: context.dfy ===
/**
 * The whole context: `current_context`, and the guarantee the typestate
 * exists for. Starting from the context `current_context` hands out, every
 * sequence of binds the typestate admits hands out at most one binding per
 * binding point, and each binding handed out stays in effect in the driver.
 */
module Context {
  import opened Results
  import opened Gl
  import opened GlObjects
  import opened GlDriver
  import opened Textures
  import opened ContextState
  import opened BufferContext
  import opened FramebufferContext
  import opened RenderbufferContext
  import opened TextureBinders
  import opened TextureUnits

  /** `Context`: every slot holds its binder type or `()`. */
  type Context = ContextOf<BufferBinder, Slot<FramebufferBinder>, Slot<ProgramBinder>, Slot<RenderbufferBinder>, TextureUnits>

  /** Whether texture unit `k` is still free in a set of unit slots. */
  function UnitFree(u: TextureUnits, k: UnitIndex): bool {
    match k
    case 0 => u.unit0.Free?
    case 1 => u.unit1.Free?
    case 2 => u.unit2.Free?
    case 3 => u.unit3.Free?
    case 4 => u.unit4.Free?
    case 5 => u.unit5.Free?
    case 6 => u.unit6.Free?
    case 7 => u.unit7.Free?
  }

  /** `current_context`: every binder of every slot is present, so every target is free. */
  function CurrentContext(): (c: Context)
    ensures c.buffers.arrayBuffer.Free? && c.buffers.elementArray.Free?
    ensures c.framebuffer.Free? && c.program.Free? && c.renderbuffer.Free?
    ensures forall k: UnitIndex :: UnitFree(c.texUnits, k)
  {
    ContextOf(CurrentBufferBinder(), CurrentFramebufferBinder(), CurrentProgramBinder(),
              CurrentRenderbufferBinder(), CurrentTextureUnits())
  }

  /** `active_texture_k` for the unit `k` names. */
  function ActivateTexture(c: Context, k: UnitIndex, d: Driver): (r: (TextureUnitBinding, Context, Driver))
    requires UnitFree(c.texUnits, k)
    ensures r.0 == CurrentAtIdx(k)
    ensures r.1.buffers == c.buffers && r.1.framebuffer == c.framebuffer
    ensures r.1.program == c.program && r.1.renderbuffer == c.renderbuffer
    ensures forall j: UnitIndex :: UnitFree(r.1.texUnits, j) <==> UnitFree(c.texUnits, j) && j != k
    ensures r.2.bindings == d.bindings && r.2.active == UnitCode(k)
  {
    match k
    case 0 => ActiveTexture0(c, d)
    case 1 => ActiveTexture1(c, d)
    case 2 => ActiveTexture2(c, d)
    case 3 => ActiveTexture3(c, d)
    case 4 => ActiveTexture4(c, d)
    case 5 => ActiveTexture5(c, d)
    case 6 => ActiveTexture6(c, d)
    case 7 => ActiveTexture7(c, d)
  }

  /** A binding handed out: the binding point and the object bound there. */
  datatype Claim = Claim(point: BindPoint, id: nat)

  /**
   * A target binder the program holds itself. `split_*` on an owned context
   * (or unit binding) hands the binder over; the same methods on a `&mut`
   * context hand over a `&mut` borrow of it.
   */
  datatype Kept =
    | KeptArray
    | KeptElementArray
    | KeptFramebuffer
    | KeptRenderbuffer
    | KeptTexture2d(unit: UnitIndex)
    | KeptCubeMap(unit: UnitIndex)

  /**
   * Which crate a program runs against. `AsWritten` is glitter's code.
   * `Corrected` is the crate with the two fixes its guarantee needs: a
   * binder's `bind` and a unit's `active` use the binder up (they take
   * `self`, or their result borrows the binder, and a binding here never
   * ends), and a texture bind makes its own unit active first.
   */
  datatype Build = AsWritten | Corrected

  /**
   * A program's view of the context: the rest-context it holds, the unit
   * bindings it holds (by unit index), the target binders and texture
   * units it holds itself, the driver, and the bindings handed out so far.
   */
  datatype World = World(ctx: Context, units: map<UnitIndex, TextureUnitBinding>,
                         kept: set<Kept>, keptUnits: set<UnitIndex>, driver: Driver, claims: seq<Claim>)

  /** One step a program can attempt. */
  datatype Op =
    | BindArray(id: nat)
    | BindElementArray(id: nat)
    | BindFbo(id: nat)
    | BindRbo(id: nat)
    | ActivateUnit(unit: UnitIndex)
    | BindTex2d(unit: UnitIndex, id: nat)
    | BindCubeMap(unit: UnitIndex, id: nat)
      /** `split_*` on an owned context or unit binding: the slot becomes `()`, the program keeps the binder. */
    | Split(b: Kept)
      /** `split_*` on a `&mut` context or unit binding: the program holds `&mut` the binder. */
    | Borrow(b: Kept)
      /** The binder's own `bind(&mut self, …)`, on a binder the program holds. */
    | BindWith(b: Kept, id: nat)
      /** `split_tex_unit_k` on an owned context: the program keeps the unit. */
    | SplitUnit(unit: UnitIndex)
      /** `split_tex_unit_k` on a `&mut` context: the program holds `&mut` the unit. */
    | BorrowUnit(unit: UnitIndex)
      /** `TextureUnit::active(&mut self)` on a unit the program holds. */
    | ActivateWith(unit: UnitIndex)

  /** The world a program starts in: a fresh context and no bindings handed out. */
  function Initial(d: Driver): (w: World)
    ensures w.ctx == CurrentContext() && w.units == map[] && |w.claims| == 0
    ensures w.kept == {} && w.keptUnits == {} && w.driver == d
  {
    World(CurrentContext(), map[], {}, {}, d, [])
  }

  /** Whether the slot a binder comes from still holds it. */
  predicate SlotFree(w: World, b: Kept) {
    match b
    case KeptArray => w.ctx.buffers.arrayBuffer.Free?
    case KeptElementArray => w.ctx.buffers.elementArray.Free?
    case KeptFramebuffer => w.ctx.framebuffer.Free?
    case KeptRenderbuffer => w.ctx.renderbuffer.Free?
    case KeptTexture2d(k) => k in w.units && w.units[k].texture2d.Free?
    case KeptCubeMap(k) => k in w.units && w.units[k].textureCubeMap.Free?
  }

  /** The binding point a binder binds. */
  function KeptPoint(b: Kept): (p: BindPoint)
    ensures p.Global? <==> !b.KeptTexture2d? && !b.KeptCubeMap?
  {
    match b
    case KeptArray => Global(ARRAY_BUFFER)
    case KeptElementArray => Global(ELEMENT_ARRAY_BUFFER)
    case KeptFramebuffer => Global(FRAMEBUFFER)
    case KeptRenderbuffer => Global(RENDERBUFFER)
    case KeptTexture2d(k) => PerUnit(TEXTURE_2D, UnitCode(k))
    case KeptCubeMap(k) => PerUnit(TEXTURE_CUBE_MAP, UnitCode(k))
  }

  /** Distinct binders bind distinct points. */
  lemma KeptPointInjective(a: Kept, b: Kept)
    requires a != b
    ensures KeptPoint(a) != KeptPoint(b)
  {
    if a.KeptTexture2d? && b.KeptTexture2d? && UnitCode(a.unit) == UnitCode(b.unit) {
      UnitCodeInjective(a.unit, b.unit);
    }
    if a.KeptCubeMap? && b.KeptCubeMap? && UnitCode(a.unit) == UnitCode(b.unit) {
      UnitCodeInjective(a.unit, b.unit);
    }
  }

  /** `split_*`: the program takes the binder out of its slot, which is left `()`. */
  function SplitSlot(w: World, b: Kept): (r: World)
    requires SlotFree(w, b)
    ensures !SlotFree(r, b)
    ensures forall b' :: b' != b ==> SlotFree(r, b') == SlotFree(w, b')
    ensures r.units.Keys == w.units.Keys && r.ctx.texUnits == w.ctx.texUnits
    ensures forall k :: k in w.units ==> r.units[k].idx == w.units[k].idx
    ensures r.kept == w.kept && r.keptUnits == w.keptUnits && r.driver == w.driver && r.claims == w.claims
  {
    match b
    case KeptArray => w.(ctx := SplitArrayBuffer(w.ctx).1)
    case KeptElementArray => w.(ctx := SplitElementArrayBuffer(w.ctx).1)
    case KeptFramebuffer => w.(ctx := SplitFramebuffer(w.ctx).1)
    case KeptRenderbuffer => w.(ctx := SplitRenderbuffer(w.ctx).1)
    case KeptTexture2d(k) => w.(units := w.units[k := SplitTexture2d(w.units[k]).1])
    case KeptCubeMap(k) => w.(units := w.units[k := SplitTextureCubeMap(w.units[k]).1])
  }

  /**
   * `bind` on a binder the program holds. As written, a texture binder
   * binds on whichever unit is active; corrected, it activates its own
   * unit first. Every other binder binds its own point.
   */
  function BinderBind(b: Kept, id: nat, build: Build, d: Driver): (e: Driver)
    ensures (build.Corrected? || KeptPoint(b).Global?) ==> e.bindings == d.bindings[KeptPoint(b) := id]
    ensures build.AsWritten? && b.KeptTexture2d? ==> e.bindings == d.bindings[PerUnit(TEXTURE_2D, d.active) := id]
    ensures build.AsWritten? && b.KeptCubeMap? ==> e.bindings == d.bindings[PerUnit(TEXTURE_CUBE_MAP, d.active) := id]
  {
    match b
    case KeptArray => BindArrayBinder(ArrayBufferBinder, Buffer(id), d).1
    case KeptElementArray => BindElementArrayBinder(ElementArrayBufferBinder, Buffer(id), d).1
    case KeptFramebuffer => BindFramebufferBinder(FramebufferBinder, Framebuffer(id), d).1
    case KeptRenderbuffer => BindRenderbufferBinder(RenderbufferBinder, Renderbuffer(id), d).1
    case KeptTexture2d(k) =>
      var d1 := if build.Corrected? then Issue(d, ActiveTexture(UnitCode(k))) else d;
      BindTexture2dBinder(CurrentTexture2dBinder(), Texture(id, Tx2d), d1).1
    case KeptCubeMap(k) =>
      var d1 := if build.Corrected? then Issue(d, ActiveTexture(UnitCode(k))) else d;
      BindTextureCubeMapBinder(CurrentTextureCubeMapBinder(), Texture(id, TxCubeMap), d1).1
  }

  /** `split_tex_unit_k` for the unit `k` names: only unit k's slot becomes `()`. */
  function SplitUnitSlot(c: Context, k: UnitIndex): (r: Context)
    requires UnitFree(c.texUnits, k)
    ensures r.buffers == c.buffers && r.framebuffer == c.framebuffer
    ensures r.program == c.program && r.renderbuffer == c.renderbuffer
    ensures forall j: UnitIndex :: UnitFree(r.texUnits, j) <==> UnitFree(c.texUnits, j) && j != k
  {
    match k
    case 0 => SplitTexUnit0(c).1
    case 1 => SplitTexUnit1(c).1
    case 2 => SplitTexUnit2(c).1
    case 3 => SplitTexUnit3(c).1
    case 4 => SplitTexUnit4(c).1
    case 5 => SplitTexUnit5(c).1
    case 6 => SplitTexUnit6(c).1
    case 7 => SplitTexUnit7(c).1
  }

  /**
   * One attempted step. `None` when the types offer no such method: the
   * slot needed is `()`, the unit was never activated, or the program does
   * not hold the binder or unit. The two builds differ only where the
   * binders and units a program holds are used, and in the texture binds.
   */
  function Step(w: World, op: Op, build: Build): (r: Option<World>)
  {
    match op
    case BindArray(id) =>
      if !w.ctx.buffers.arrayBuffer.Free? then None
      else
        var (b, ctx, d) := BindArrayBuffer(w.ctx, Buffer(id), w.driver);
        Some(w.(ctx := ctx, driver := d, claims := w.claims + [Claim(Global(ARRAY_BUFFER), id)]))
    case BindElementArray(id) =>
      if !w.ctx.buffers.elementArray.Free? then None
      else
        var (b, ctx, d) := BindElementArrayBuffer(w.ctx, Buffer(id), w.driver);
        Some(w.(ctx := ctx, driver := d, claims := w.claims + [Claim(Global(ELEMENT_ARRAY_BUFFER), id)]))
    case BindFbo(id) =>
      if !w.ctx.framebuffer.Free? then None
      else
        var (b, ctx, d) := BindFramebufferCtx(w.ctx, Framebuffer(id), w.driver);
        Some(w.(ctx := ctx, driver := d, claims := w.claims + [Claim(Global(FRAMEBUFFER), id)]))
    case BindRbo(id) =>
      if !w.ctx.renderbuffer.Free? then None
      else
        var (b, ctx, d) := BindRenderbufferCtx(w.ctx, Renderbuffer(id), w.driver);
        Some(w.(ctx := ctx, driver := d, claims := w.claims + [Claim(Global(RENDERBUFFER), id)]))
    case ActivateUnit(k) =>
      if !UnitFree(w.ctx.texUnits, k) then None
      else
        var (b, ctx, d) := ActivateTexture(w.ctx, k, w.driver);
        Some(w.(ctx := ctx, units := w.units[k := b], driver := d))
    case BindTex2d(k, id) =>
      if k !in w.units || !w.units[k].texture2d.Free? then None
      else
        var (b, rest, d) := if build.Corrected? then BindTexture2d(w.units[k], Texture(id, Tx2d), w.driver)
                            else BindTexture2dAsWritten(w.units[k], Texture(id, Tx2d), w.driver);
        Some(w.(units := w.units[k := rest], driver := d,
                claims := w.claims + [Claim(PerUnit(TEXTURE_2D, UnitCode(k)), id)]))
    case BindCubeMap(k, id) =>
      if k !in w.units || !w.units[k].textureCubeMap.Free? then None
      else
        var (b, rest, d) := if build.Corrected? then BindTextureCubeMap(w.units[k], Texture(id, TxCubeMap), w.driver)
                            else BindTextureCubeMapAsWritten(w.units[k], Texture(id, TxCubeMap), w.driver);
        Some(w.(units := w.units[k := rest], driver := d,
                claims := w.claims + [Claim(PerUnit(TEXTURE_CUBE_MAP, UnitCode(k)), id)]))
    case Split(b) =>
      if !SlotFree(w, b) then None
      else Some(SplitSlot(w, b).(kept := w.kept + {b}))
    case Borrow(b) =>
      if !SlotFree(w, b) then None
      else if build.Corrected? then Some(SplitSlot(w, b).(kept := w.kept + {b}))
      else Some(w.(kept := w.kept + {b}))
    case BindWith(b, id) =>
      if b !in w.kept then None
      else Some(w.(driver := BinderBind(b, id, build, w.driver),
                   kept := if build.Corrected? then w.kept - {b} else w.kept,
                   claims := w.claims + [Claim(KeptPoint(b), id)]))
    case SplitUnit(k) =>
      if !UnitFree(w.ctx.texUnits, k) then None
      else Some(w.(ctx := SplitUnitSlot(w.ctx, k), keptUnits := w.keptUnits + {k}))
    case BorrowUnit(k) =>
      if !UnitFree(w.ctx.texUnits, k) then None
      else if build.Corrected? then Some(w.(ctx := SplitUnitSlot(w.ctx, k), keptUnits := w.keptUnits + {k}))
      else Some(w.(keptUnits := w.keptUnits + {k}))
    case ActivateWith(k) =>
      if k !in w.keptUnits then None
      else
        var (b, d) := Active(k, w.driver);
        Some(w.(units := w.units[k := b], driver := d,
                keptUnits := if build.Corrected? then w.keptUnits - {k} else w.keptUnits))
  }

  /** Attempt the steps in order; `None` as soon as one is rejected. */
  function Run(w: World, ops: seq<Op>, build: Build): (r: Option<World>)
    decreases |ops|
  {
    if ops == [] then Some(w)
    else match Step(w, ops[0], build)
      case None => None
      case Some(w') => Run(w', ops[1..], build)
  }

  /** The binding points of the bindings handed out. */
  function Points(cs: seq<Claim>): set<BindPoint> {
    set i | 0 <= i < |cs| :: cs[i].point
  }

  /** No two bindings handed out share a binding point. */
  predicate DistinctPoints(cs: seq<Claim>) {
    forall i, j :: 0 <= i < j < |cs| ==> cs[i].point != cs[j].point
  }

  /** Every binding handed out is still what the driver has bound at its point. */
  predicate Held(cs: seq<Claim>, d: Driver) {
    forall i :: 0 <= i < |cs| ==> cs[i].point in d.bindings && d.bindings[cs[i].point] == cs[i].id
  }

  /** The bindings handed out have distinct points and are all in effect. */
  predicate ClaimsInv(w: World) {
    DistinctPoints(w.claims) && Held(w.claims, w.driver)
  }

  /**
   * A binder is in exactly one place: still in its slot, held by the
   * program, or used up by a binding handed out at its point.
   */
  predicate Accounted(w: World, b: Kept) {
    && ((SlotFree(w, b) || b in w.kept) <==> KeptPoint(b) !in Points(w.claims))
    && !(SlotFree(w, b) && b in w.kept)
  }

  /** Every context-wide binder is accounted for. */
  predicate GlobalsInv(w: World) {
    Accounted(w, KeptArray) && Accounted(w, KeptElementArray)
    && Accounted(w, KeptFramebuffer) && Accounted(w, KeptRenderbuffer)
  }

  /** Whether a point is one of the texture targets of a unit. */
  predicate OnUnit(p: BindPoint, k: UnitIndex) {
    p == PerUnit(TEXTURE_2D, UnitCode(k)) || p == PerUnit(TEXTURE_CUBE_MAP, UnitCode(k))
  }

  /**
   * A unit is in exactly one place: still in its slot, held by the
   * program, or activated (the program holds its binding, which stands for
   * it). The texture binders of an activated unit are accounted for, and a
   * unit that was never activated has no texture binder out and nothing
   * bound on it.
   */
  predicate UnitsInv(w: World) {
    && (forall k: UnitIndex :: UnitFree(w.ctx.texUnits, k) <==> k !in w.units && k !in w.keptUnits)
    && (forall k :: k in w.keptUnits ==> k !in w.units)
    && (forall k :: k in w.units ==> w.units[k].idx == k)
    && (forall k: UnitIndex :: k in w.units ==> Accounted(w, KeptTexture2d(k)) && Accounted(w, KeptCubeMap(k)))
    && (forall k: UnitIndex :: k !in w.units ==>
          && KeptTexture2d(k) !in w.kept && KeptCubeMap(k) !in w.kept
          && PerUnit(TEXTURE_2D, UnitCode(k)) !in Points(w.claims)
          && PerUnit(TEXTURE_CUBE_MAP, UnitCode(k)) !in Points(w.claims))
  }

  /** The invariant of every world the corrected crate can reach. */
  predicate Inv(w: World) {
    ClaimsInv(w) && GlobalsInv(w) && UnitsInv(w)
  }

  /** Handing out one more binding adds its point to the claimed points. */
  lemma PointsAppend(cs: seq<Claim>, c: Claim)
    ensures Points(cs + [c]) == Points(cs) + {c.point}
  {
    var cs' := cs + [c];
    assert cs'[|cs|] == c;
    forall p | p in Points(cs)
      ensures p in Points(cs')
    {
      var i :| 0 <= i < |cs| && cs[i].point == p;
      assert cs'[i] == cs[i];
    }
  }

  /**
   * A binding at an unclaimed point, recorded by the driver, keeps the
   * points distinct and every binding in effect.
   */
  lemma AddClaim(cs: seq<Claim>, d: Driver, c: Claim, d': Driver)
    requires DistinctPoints(cs) && Held(cs, d)
    requires c.point !in Points(cs)
    requires d'.bindings == d.bindings[c.point := c.id]
    ensures DistinctPoints(cs + [c]) && Held(cs + [c], d')
    ensures Points(cs + [c]) == Points(cs) + {c.point}
  {
    PointsAppend(cs, c);
    var cs' := cs + [c];
    forall i | 0 <= i < |cs|
      ensures cs[i].point != c.point
    {
      assert cs[i].point in Points(cs);
    }
    forall i, j | 0 <= i < j < |cs'|
      ensures cs'[i].point != cs'[j].point
    {
      if j == |cs| {
        assert cs'[i] == cs[i];
      } else {
        assert cs'[i] == cs[i] && cs'[j] == cs[j];
      }
    }
  }

  /** The fresh world satisfies the invariant. */
  lemma InitialInv(d: Driver)
    ensures Inv(Initial(d))
  {
    assert Points([]) == {};
  }

  /**
   * A world that differs only by a new binding at a context-wide point,
   * whose binder is now in no place, keeps the invariant.
   */
  lemma GlobalBindInv(w: World, w': World, c: Claim)
    requires Inv(w)
    requires c.point.Global? && c.point !in Points(w.claims)
    requires w'.claims == w.claims + [c] && w'.units == w.units && w'.ctx.texUnits == w.ctx.texUnits
    requires w'.kept - {KeptArray, KeptElementArray, KeptFramebuffer, KeptRenderbuffer}
          == w.kept - {KeptArray, KeptElementArray, KeptFramebuffer, KeptRenderbuffer}
    requires w'.keptUnits == w.keptUnits
    requires w'.driver.bindings == w.driver.bindings[c.point := c.id]
    requires GlobalsInv(w')
    ensures Inv(w')
  {
    AddClaim(w.claims, w.driver, c, w'.driver);
    forall k: UnitIndex
      ensures KeptTexture2d(k) in w'.kept <==> KeptTexture2d(k) in w.kept
      ensures KeptCubeMap(k) in w'.kept <==> KeptCubeMap(k) in w.kept
    {
      assert KeptTexture2d(k) in w'.kept - {KeptArray, KeptElementArray, KeptFramebuffer, KeptRenderbuffer}
         <==> KeptTexture2d(k) in w.kept - {KeptArray, KeptElementArray, KeptFramebuffer, KeptRenderbuffer};
      assert KeptCubeMap(k) in w'.kept - {KeptArray, KeptElementArray, KeptFramebuffer, KeptRenderbuffer}
         <==> KeptCubeMap(k) in w.kept - {KeptArray, KeptElementArray, KeptFramebuffer, KeptRenderbuffer};
    }
  }

  /** Binding the array buffer keeps the invariant. */
  lemma BindArrayInv(w: World, id: nat)
    requires Inv(w) && Step(w, BindArray(id), Corrected).Some?
    ensures Inv(Step(w, BindArray(id), Corrected).value)
  {
    var w' := Step(w, BindArray(id), Corrected).value;
    PointsAppend(w.claims, Claim(Global(ARRAY_BUFFER), id));
    GlobalBindInv(w, w', Claim(Global(ARRAY_BUFFER), id));
  }

  /** Binding the element-array buffer keeps the invariant. */
  lemma BindElementArrayInv(w: World, id: nat)
    requires Inv(w) && Step(w, BindElementArray(id), Corrected).Some?
    ensures Inv(Step(w, BindElementArray(id), Corrected).value)
  {
    var w' := Step(w, BindElementArray(id), Corrected).value;
    PointsAppend(w.claims, Claim(Global(ELEMENT_ARRAY_BUFFER), id));
    GlobalBindInv(w, w', Claim(Global(ELEMENT_ARRAY_BUFFER), id));
  }

  /** Binding a framebuffer keeps the invariant. */
  lemma BindFboInv(w: World, id: nat)
    requires Inv(w) && Step(w, BindFbo(id), Corrected).Some?
    ensures Inv(Step(w, BindFbo(id), Corrected).value)
  {
    var w' := Step(w, BindFbo(id), Corrected).value;
    PointsAppend(w.claims, Claim(Global(FRAMEBUFFER), id));
    GlobalBindInv(w, w', Claim(Global(FRAMEBUFFER), id));
  }

  /** Binding a renderbuffer keeps the invariant. */
  lemma BindRboInv(w: World, id: nat)
    requires Inv(w) && Step(w, BindRbo(id), Corrected).Some?
    ensures Inv(Step(w, BindRbo(id), Corrected).value)
  {
    var w' := Step(w, BindRbo(id), Corrected).value;
    PointsAppend(w.claims, Claim(Global(RENDERBUFFER), id));
    GlobalBindInv(w, w', Claim(Global(RENDERBUFFER), id));
  }

  /**
   * A world that differs only by unit `k`, which was free or held by the
   * program, now being activated with a fresh binding, keeps the invariant.
   */
  lemma NewUnitInv(w: World, w': World, k: UnitIndex)
    requires Inv(w) && k !in w.units
    requires w'.units == w.units[k := CurrentAtIdx(k)]
    requires w'.kept == w.kept && w'.claims == w.claims
    requires w'.driver.bindings == w.driver.bindings
    requires w'.ctx.buffers == w.ctx.buffers && w'.ctx.framebuffer == w.ctx.framebuffer
    requires w'.ctx.renderbuffer == w.ctx.renderbuffer
    requires forall j: UnitIndex :: UnitFree(w'.ctx.texUnits, j) <==> UnitFree(w.ctx.texUnits, j) && j != k
    requires w'.keptUnits == w.keptUnits - {k}
    ensures Inv(w')
  {
  }

  /** Activating a unit from the context keeps the invariant. */
  lemma ActivateUnitInv(w: World, k: UnitIndex)
    requires Inv(w) && Step(w, ActivateUnit(k), Corrected).Some?
    ensures Inv(Step(w, ActivateUnit(k), Corrected).value)
  {
    NewUnitInv(w, Step(w, ActivateUnit(k), Corrected).value, k);
  }

  /** A binder whose place did not change stays accounted for when the claimed points do not change. */
  lemma AccountedSame(w: World, w': World, b: Kept)
    requires Accounted(w, b)
    requires SlotFree(w', b) == SlotFree(w, b) && (b in w'.kept <==> b in w.kept)
    requires Points(w'.claims) == Points(w.claims)
    ensures Accounted(w', b)
  {
  }

  /**
   * A binder whose place did not change stays accounted for when a binding
   * is handed out at another binder's point.
   */
  lemma AccountedOther(w: World, w': World, b: Kept, used: Kept)
    requires Accounted(w, b) && b != used
    requires SlotFree(w', b) == SlotFree(w, b) && (b in w'.kept <==> b in w.kept)
    requires Points(w'.claims) == Points(w.claims) + {KeptPoint(used)}
    ensures Accounted(w', b)
  {
    KeptPointInjective(b, used);
  }

  /** A binder used up by a binding at its point is accounted for. */
  lemma AccountedUsed(w: World, w': World, b: Kept)
    requires !SlotFree(w', b) && b !in w'.kept
    requires Points(w'.claims) == Points(w.claims) + {KeptPoint(b)}
    ensures Accounted(w', b)
  {
  }

  /** The units part of the invariant survives a new binding at the point of binder `b`. */
  lemma BinderBindUnitsInv(w: World, w': World, b: Kept)
    requires Inv(w)
    requires b.KeptTexture2d? || b.KeptCubeMap? ==> b.unit in w.units
    requires Points(w'.claims) == Points(w.claims) + {KeptPoint(b)}
    requires w'.ctx == w.ctx && w'.keptUnits == w.keptUnits && w'.units.Keys == w.units.Keys
    requires forall k :: k in w.units ==> w'.units[k].idx == k
    requires !SlotFree(w', b) && b !in w'.kept
    requires forall b' :: b' != b ==> SlotFree(w', b') == SlotFree(w, b') && (b' in w'.kept <==> b' in w.kept)
    ensures UnitsInv(w')
  {
    forall k: UnitIndex | k in w.units
      ensures Accounted(w', KeptTexture2d(k)) && Accounted(w', KeptCubeMap(k))
    {
      AccountedAfterBind(w, w', b, KeptTexture2d(k));
      AccountedAfterBind(w, w', b, KeptCubeMap(k));
    }
    forall k: UnitIndex | k !in w.units
      ensures KeptTexture2d(k) !in w'.kept && KeptCubeMap(k) !in w'.kept
      ensures PerUnit(TEXTURE_2D, UnitCode(k)) !in Points(w'.claims)
      ensures PerUnit(TEXTURE_CUBE_MAP, UnitCode(k)) !in Points(w'.claims)
    {
      assert KeptTexture2d(k) != b && KeptCubeMap(k) != b;
      KeptPointInjective(KeptTexture2d(k), b);
      KeptPointInjective(KeptCubeMap(k), b);
    }
  }

  /**
   * A world that differs only by a new binding at the point of binder `b`,
   * which was in its slot or held by the program and is now in neither,
   * keeps the invariant.
   */
  lemma BinderBindInv(w: World, w': World, b: Kept, c: Claim)
    requires Inv(w) && c.point == KeptPoint(b) && c.point !in Points(w.claims)
    requires b.KeptTexture2d? || b.KeptCubeMap? ==> b.unit in w.units
    requires w'.claims == w.claims + [c] && w'.ctx == w.ctx && w'.keptUnits == w.keptUnits
    requires w'.units.Keys == w.units.Keys
    requires forall k :: k in w.units ==> w'.units[k].idx == k
    requires !SlotFree(w', b) && b !in w'.kept
    requires forall b' :: b' != b ==> SlotFree(w', b') == SlotFree(w, b') && (b' in w'.kept <==> b' in w.kept)
    requires w'.driver.bindings == w.driver.bindings[c.point := c.id]
    ensures Inv(w')
  {
    AddClaim(w.claims, w.driver, c, w'.driver);
    AccountedAfterBind(w, w', b, KeptArray);
    AccountedAfterBind(w, w', b, KeptElementArray);
    AccountedAfterBind(w, w', b, KeptFramebuffer);
    AccountedAfterBind(w, w', b, KeptRenderbuffer);
    BinderBindUnitsInv(w, w', b);
  }

  /** After a binding at binder `b`'s point, each accounted binder stays accounted for. */
  lemma AccountedAfterBind(w: World, w': World, b: Kept, g: Kept)
    requires Accounted(w, g)
    requires Points(w'.claims) == Points(w.claims) + {KeptPoint(b)}
    requires !SlotFree(w', b) && b !in w'.kept
    requires forall b' :: b' != b ==> SlotFree(w', b') == SlotFree(w, b') && (b' in w'.kept <==> b' in w.kept)
    ensures Accounted(w', g)
  {
    if g == b { AccountedUsed(w, w', b); } else { AccountedOther(w, w', g, b); }
  }

  /** Using up unit `k`'s 2D slot moves no other binder. */
  lemma Tex2dUsedFrame(w: World, w': World, k: UnitIndex)
    requires k in w.units
    requires w'.ctx == w.ctx && w'.kept == w.kept
    requires w'.units == w.units[k := w.units[k].(texture2d := Used)]
    ensures !SlotFree(w', KeptTexture2d(k)) && (KeptTexture2d(k) in w'.kept <==> KeptTexture2d(k) in w.kept)
    ensures forall b' :: b' != KeptTexture2d(k) ==> SlotFree(w', b') == SlotFree(w, b') && (b' in w'.kept <==> b' in w.kept)
  {
  }

  /** Using up unit `k`'s cube-map slot moves no other binder. */
  lemma CubeMapUsedFrame(w: World, w': World, k: UnitIndex)
    requires k in w.units
    requires w'.ctx == w.ctx && w'.kept == w.kept
    requires w'.units == w.units[k := w.units[k].(textureCubeMap := Used)]
    ensures !SlotFree(w', KeptCubeMap(k)) && (KeptCubeMap(k) in w'.kept <==> KeptCubeMap(k) in w.kept)
    ensures forall b' :: b' != KeptCubeMap(k) ==> SlotFree(w', b') == SlotFree(w, b') && (b' in w'.kept <==> b' in w.kept)
  {
  }

  /** Binding a 2D texture through an activated unit keeps the invariant. */
  lemma BindTex2dInv(w: World, k: UnitIndex, id: nat)
    requires Inv(w) && Step(w, BindTex2d(k, id), Corrected).Some?
    ensures Inv(Step(w, BindTex2d(k, id), Corrected).value)
  {
    var c := Claim(PerUnit(TEXTURE_2D, UnitCode(k)), id);
    var w' := Step(w, BindTex2d(k, id), Corrected).value;
    assert Accounted(w, KeptTexture2d(k));
    Tex2dUsedFrame(w, w', k);
    BinderBindInv(w, w', KeptTexture2d(k), c);
  }

  /** Binding a cube map through an activated unit keeps the invariant. */
  lemma BindCubeMapInv(w: World, k: UnitIndex, id: nat)
    requires Inv(w) && Step(w, BindCubeMap(k, id), Corrected).Some?
    ensures Inv(Step(w, BindCubeMap(k, id), Corrected).value)
  {
    var c := Claim(PerUnit(TEXTURE_CUBE_MAP, UnitCode(k)), id);
    var w' := Step(w, BindCubeMap(k, id), Corrected).value;
    assert Accounted(w, KeptCubeMap(k));
    CubeMapUsedFrame(w, w', k);
    BinderBindInv(w, w', KeptCubeMap(k), c);
  }

  /** Taking a binder out of its slot, owned or through `&mut`, keeps the invariant once binders are used up. */
  lemma SplitInv(w: World, op: Op)
    requires op.Split? || op.Borrow?
    requires Inv(w) && Step(w, op, Corrected).Some?
    ensures Inv(Step(w, op, Corrected).value)
  {
    SplitSlotInv(w, op.b);
  }

  /** Moving a binder from its slot into the program's hands keeps the invariant. */
  lemma SplitSlotInv(w: World, b: Kept)
    requires Inv(w) && SlotFree(w, b)
    ensures Inv(SplitSlot(w, b).(kept := w.kept + {b}))
  {
    var w' := SplitSlot(w, b).(kept := w.kept + {b});
    assert Accounted(w, b);
    AccountedAfterSplit(w, w', b, KeptArray);
    AccountedAfterSplit(w, w', b, KeptElementArray);
    AccountedAfterSplit(w, w', b, KeptFramebuffer);
    AccountedAfterSplit(w, w', b, KeptRenderbuffer);
    forall k: UnitIndex | k in w.units
      ensures Accounted(w', KeptTexture2d(k)) && Accounted(w', KeptCubeMap(k))
    {
      AccountedAfterSplit(w, w', b, KeptTexture2d(k));
      AccountedAfterSplit(w, w', b, KeptCubeMap(k));
    }
  }

  /** After binder `b` moves from its slot into the program's hands, each accounted binder stays accounted for. */
  lemma AccountedAfterSplit(w: World, w': World, b: Kept, g: Kept)
    requires Accounted(w, b) && SlotFree(w, b) && Accounted(w, g)
    requires w' == SplitSlot(w, b).(kept := w.kept + {b})
    ensures Accounted(w', g)
  {
    if g != b { AccountedSame(w, w', g); }
  }

  /** Binding through a binder the program holds keeps the invariant once binding uses it up. */
  lemma BindWithInv(w: World, b: Kept, id: nat)
    requires Inv(w) && Step(w, BindWith(b, id), Corrected).Some?
    ensures Inv(Step(w, BindWith(b, id), Corrected).value)
  {
    var w' := Step(w, BindWith(b, id), Corrected).value;
    assert Accounted(w, b);
    BinderBindInv(w, w', b, Claim(KeptPoint(b), id));
  }

  /** Taking a unit out of its slot, owned or through `&mut`, keeps the invariant once units are used up. */
  lemma SplitUnitInv(w: World, op: Op)
    requires op.SplitUnit? || op.BorrowUnit?
    requires Inv(w) && Step(w, op, Corrected).Some?
    ensures Inv(Step(w, op, Corrected).value)
  {
    UnitSlotInv(w, op.unit);
  }

  /** Moving a unit from its slot into the program's hands keeps the invariant. */
  lemma UnitSlotInv(w: World, k: UnitIndex)
    requires Inv(w) && UnitFree(w.ctx.texUnits, k)
    ensures Inv(w.(ctx := SplitUnitSlot(w.ctx, k), keptUnits := w.keptUnits + {k}))
  {
    var w' := w.(ctx := SplitUnitSlot(w.ctx, k), keptUnits := w.keptUnits + {k});
    forall b | Accounted(w, b)
      ensures Accounted(w', b)
    {
      AccountedSame(w, w', b);
    }
  }

  /** Activating a unit the program holds keeps the invariant once activation uses it up. */
  lemma ActivateWithInv(w: World, k: UnitIndex)
    requires Inv(w) && Step(w, ActivateWith(k), Corrected).Some?
    ensures Inv(Step(w, ActivateWith(k), Corrected).value)
  {
    NewUnitInv(w, Step(w, ActivateWith(k), Corrected).value, k);
  }

  /** Every step the corrected crate admits preserves the invariant. */
  lemma StepInv(w: World, op: Op)
    requires Inv(w)
    requires Step(w, op, Corrected).Some?
    ensures Inv(Step(w, op, Corrected).value)
  {
    match op
    case BindArray(id) => BindArrayInv(w, id);
    case BindElementArray(id) => BindElementArrayInv(w, id);
    case BindFbo(id) => BindFboInv(w, id);
    case BindRbo(id) => BindRboInv(w, id);
    case ActivateUnit(k) => ActivateUnitInv(w, k);
    case BindTex2d(k, id) => BindTex2dInv(w, k, id);
    case BindCubeMap(k, id) => BindCubeMapInv(w, k, id);
    case Split(_) => SplitInv(w, op);
    case Borrow(_) => SplitInv(w, op);
    case BindWith(b, id) => BindWithInv(w, b, id);
    case SplitUnit(_) => SplitUnitInv(w, op);
    case BorrowUnit(_) => SplitUnitInv(w, op);
    case ActivateWith(k) => ActivateWithInv(w, k);
  }

  /** Every run the corrected crate admits keeps the invariant. */
  lemma {:induction false} RunInv(w: World, ops: seq<Op>)
    requires Inv(w)
    requires Run(w, ops, Corrected).Some?
    ensures Inv(Run(w, ops, Corrected).value)
    decreases |ops|
  {
    if ops != [] {
      StepInv(w, ops[0]);
      RunInv(Step(w, ops[0], Corrected).value, ops[1..]);
    }
  }

  /**
   * The guarantee of the typestate, for the corrected crate: from
   * `current_context`, whatever a program does — binding through the
   * context, splitting binders and units off by value or through `&mut`,
   * binding through them and activating units — no binding point is handed
   * out twice, and every binding handed out is still the driver's binding
   * at its point.
   */
  lemma AtMostOneBindingPerTarget(d: Driver, ops: seq<Op>)
    requires Run(Initial(d), ops, Corrected).Some?
    ensures DistinctPoints(Run(Initial(d), ops, Corrected).value.claims)
    ensures Held(Run(Initial(d), ops, Corrected).value.claims, Run(Initial(d), ops, Corrected).value.driver)
  {
    InitialInv(d);
    RunInv(Initial(d), ops);
  }

  /** Running a sequence whose first step is accepted runs the rest from where that step leads. */
  lemma RunThen(w: World, op: Op, rest: seq<Op>, build: Build)
    requires Step(w, op, build).Some?
    ensures Run(w, [op] + rest, build) == Run(Step(w, op, build).value, rest, build)
  {
    assert ([op] + rest)[1..] == rest;
  }

  /** Running a sequence whose first step is rejected is rejected. */
  lemma RunStops(w: World, op: Op, rest: seq<Op>, build: Build)
    requires Step(w, op, build).None?
    ensures Run(w, [op] + rest, build).None?
  {
  }

  /**
   * The guarantee needs texture binds that re-activate their unit. Activate
   * unit 0, then unit 1, then bind a 2D texture through the unit-0 binding:
   * as written, the binding handed out for unit 0 is not in effect (the
   * texture went to unit 1); corrected, every binding stays in effect.
   */
  lemma AsWrittenBindBreaksHeld(d: Driver, id: nat)
    requires PerUnit(TEXTURE_2D, TEXTURE0) !in d.bindings
    ensures var w := Run(Initial(d), [ActivateUnit(0), ActivateUnit(1), BindTex2d(0, id)], AsWritten);
      w.Some? && !Held(w.value.claims, w.value.driver)
    ensures var w := Run(Initial(d), [ActivateUnit(0), ActivateUnit(1), BindTex2d(0, id)], Corrected);
      w.Some? && Held(w.value.claims, w.value.driver)
  {
    var ops := [ActivateUnit(0), ActivateUnit(1), BindTex2d(0, id)];
    assert ops == [ActivateUnit(0)] + ([ActivateUnit(1)] + [BindTex2d(0, id)]);
    var w1 := Step(Initial(d), ActivateUnit(0), AsWritten).value;
    RunThen(Initial(d), ActivateUnit(0), [ActivateUnit(1)] + [BindTex2d(0, id)], AsWritten);
    var w2 := Step(w1, ActivateUnit(1), AsWritten).value;
    RunThen(w1, ActivateUnit(1), [BindTex2d(0, id)], AsWritten);
    assert w2.driver.bindings == d.bindings && w2.units[0] == CurrentAtIdx(0);
    var w3 := Step(w2, BindTex2d(0, id), AsWritten).value;
    RunThen(w2, BindTex2d(0, id), [], AsWritten);
    assert [BindTex2d(0, id)] + [] == [BindTex2d(0, id)];
    assert w3.driver.bindings == d.bindings[PerUnit(TEXTURE_2D, UnitCode(1)) := id];
    assert w3.claims[0].point !in w3.driver.bindings;
    var c1 := Step(Initial(d), ActivateUnit(0), Corrected).value;
    RunThen(Initial(d), ActivateUnit(0), [ActivateUnit(1)] + [BindTex2d(0, id)], Corrected);
    var c2 := Step(c1, ActivateUnit(1), Corrected).value;
    RunThen(c1, ActivateUnit(1), [BindTex2d(0, id)], Corrected);
    RunThen(c2, BindTex2d(0, id), [], Corrected);
    AtMostOneBindingPerTarget(d, ops);
  }

  /**
   * Binding twice through a context-wide binder split off by value: as
   * written, both binds succeed and hand out two bindings of the same
   * point, the first no longer in effect.
   */
  lemma KeptBinderBindsTwice(d: Driver, g: Kept, a: nat, b: nat)
    requires KeptPoint(g).Global?
    ensures var w := Run(Initial(d), [Split(g), BindWith(g, a), BindWith(g, b)], AsWritten);
      && w.Some? && w.value.claims == [Claim(KeptPoint(g), a), Claim(KeptPoint(g), b)]
      && !DistinctPoints(w.value.claims)
      && (a != b ==> !Held(w.value.claims, w.value.driver))
  {
    var ops := [Split(g), BindWith(g, a), BindWith(g, b)];
    assert ops == [Split(g)] + ([BindWith(g, a)] + [BindWith(g, b)]);
    assert [BindWith(g, b)] + [] == [BindWith(g, b)];
    var w0 := Initial(d);
    assert SlotFree(w0, g);
    var w1 := Step(w0, Split(g), AsWritten).value;
    RunThen(w0, Split(g), [BindWith(g, a)] + [BindWith(g, b)], AsWritten);
    var w2 := Step(w1, BindWith(g, a), AsWritten).value;
    RunThen(w1, BindWith(g, a), [BindWith(g, b)], AsWritten);
    var w3 := Step(w2, BindWith(g, b), AsWritten).value;
    RunThen(w2, BindWith(g, b), [], AsWritten);
    assert w3.claims == [Claim(KeptPoint(g), a), Claim(KeptPoint(g), b)];
    assert w3.claims[0].point == w3.claims[1].point;
    assert w3.driver.bindings[KeptPoint(g)] == b;
  }

  /** Corrected, binding through a binder uses it up: the second bind through it is rejected. */
  lemma KeptBinderBindsOnce(d: Driver, g: Kept, a: nat, b: nat)
    requires KeptPoint(g).Global?
    ensures Run(Initial(d), [Split(g), BindWith(g, a), BindWith(g, b)], Corrected).None?
  {
    assert [Split(g), BindWith(g, a), BindWith(g, b)] == [Split(g)] + ([BindWith(g, a)] + [BindWith(g, b)]);
    var w0 := Initial(d);
    assert SlotFree(w0, g);
    var c1 := Step(w0, Split(g), Corrected).value;
    RunThen(w0, Split(g), [BindWith(g, a)] + [BindWith(g, b)], Corrected);
    var c2 := Step(c1, BindWith(g, a), Corrected).value;
    RunThen(c1, BindWith(g, a), [BindWith(g, b)], Corrected);
    RunStops(c2, BindWith(g, b), [], Corrected);
  }

  /**
   * Activating a unit the program holds twice: as written, each activation
   * hands out a fresh unit binding, so the unit's 2D target is bound twice
   * and the first binding is no longer in effect.
   */
  lemma RepeatedActivationBindsTwice(d: Driver, k: UnitIndex, a: nat, b: nat)
    ensures var w := Run(Initial(d), [SplitUnit(k), ActivateWith(k), BindTex2d(k, a), ActivateWith(k), BindTex2d(k, b)], AsWritten);
      && w.Some? && !DistinctPoints(w.value.claims)
      && (a != b ==> !Held(w.value.claims, w.value.driver))
  {
    var t3 := [ActivateWith(k)] + [BindTex2d(k, b)];
    var t2 := [BindTex2d(k, a)] + t3;
    var t1 := [ActivateWith(k)] + t2;
    assert [SplitUnit(k), ActivateWith(k), BindTex2d(k, a), ActivateWith(k), BindTex2d(k, b)] == [SplitUnit(k)] + t1;
    assert [BindTex2d(k, b)] + [] == [BindTex2d(k, b)];
    var w0 := Initial(d);
    var w1 := Step(w0, SplitUnit(k), AsWritten).value;
    RunThen(w0, SplitUnit(k), t1, AsWritten);
    var w2 := Step(w1, ActivateWith(k), AsWritten).value;
    RunThen(w1, ActivateWith(k), t2, AsWritten);
    var w3 := Step(w2, BindTex2d(k, a), AsWritten).value;
    RunThen(w2, BindTex2d(k, a), t3, AsWritten);
    var w4 := Step(w3, ActivateWith(k), AsWritten).value;
    RunThen(w3, ActivateWith(k), [BindTex2d(k, b)], AsWritten);
    var w5 := Step(w4, BindTex2d(k, b), AsWritten).value;
    RunThen(w4, BindTex2d(k, b), [], AsWritten);
    assert w5.claims[0].point == w5.claims[1].point;
    assert w5.driver.bindings[PerUnit(TEXTURE_2D, UnitCode(k))] == b;
  }

  /** Corrected, activating a held unit uses it up: the second activation is rejected. */
  lemma RepeatedActivationRejected(d: Driver, k: UnitIndex, a: nat, b: nat)
    ensures Run(Initial(d), [SplitUnit(k), ActivateWith(k), BindTex2d(k, a), ActivateWith(k), BindTex2d(k, b)], Corrected).None?
  {
    var t3 := [ActivateWith(k)] + [BindTex2d(k, b)];
    var t2 := [BindTex2d(k, a)] + t3;
    var t1 := [ActivateWith(k)] + t2;
    assert [SplitUnit(k), ActivateWith(k), BindTex2d(k, a), ActivateWith(k), BindTex2d(k, b)] == [SplitUnit(k)] + t1;
    var w0 := Initial(d);
    var c1 := Step(w0, SplitUnit(k), Corrected).value;
    RunThen(w0, SplitUnit(k), t1, Corrected);
    var c2 := Step(c1, ActivateWith(k), Corrected).value;
    RunThen(c1, ActivateWith(k), t2, Corrected);
    var c3 := Step(c2, BindTex2d(k, a), Corrected).value;
    RunThen(c2, BindTex2d(k, a), t3, Corrected);
    RunStops(c3, ActivateWith(k), [BindTex2d(k, b)], Corrected);
  }

  /**
   * Binding through the `&mut` flavour of the context leaves the framebuffer
   * slot free: as written, a by-value bind afterwards hands out a second
   * framebuffer binding.
   */
  lemma BorrowedBinderLeavesSlotFree(d: Driver, a: nat, b: nat)
    ensures var w := Run(Initial(d), [Borrow(KeptFramebuffer), BindWith(KeptFramebuffer, a), BindFbo(b)], AsWritten);
      && w.Some? && w.value.claims == [Claim(Global(FRAMEBUFFER), a), Claim(Global(FRAMEBUFFER), b)]
      && !DistinctPoints(w.value.claims)
  {
    var f := KeptFramebuffer;
    assert [Borrow(f), BindWith(f, a), BindFbo(b)] == [Borrow(f)] + ([BindWith(f, a)] + [BindFbo(b)]);
    assert [BindFbo(b)] + [] == [BindFbo(b)];
    var w0 := Initial(d);
    var w1 := Step(w0, Borrow(f), AsWritten).value;
    RunThen(w0, Borrow(f), [BindWith(f, a)] + [BindFbo(b)], AsWritten);
    var w2 := Step(w1, BindWith(f, a), AsWritten).value;
    RunThen(w1, BindWith(f, a), [BindFbo(b)], AsWritten);
    assert w2.ctx.framebuffer.Free?;
    var w3 := Step(w2, BindFbo(b), AsWritten).value;
    RunThen(w2, BindFbo(b), [], AsWritten);
    assert w3.claims == [Claim(Global(FRAMEBUFFER), a), Claim(Global(FRAMEBUFFER), b)];
    assert w3.claims[0].point == w3.claims[1].point;
  }

  /** Corrected, a binder borrowed through `&mut` uses its slot up, so no by-value bind follows. */
  lemma BorrowedBinderUsesSlot(d: Driver, a: nat, b: nat)
    ensures Run(Initial(d), [Borrow(KeptFramebuffer), BindWith(KeptFramebuffer, a), BindFbo(b)], Corrected).None?
  {
    var f := KeptFramebuffer;
    assert [Borrow(f), BindWith(f, a), BindFbo(b)] == [Borrow(f)] + ([BindWith(f, a)] + [BindFbo(b)]);
    var w0 := Initial(d);
    var c1 := Step(w0, Borrow(f), Corrected).value;
    RunThen(w0, Borrow(f), [BindWith(f, a)] + [BindFbo(b)], Corrected);
    var c2 := Step(c1, BindWith(f, a), Corrected).value;
    RunThen(c1, BindWith(f, a), [BindFbo(b)], Corrected);
    RunStops(c2, BindFbo(b), [], Corrected);
  }

  /**
   * Once a point has been bound, the corrected crate offers no way to bind
   * it again: every second attempt is rejected.
   */
  lemma SecondBindRejected(w: World, op: Op)
    requires Inv(w)
    requires (op.BindArray? && Global(ARRAY_BUFFER) in Points(w.claims))
          || (op.BindElementArray? && Global(ELEMENT_ARRAY_BUFFER) in Points(w.claims))
          || (op.BindFbo? && Global(FRAMEBUFFER) in Points(w.claims))
          || (op.BindRbo? && Global(RENDERBUFFER) in Points(w.claims))
          || (op.BindTex2d? && PerUnit(TEXTURE_2D, UnitCode(op.unit)) in Points(w.claims))
          || (op.BindCubeMap? && PerUnit(TEXTURE_CUBE_MAP, UnitCode(op.unit)) in Points(w.claims))
          || ((op.Split? || op.Borrow? || op.BindWith?) && KeptPoint(op.b) in Points(w.claims))
    ensures Step(w, op, Corrected).None?
  {
    if op.Split? || op.Borrow? || op.BindWith? {
      if op.b.KeptTexture2d? || op.b.KeptCubeMap? {
        if op.b.unit in w.units {
          assert Accounted(w, op.b);
        }
      } else {
        assert Accounted(w, op.b);
      }
    }
  }

  /** A unit cannot be activated twice in the corrected crate, from the context or from the unit itself. */
  lemma SecondActivationRejected(w: World, k: UnitIndex)
    requires Inv(w)
    requires k in w.units
    ensures Step(w, ActivateUnit(k), Corrected).None?
    ensures Step(w, ActivateWith(k), Corrected).None?
    ensures Step(w, SplitUnit(k), Corrected).None?
  {
  }

  /**
   * Binding the array buffer leaves the element-array slot as it was, and
   * the other way round, so the two can be bound in either order.
   */
  lemma BufferTargetsIndependent(d: Driver, a: nat, e: nat, build: Build)
    ensures Run(Initial(d), [BindArray(a), BindElementArray(e)], build).Some?
    ensures Run(Initial(d), [BindElementArray(e), BindArray(a)], build).Some?
    ensures Run(Initial(d), [BindArray(a), BindElementArray(e)], build).value.driver.bindings
         == Run(Initial(d), [BindElementArray(e), BindArray(a)], build).value.driver.bindings
  {
    var w := Initial(d);
    var w1 := Step(w, BindArray(a), build).value;
    assert [BindArray(a), BindElementArray(e)][1..] == [BindElementArray(e)];
    assert [BindElementArray(e), BindArray(a)][1..] == [BindArray(a)];
    var w2 := Step(w, BindElementArray(e), build).value;
    assert Run(w1, [BindElementArray(e)], build) == Step(w1, BindElementArray(e), build);
    assert Run(w2, [BindArray(a)], build) == Step(w2, BindArray(a), build);
  }
}

=== FILE: context_state.dfy ===
/**
 * The context record: one slot per independent piece of binding state
 * (buffers, framebuffer, program, renderbuffer, texture units), the swaps
 * that exchange one slot's contents, and decoding of the driver's error code.
 *
 * Each slot's type says whether its target is still available. A slot
 * holding a binder is free; a slot holding `()` has been used. The model
 * keeps the generic record exactly, and writes the binder-or-`()` choice of
 * the typestate as a value, `Slot`, wherever the choice is what the
 * operations inspect.
 */
module ContextState {
  import opened Results
  import opened Gl
  import opened Types

  /** A binder slot: `Free(binder)` while the target can be bound, `Used` once it has been. */
  datatype Slot<+B> = Free(binder: B) | Used

  /** `ContextOf<B, F, P, R, T>`: the five slots of a context. */
  datatype ContextOf<+B, +F, +P, +R, +T> =
    ContextOf(buffers: B, framebuffer: F, program: P, renderbuffer: R, texUnits: T)

  /** The program binder. Program binding is not part of this model; only its slot is. */
  datatype ProgramBinder = ProgramBinder

  /** `ProgramBinder::current`. */
  function CurrentProgramBinder(): (b: Slot<ProgramBinder>)
    ensures b.Free?
  {
    Free(ProgramBinder)
  }

  /** `swap_buffers`: take out the buffers slot, put `nb` in its place. */
  function SwapBuffers<B, F, P, R, T, NB>(c: ContextOf<B, F, P, R, T>, nb: NB): (r: (B, ContextOf<NB, F, P, R, T>))
    ensures r.0 == c.buffers && r.1.buffers == nb
    ensures r.1.framebuffer == c.framebuffer && r.1.program == c.program
    ensures r.1.renderbuffer == c.renderbuffer && r.1.texUnits == c.texUnits
  {
    (c.buffers, ContextOf(nb, c.framebuffer, c.program, c.renderbuffer, c.texUnits))
  }

  /** `swap_framebuffer`: take out the framebuffer slot, put `nf` in its place. */
  function SwapFramebuffer<B, F, P, R, T, NF>(c: ContextOf<B, F, P, R, T>, nf: NF): (r: (F, ContextOf<B, NF, P, R, T>))
    ensures r.0 == c.framebuffer && r.1.framebuffer == nf
    ensures r.1.buffers == c.buffers && r.1.program == c.program
    ensures r.1.renderbuffer == c.renderbuffer && r.1.texUnits == c.texUnits
  {
    (c.framebuffer, ContextOf(c.buffers, nf, c.program, c.renderbuffer, c.texUnits))
  }

  /** `swap_program`: take out the program slot, put `np` in its place. */
  function SwapProgram<B, F, P, R, T, NP>(c: ContextOf<B, F, P, R, T>, np: NP): (r: (P, ContextOf<B, F, NP, R, T>))
    ensures r.0 == c.program && r.1.program == np
    ensures r.1.buffers == c.buffers && r.1.framebuffer == c.framebuffer
    ensures r.1.renderbuffer == c.renderbuffer && r.1.texUnits == c.texUnits
  {
    (c.program, ContextOf(c.buffers, c.framebuffer, np, c.renderbuffer, c.texUnits))
  }

  /** `swap_renderbuffer`: take out the renderbuffer slot, put `nr` in its place. */
  function SwapRenderbuffer<B, F, P, R, T, NR>(c: ContextOf<B, F, P, R, T>, nr: NR): (r: (R, ContextOf<B, F, P, NR, T>))
    ensures r.0 == c.renderbuffer && r.1.renderbuffer == nr
    ensures r.1.buffers == c.buffers && r.1.framebuffer == c.framebuffer
    ensures r.1.program == c.program && r.1.texUnits == c.texUnits
  {
    (c.renderbuffer, ContextOf(c.buffers, c.framebuffer, c.program, nr, c.texUnits))
  }

  /** `swap_tex_units`: take out the texture-units slot, put `nt` in its place. */
  function SwapTexUnits<B, F, P, R, T, NT>(c: ContextOf<B, F, P, R, T>, nt: NT): (r: (T, ContextOf<B, F, P, R, NT>))
    ensures r.0 == c.texUnits && r.1.texUnits == nt
    ensures r.1.buffers == c.buffers && r.1.framebuffer == c.framebuffer
    ensures r.1.program == c.program && r.1.renderbuffer == c.renderbuffer
  {
    (c.texUnits, ContextOf(c.buffers, c.framebuffer, c.program, c.renderbuffer, nt))
  }

  /** Swapping the taken-out contents back in restores the original context, for every slot. */
  lemma SwapRoundTrips<B, F, P, R, T, N>(c: ContextOf<B, F, P, R, T>, n: N)
    ensures var (old_, rest) := SwapBuffers(c, n); SwapBuffers(rest, old_).1 == c
    ensures var (old_, rest) := SwapFramebuffer(c, n); SwapFramebuffer(rest, old_).1 == c
    ensures var (old_, rest) := SwapProgram(c, n); SwapProgram(rest, old_).1 == c
    ensures var (old_, rest) := SwapRenderbuffer(c, n); SwapRenderbuffer(rest, old_).1 == c
    ensures var (old_, rest) := SwapTexUnits(c, n); SwapTexUnits(rest, old_).1 == c
  {
  }

  /** The errors `glGetError` can report. */
  predicate DriverError(e: GLError) {
    e.InvalidEnum? || e.InvalidValue? || e.InvalidOperation? || e.InvalidFramebufferOperation? || e.OutOfMemory?
  }

  /** The code `glGetError` returns for a driver-reportable error. */
  function ErrorCode(e: GLError): (code: GLenum)
    requires DriverError(e)
    ensures code != NO_ERROR
  {
    match e
    case InvalidEnum => INVALID_ENUM
    case InvalidValue => INVALID_VALUE
    case InvalidOperation => INVALID_OPERATION
    case InvalidFramebufferOperation => INVALID_FRAMEBUFFER_OPERATION
    case OutOfMemory => OUT_OF_MEMORY
  }

  /**
   * `get_error`: decode the code `glGetError` returned. The five error
   * codes become their errors; every other code, `NO_ERROR` included,
   * means no error.
   */
  function GetError(code: GLenum): (r: Option<GLError>)
    ensures r.Some? <==> code in {INVALID_ENUM, INVALID_VALUE, INVALID_OPERATION, INVALID_FRAMEBUFFER_OPERATION, OUT_OF_MEMORY}
    ensures r.Some? ==> DriverError(r.value) && ErrorCode(r.value) == code
  {
    if code == INVALID_ENUM then Some(InvalidEnum)
    else if code == INVALID_VALUE then Some(InvalidValue)
    else if code == INVALID_OPERATION then Some(InvalidOperation)
    else if code == INVALID_FRAMEBUFFER_OPERATION then Some(InvalidFramebufferOperation)
    else if code == OUT_OF_MEMORY then Some(OutOfMemory)
    else None
  }

  /** Every driver-reportable error is decoded back from its own code. */
  lemma GetErrorRoundTrip(e: GLError)
    requires DriverError(e)
    ensures GetError(ErrorCode(e)) == Some(e)
  {
  }
}

=== FILE: framebuffer_context.dfy ===
/**
 * The framebuffer part of a context: the framebuffer binder and binding,
 * attaching images to the bound framebuffer, decoding the completeness
 * status, and the framebuffer builder.
 */
module FramebufferContext {
  import opened Results
  import opened Gl
  import opened Types
  import opened GlObjects
  import opened GlDriver
  import opened Textures
  import opened ContextState

  /** The only framebuffer binding target. */
  datatype FramebufferTarget = FramebufferTarget

  function FramebufferTargetGlEnum(t: FramebufferTarget): (code: GLenum)
    ensures code == FRAMEBUFFER
  {
    FRAMEBUFFER
  }

  /** The attachment points of a framebuffer. */
  datatype FramebufferAttachment = ColorAttachment0 | DepthAttachment | StencilAttachment

  function AttachmentGlEnum(a: FramebufferAttachment): (code: GLenum)
    ensures a == ColorAttachment0 <==> code == COLOR_ATTACHMENT0
    ensures a == DepthAttachment <==> code == DEPTH_ATTACHMENT
    ensures a == StencilAttachment <==> code == STENCIL_ATTACHMENT
  {
    match a
    case ColorAttachment0 => COLOR_ATTACHMENT0
    case DepthAttachment => DEPTH_ATTACHMENT
    case StencilAttachment => STENCIL_ATTACHMENT
  }

  /** Distinct attachment points have distinct codes. */
  lemma AttachmentGlEnumInjective(a: FramebufferAttachment, b: FramebufferAttachment)
    requires AttachmentGlEnum(a) == AttachmentGlEnum(b)
    ensures a == b
  {
  }

  /** The capability to bind the framebuffer target. */
  datatype FramebufferBinder = FramebufferBinder

  /** Proof that framebuffer `fbo` is bound. */
  datatype FramebufferBinding = FramebufferBinding(fbo: nat)

  /** `FramebufferBinding::target`. */
  function BindingTarget(b: FramebufferBinding): (t: FramebufferTarget)
    ensures FramebufferTargetGlEnum(t) == FRAMEBUFFER
  {
    FramebufferTarget
  }

  /** `FramebufferBinder::current`. */
  function CurrentFramebufferBinder(): (s: Slot<FramebufferBinder>)
    ensures s.Free?
  {
    Free(FramebufferBinder)
  }

  /** `FramebufferBinder::bind`: bind `fbo` to the framebuffer target. */
  function BindFramebufferBinder(binder: FramebufferBinder, fbo: Framebuffer, d: Driver): (r: (FramebufferBinding, Driver))
    ensures r.0.fbo == fbo.id
    ensures r.1 == Issue(d, BindFramebuffer(FRAMEBUFFER, fbo.id))
    ensures r.1.bindings[Global(FRAMEBUFFER)] == fbo.id
  {
    var binding := FramebufferBinding(fbo.id);
    (binding, Issue(d, BindFramebuffer(FramebufferTargetGlEnum(BindingTarget(binding)), fbo.id)))
  }

  /** `split_framebuffer` on an owned context: the framebuffer slot becomes `()`. */
  function SplitFramebuffer<B, P, R, T>(c: ContextOf<B, Slot<FramebufferBinder>, P, R, T>)
    : (r: (FramebufferBinder, ContextOf<B, Slot<FramebufferBinder>, P, R, T>))
    requires c.framebuffer.Free?
    ensures c.framebuffer == Free(r.0)
    ensures r.1 == c.(framebuffer := Used)
  {
    var (binder, rest) := SwapFramebuffer(c, Used);
    (binder.binder, rest)
  }

  /** `bind_framebuffer`: split off the binder and bind `fbo`. */
  function BindFramebufferCtx<B, P, R, T>(c: ContextOf<B, Slot<FramebufferBinder>, P, R, T>, fbo: Framebuffer, d: Driver)
    : (r: (FramebufferBinding, ContextOf<B, Slot<FramebufferBinder>, P, R, T>, Driver))
    requires c.framebuffer.Free?
    ensures r.0.fbo == fbo.id
    ensures r.1 == c.(framebuffer := Used)
    ensures r.2 == Issue(d, BindFramebuffer(FRAMEBUFFER, fbo.id))
  {
    var (binder, rest) := SplitFramebuffer(c);
    var (binding, d') := BindFramebufferBinder(binder, fbo, d);
    (binding, rest, d')
  }

  /** `gen_framebuffer`: the driver names a new framebuffer object `id`. */
  function GenFramebuffer(id: nat, d: Driver): (r: (Framebuffer, Driver))
    ensures r.0.id == id
    ensures r.1.calls == d.calls + [GenFramebuffers(id)]
    ensures r.1.bindings == d.bindings && r.1.active == d.active
  {
    (Framebuffer(id), Issue(d, GenFramebuffers(id)))
  }

  /**
   * The status decoding of `check_framebuffer_status`. Three status codes
   * name an error; every other code, the incomplete-dimensions code
   * included, reads as complete.
   */
  function DecodeFramebufferStatus(code: GLenum): (r: Option<GLFramebufferError>)
    ensures r == Some(IncompleteAttachment) <==> code == FRAMEBUFFER_INCOMPLETE_ATTACHMENT
    ensures r == Some(IncompleteMissingAttachment) <==> code == FRAMEBUFFER_INCOMPLETE_MISSING_ATTACHMENT
    ensures r == Some(Unsupported) <==> code == FRAMEBUFFER_UNSUPPORTED
    ensures r != Some(IncompleteDimensions)
  {
    if code == FRAMEBUFFER_INCOMPLETE_ATTACHMENT then Some(IncompleteAttachment)
    else if code == FRAMEBUFFER_INCOMPLETE_MISSING_ATTACHMENT then Some(IncompleteMissingAttachment)
    else if code == FRAMEBUFFER_UNSUPPORTED then Some(Unsupported)
    else None
  }

  /** The status code the driver reports for each framebuffer error. */
  function FramebufferStatusCode(e: GLFramebufferError): (code: GLenum)
  {
    match e
    case IncompleteAttachment => FRAMEBUFFER_INCOMPLETE_ATTACHMENT
    case IncompleteDimensions => FRAMEBUFFER_INCOMPLETE_DIMENSIONS
    case IncompleteMissingAttachment => FRAMEBUFFER_INCOMPLETE_MISSING_ATTACHMENT
    case Unsupported => FRAMEBUFFER_UNSUPPORTED
  }

  /**
   * Decoding recovers every error but incomplete-dimensions, which is
   * reported as complete, and the complete status decodes to `None`.
   */
  lemma DecodeFramebufferStatusRoundTrip(e: GLFramebufferError)
    ensures e != IncompleteDimensions ==> DecodeFramebufferStatus(FramebufferStatusCode(e)) == Some(e)
    ensures DecodeFramebufferStatus(FramebufferStatusCode(IncompleteDimensions)) == None
    ensures DecodeFramebufferStatus(FRAMEBUFFER_COMPLETE) == None
  {
  }

  /** `check_framebuffer_status`: ask the driver, which answers `status`, and decode it. */
  function CheckStatus(fb: FramebufferBinding, status: GLenum, d: Driver): (r: (Option<GLFramebufferError>, Driver))
    ensures r.0 == DecodeFramebufferStatus(status)
    ensures r.1.calls == d.calls + [CheckFramebufferStatus(FRAMEBUFFER)]
    ensures r.1.bindings == d.bindings && r.1.active == d.active
  {
    (DecodeFramebufferStatus(status), Issue(d, CheckFramebufferStatus(FramebufferTargetGlEnum(BindingTarget(fb)))))
  }

  /** `framebuffer_renderbuffer`: attach a renderbuffer at an attachment point. */
  function AttachRenderbufferCall(fb: FramebufferBinding, attachment: FramebufferAttachment, rbo: Renderbuffer, d: Driver): (e: Driver)
    ensures e.calls == d.calls + [FramebufferRenderbuffer(FRAMEBUFFER, AttachmentGlEnum(attachment), RENDERBUFFER, rbo.id)]
    ensures e.bindings == d.bindings && e.active == d.active
  {
    Issue(d, FramebufferRenderbuffer(FramebufferTargetGlEnum(BindingTarget(fb)), AttachmentGlEnum(attachment),
                                     RenderbufferTargetGlEnum(RenderbufferTarget), rbo.id))
  }

  /** `framebuffer_texture_2d`: attach mip level `level` of a texture; only level 0 is accepted. */
  function AttachTexture2dCall(fb: FramebufferBinding, attachment: FramebufferAttachment, target: Tx2dImageTarget,
                               texture: Texture, level: int, d: Driver): (e: Driver)
    requires level == 0
    ensures e.calls == d.calls + [FramebufferTexture2D(FRAMEBUFFER, AttachmentGlEnum(attachment), TEXTURE_2D, texture.id, 0)]
    ensures e.bindings == d.bindings && e.active == d.active
  {
    Issue(d, FramebufferTexture2D(FramebufferTargetGlEnum(BindingTarget(fb)), AttachmentGlEnum(attachment),
                                  Tx2dImageTargetGlEnum(target), texture.id, level))
  }

  /** What the builder will attach at one point. */
  datatype BuilderAttachment = AttachTexture2d(texture: Texture, level: int) | AttachRenderbuffer(renderbuffer: Renderbuffer)

  /** `FramebufferBuilder`: the context it builds with and the attachments chosen so far. */
  datatype FramebufferBuilder<C> = FramebufferBuilder(gl: C, attachments: map<FramebufferAttachment, BuilderAttachment>)

  /** `build_framebuffer`: a builder with nothing attached. */
  function NewFramebufferBuilder<C>(gl: C): (b: FramebufferBuilder<C>)
    ensures b.gl == gl
    ensures |b.attachments| == 0
  {
    FramebufferBuilder(gl, map[])
  }

  /**
   * Record `attached` at `point`. An earlier choice at the same point is
   * replaced; every other point keeps its attachment.
   */
  function Attach<C>(b: FramebufferBuilder<C>, point: FramebufferAttachment, attached: BuilderAttachment): (b': FramebufferBuilder<C>)
    ensures b'.gl == b.gl
    ensures b'.attachments.Keys == b.attachments.Keys + {point}
    ensures b'.attachments[point] == attached
    ensures forall p :: p in b.attachments && p != point ==> b'.attachments[p] == b.attachments[p]
  {
    FramebufferBuilder(b.gl, b.attachments[point := attached])
  }

  /** `texture_2d`: attach mip level `level` of a 2D texture at `point`. */
  function WithTexture2d<C>(b: FramebufferBuilder<C>, point: FramebufferAttachment, texture: Texture, level: int): (b': FramebufferBuilder<C>)
    requires texture.kind == Tx2d
    ensures b'.gl == b.gl
    ensures b'.attachments.Keys == b.attachments.Keys + {point}
    ensures b'.attachments[point] == AttachTexture2d(texture, level)
    ensures forall p :: p in b.attachments && p != point ==> b'.attachments[p] == b.attachments[p]
  {
    Attach(b, point, AttachTexture2d(texture, level))
  }

  /** `renderbuffer`: attach a renderbuffer at `point`. */
  function WithRenderbuffer<C>(b: FramebufferBuilder<C>, point: FramebufferAttachment, rbo: Renderbuffer): (b': FramebufferBuilder<C>)
    ensures b'.gl == b.gl
    ensures b'.attachments.Keys == b.attachments.Keys + {point}
    ensures b'.attachments[point] == AttachRenderbuffer(rbo)
    ensures forall p :: p in b.attachments && p != point ==> b'.attachments[p] == b.attachments[p]
  {
    Attach(b, point, AttachRenderbuffer(rbo))
  }

  /** Attaching at the same point twice keeps only the second attachment. */
  lemma LastAttachmentWins<C>(b: FramebufferBuilder<C>, point: FramebufferAttachment, first: BuilderAttachment, second: BuilderAttachment)
    ensures Attach(Attach(b, point, first), point, second) == Attach(b, point, second)
  {
  }

  /** `order` lists every key of `m` exactly once: one iteration order of the map. */
  predicate IsEnumeration(order: seq<FramebufferAttachment>, m: map<FramebufferAttachment, BuilderAttachment>) {
    (forall i :: 0 <= i < |order| ==> order[i] in m)
    && (forall p :: p in m ==> p in order)
    && (forall i, j :: 0 <= i < j < |order| ==> order[i] != order[j])
  }

  /** Every texture attachment is at mip level 0, as `framebuffer_texture_2d` demands. */
  predicate LevelsZero(m: map<FramebufferAttachment, BuilderAttachment>) {
    forall p :: p in m && m[p].AttachTexture2d? ==> m[p].level == 0
  }

  /** The driver call that applies one attachment. */
  function AttachmentCall(point: FramebufferAttachment, a: BuilderAttachment): (c: Call)
    ensures (c.FramebufferTexture2D? || c.FramebufferRenderbuffer?) && c.attachment == AttachmentGlEnum(point)
  {
    match a
    case AttachTexture2d(t, level) => FramebufferTexture2D(FRAMEBUFFER, AttachmentGlEnum(point), TEXTURE_2D, t.id, level)
    case AttachRenderbuffer(r) => FramebufferRenderbuffer(FRAMEBUFFER, AttachmentGlEnum(point), RENDERBUFFER, r.id)
  }

  /** The calls that apply the attachments in the order `order`. */
  function AttachmentCalls(order: seq<FramebufferAttachment>, m: map<FramebufferAttachment, BuilderAttachment>): (cs: seq<Call>)
    requires forall i :: 0 <= i < |order| ==> order[i] in m
    ensures |cs| == |order|
    ensures forall i :: 0 <= i < |order| ==> cs[i] == AttachmentCall(order[i], m[order[i]])
  {
    seq(|order|, i requires 0 <= i < |order| => AttachmentCall(order[i], m[order[i]]))
  }

  /** Apply one attachment to the bound framebuffer. */
  function ApplyAttachment(fb: FramebufferBinding, point: FramebufferAttachment, a: BuilderAttachment, d: Driver): (e: Driver)
    requires a.AttachTexture2d? ==> a.level == 0
    ensures e.calls == d.calls + [AttachmentCall(point, a)]
    ensures e.bindings == d.bindings && e.active == d.active
  {
    match a
    case AttachTexture2d(t, level) => AttachTexture2dCall(fb, point, Texture2dImage, t, level, d)
    case AttachRenderbuffer(r) => AttachRenderbufferCall(fb, point, r, d)
  }

  /** The attachment calls of a non-empty order: the first one, then the rest. */
  lemma AttachmentCallsCons(order: seq<FramebufferAttachment>, m: map<FramebufferAttachment, BuilderAttachment>)
    requires |order| > 0
    requires forall i :: 0 <= i < |order| ==> order[i] in m
    ensures AttachmentCalls(order, m) == [AttachmentCall(order[0], m[order[0]])] + AttachmentCalls(order[1..], m)
  {
    var lhs := AttachmentCalls(order, m);
    var rhs := [AttachmentCall(order[0], m[order[0]])] + AttachmentCalls(order[1..], m);
    forall i | 0 <= i < |lhs|
      ensures lhs[i] == rhs[i]
    {
      if i > 0 {
        assert order[1..][i - 1] == order[i];
      }
    }
  }

  /** Apply the attachments listed in `order` to the bound framebuffer, one after another. */
  function ApplyAttachments(fb: FramebufferBinding, order: seq<FramebufferAttachment>,
                            m: map<FramebufferAttachment, BuilderAttachment>, d: Driver): (e: Driver)
    requires forall i :: 0 <= i < |order| ==> order[i] in m
    requires LevelsZero(m)
    ensures e.calls == d.calls + AttachmentCalls(order, m)
    ensures e.bindings == d.bindings && e.active == d.active
    decreases |order|
  {
    if order == [] then d
    else
      var d' := ApplyAttachment(fb, order[0], m[order[0]], d);
      AttachmentCallsCons(order, m);
      ApplyAttachments(fb, order[1..], m, d')
  }

  /** Every chosen attachment has its call among the attachment calls. */
  lemma AttachmentsCovered(order: seq<FramebufferAttachment>, m: map<FramebufferAttachment, BuilderAttachment>, p: FramebufferAttachment)
    requires IsEnumeration(order, m)
    requires p in m
    ensures AttachmentCall(p, m[p]) in AttachmentCalls(order, m)
  {
    var i :| 0 <= i < |order| && order[i] == p;
    assert AttachmentCalls(order, m)[i] == AttachmentCall(p, m[p]);
  }

  /** No two attachment calls target the same attachment point. */
  lemma AttachmentsDistinct(order: seq<FramebufferAttachment>, m: map<FramebufferAttachment, BuilderAttachment>, i: nat, j: nat)
    requires IsEnumeration(order, m)
    requires i < j < |order|
    ensures AttachmentCalls(order, m)[i].attachment != AttachmentCalls(order, m)[j].attachment
  {
    var cs := AttachmentCalls(order, m);
    if cs[i].attachment == cs[j].attachment {
      AttachmentGlEnumInjective(order[i], order[j]);
    }
  }

  /**
   * Each attachment is applied exactly once: there is one call per chosen
   * attachment, every chosen attachment has its call, and no two calls
   * target the same attachment point.
   */
  lemma AttachmentsAppliedOnce(order: seq<FramebufferAttachment>, m: map<FramebufferAttachment, BuilderAttachment>)
    requires IsEnumeration(order, m)
    ensures |AttachmentCalls(order, m)| == |m|
    ensures forall p :: p in m ==> AttachmentCall(p, m[p]) in AttachmentCalls(order, m)
    ensures forall i, j :: 0 <= i < j < |order| ==>
      AttachmentCalls(order, m)[i].attachment != AttachmentCalls(order, m)[j].attachment
  {
    forall p | p in m
      ensures AttachmentCall(p, m[p]) in AttachmentCalls(order, m)
    {
      AttachmentsCovered(order, m, p);
    }
    forall i, j | 0 <= i < j < |order|
      ensures AttachmentCalls(order, m)[i].attachment != AttachmentCalls(order, m)[j].attachment
    {
      AttachmentsDistinct(order, m, i, j);
    }
    SizeOfEnumeration(order, m);
  }

  /** An enumeration of a map's keys is as long as the map. */
  lemma {:induction false} SizeOfEnumeration(order: seq<FramebufferAttachment>, m: map<FramebufferAttachment, BuilderAttachment>)
    requires IsEnumeration(order, m)
    ensures |order| == |m|
    decreases |order|
  {
    if order == [] {
      assert m.Keys == {};
    } else {
      var m' := map p | p in m && p != order[0] :: m[p];
      assert m'.Keys == m.Keys - {order[0]};
      forall p | p in m'
        ensures p in order[1..]
      {
        var i :| 0 <= i < |order| && order[i] == p;
        assert i != 0;
        assert order[1..][i - 1] == p;
      }
      SizeOfEnumeration(order[1..], m');
    }
  }

  /**
   * `try_unwrap`: name a new framebuffer `fboId`, bind it, apply every
   * attachment once (in the map's iteration order `order`), and ask the
   * driver for the completeness status, which it answers with `status`.
   * On an incomplete status the new framebuffer is dropped, and dropping it
   * deletes it, which unbinds it. The builder's context must still offer
   * its framebuffer binder.
   */
  function TryUnwrap<B, P, R, T>(b: FramebufferBuilder<ContextOf<B, Slot<FramebufferBinder>, P, R, T>>,
                                 fboId: nat, order: seq<FramebufferAttachment>, status: GLenum, d: Driver)
    : (r: (Result<Framebuffer, GLError>, Driver))
    requires b.gl.framebuffer.Free?
    requires IsEnumeration(order, b.attachments)
    requires LevelsZero(b.attachments)
    ensures r.0.Ok? <==> DecodeFramebufferStatus(status).None?
    ensures r.0.Ok? ==> r.0.value.id == fboId
    ensures r.0.Err? ==> r.0.error == FramebufferError(DecodeFramebufferStatus(status).value)
    ensures r.1.calls == d.calls + [GenFramebuffers(fboId), BindFramebuffer(FRAMEBUFFER, fboId)]
                        + AttachmentCalls(order, b.attachments) + [CheckFramebufferStatus(FRAMEBUFFER)]
                        + (if r.0.Err? then [DeleteFramebuffers(fboId)] else [])
    ensures r.0.Ok? ==> r.1.bindings == d.bindings[Global(FRAMEBUFFER) := fboId]
    ensures r.0.Err? ==> r.1.bindings == d.bindings[Global(FRAMEBUFFER) := 0]
    ensures r.1.active == d.active
  {
    var (fbo, d1) := GenFramebuffer(fboId, d);
    var (binding, _, d2) := BindFramebufferCtx(b.gl, fbo, d1);
    assert d2.calls == d.calls + [GenFramebuffers(fboId), BindFramebuffer(FRAMEBUFFER, fboId)];
    var d3 := ApplyAttachments(binding, order, b.attachments, d2);
    var (fboStatus, d4) := CheckStatus(binding, status, d3);
    assert d4.calls == d2.calls + AttachmentCalls(order, b.attachments) + [CheckFramebufferStatus(FRAMEBUFFER)];
    match fboStatus
    case Some(err) => (Err(FromFramebufferError(err)), Issue(d4, DeleteFramebuffers(fboId)))
    case None => (Ok(fbo), d4)
  }

  /** `unwrap`: the framebuffer, when `try_unwrap` succeeds; it panics otherwise. */
  function Unwrap<B, P, R, T>(b: FramebufferBuilder<ContextOf<B, Slot<FramebufferBinder>, P, R, T>>,
                              fboId: nat, order: seq<FramebufferAttachment>, status: GLenum, d: Driver)
    : (r: Result<Framebuffer, Panic>)
    requires b.gl.framebuffer.Free?
    requires IsEnumeration(order, b.attachments)
    requires LevelsZero(b.attachments)
    ensures r.Err? <==> TryUnwrap(b, fboId, order, status, d).0.Err?
    ensures r.Ok? ==> r.value == Framebuffer(fboId)
  {
    match TryUnwrap(b, fboId, order, status, d).0
    case Ok(fbo) => Ok(fbo)
    case Err(_) => Err(UnwrapPanic)
  }
}

=== FILE: gl.dfy ===
/**
 * The OpenGL ES 2.0 enumerants that glitter passes to and receives from the
 * driver. The values are those of the OpenGL ES 2.0 header (`gl2.h`); every
 * property proved in this project depends only on the constants being
 * pairwise distinct where the model compares them.
 */
module Gl {

  /** `GLenum`, an unsigned 32-bit integer. */
  newtype GLenum = x: int | 0 <= x < 0x1_0000_0000

  // glGetError results
  const NO_ERROR: GLenum := 0
  const INVALID_ENUM: GLenum := 0x0500
  const INVALID_VALUE: GLenum := 0x0501
  const INVALID_OPERATION: GLenum := 0x0502
  const OUT_OF_MEMORY: GLenum := 0x0505
  const INVALID_FRAMEBUFFER_OPERATION: GLenum := 0x0506

  // glCheckFramebufferStatus results
  const FRAMEBUFFER_COMPLETE: GLenum := 0x8CD5
  const FRAMEBUFFER_INCOMPLETE_ATTACHMENT: GLenum := 0x8CD6
  const FRAMEBUFFER_INCOMPLETE_MISSING_ATTACHMENT: GLenum := 0x8CD7
  const FRAMEBUFFER_INCOMPLETE_DIMENSIONS: GLenum := 0x8CD9
  const FRAMEBUFFER_UNSUPPORTED: GLenum := 0x8CDD

  // binding targets
  const ARRAY_BUFFER: GLenum := 0x8892
  const ELEMENT_ARRAY_BUFFER: GLenum := 0x8893
  const FRAMEBUFFER: GLenum := 0x8D40
  const RENDERBUFFER: GLenum := 0x8D41
  const TEXTURE_2D: GLenum := 0x0DE1
  const TEXTURE_CUBE_MAP: GLenum := 0x8513
  const TEXTURE_CUBE_MAP_POSITIVE_X: GLenum := 0x8515
  const TEXTURE_CUBE_MAP_NEGATIVE_X: GLenum := 0x8516
  const TEXTURE_CUBE_MAP_POSITIVE_Y: GLenum := 0x8517
  const TEXTURE_CUBE_MAP_NEGATIVE_Y: GLenum := 0x8518
  const TEXTURE_CUBE_MAP_POSITIVE_Z: GLenum := 0x8519
  const TEXTURE_CUBE_MAP_NEGATIVE_Z: GLenum := 0x851A

  /** Texture unit `k` is named `TEXTURE0 + k`. */
  const TEXTURE0: GLenum := 0x84C0

  // buffer usage hints
  const STREAM_DRAW: GLenum := 0x88E0
  const STATIC_DRAW: GLenum := 0x88E4
  const DYNAMIC_DRAW: GLenum := 0x88E8

  // framebuffer attachment points
  const COLOR_ATTACHMENT0: GLenum := 0x8CE0
  const DEPTH_ATTACHMENT: GLenum := 0x8D00
  const STENCIL_ATTACHMENT: GLenum := 0x8D20

  // texture parameters and their values
  const TEXTURE_MAG_FILTER: GLenum := 0x2800
  const TEXTURE_MIN_FILTER: GLenum := 0x2801
  const TEXTURE_WRAP_S: GLenum := 0x2802
  const TEXTURE_WRAP_T: GLenum := 0x2803
  const NEAREST: GLenum := 0x2600
  const LINEAR: GLenum := 0x2601
  const NEAREST_MIPMAP_NEAREST: GLenum := 0x2700
  const LINEAR_MIPMAP_NEAREST: GLenum := 0x2701
  const NEAREST_MIPMAP_LINEAR: GLenum := 0x2702
  const LINEAR_MIPMAP_LINEAR: GLenum := 0x2703
  const CLAMP_TO_EDGE: GLenum := 0x812F
  const MIRRORED_REPEAT: GLenum := 0x8370
  const REPEAT: GLenum := 0x2901

  // pixel formats and texel types
  const ALPHA: GLenum := 0x1906
  const RGB: GLenum := 0x1907
  const RGBA: GLenum := 0x1908
  const UNSIGNED_SHORT_4_4_4_4: GLenum := 0x8033
  const UNSIGNED_SHORT_5_5_5_1: GLenum := 0x8034
  const UNSIGNED_SHORT_5_6_5: GLenum := 0x8363

  // renderbuffer internal formats
  const RGBA4: GLenum := 0x8056
  const RGB5_A1: GLenum := 0x8057
  const RGB565: GLenum := 0x8D62
  const DEPTH_COMPONENT16: GLenum := 0x81A5
  const STENCIL_INDEX8: GLenum := 0x8D48

  // data types
  const BYTE: GLenum := 0x1400
  const UNSIGNED_BYTE: GLenum := 0x1401
  const SHORT: GLenum := 0x1402
  const UNSIGNED_SHORT: GLenum := 0x1403
  const FLOAT: GLenum := 0x1406
  const FIXED: GLenum := 0x140C

  // primitive modes
  const POINTS: GLenum := 0x0000
  const LINES: GLenum := 0x0001
  const LINE_LOOP: GLenum := 0x0002
  const LINE_STRIP: GLenum := 0x0003
  const TRIANGLES: GLenum := 0x0004
  const TRIANGLE_STRIP: GLenum := 0x0005
  const TRIANGLE_FAN: GLenum := 0x0006
}

=== FILE: gl_driver.dfy ===
/**
 * The OpenGL driver as glitter sees it: a map from binding points to the
 * object bound there, the active texture unit, and the sequence of calls
 * issued so far. Each GL entry point glitter uses is one `Call`, carrying
 * the raw arguments of the C API.
 */
module GlDriver {
  import opened Gl
  import opened Bytes

  /**
   * A binding point: a context-wide target (buffers, framebuffer,
   * renderbuffer), or a texture target of one texture unit (`TEXTURE0 + k`).
   */
  datatype BindPoint = Global(target: GLenum) | PerUnit(target: GLenum, unit: GLenum)

  /** One call into the driver, with its C arguments. */
  datatype Call =
    | GenBuffers(id: nat)
    | GenFramebuffers(id: nat)
    | GenRenderbuffers(id: nat)
    | GenTextures(id: nat)
    | BindBuffer(target: GLenum, id: nat)
    | BindFramebuffer(target: GLenum, id: nat)
    | BindRenderbuffer(target: GLenum, id: nat)
    | ActiveTexture(texture: GLenum)
    | BindTexture(target: GLenum, id: nat)
    | BufferData(target: GLenum, data: seq<Byte>, usage: GLenum)
    | EnableVertexAttribArray(index: nat)
    | VertexAttribPointer(index: nat, size: int, dataType: GLenum, normalized: bool, stride: nat, offset: nat)
    | DrawArrays(mode: GLenum, first: nat, count: nat)
    | DrawElements(mode: GLenum, count: nat, indexType: GLenum, indices: IndexSource)
    | FramebufferRenderbuffer(target: GLenum, attachment: GLenum, renderbufferTarget: GLenum, id: nat)
    | FramebufferTexture2D(target: GLenum, attachment: GLenum, textureTarget: GLenum, id: nat, level: int)
    | CheckFramebufferStatus(target: GLenum)
    | RenderbufferStorage(target: GLenum, internalFormat: GLenum, width: nat, height: nat)
    | TexParameteri(target: GLenum, pname: GLenum, param: GLenum)
    | TexImage2D(target: GLenum, level: int, internalFormat: GLenum, width: nat, height: nat,
                 border: int, format: GLenum, texelType: GLenum, pixels: TexelSource)
    | GenerateMipmap(target: GLenum)
    | DeleteTextures(id: nat)
    | DeleteFramebuffers(id: nat)
    | DeleteRenderbuffers(id: nat)

  /** Where `glDrawElements` reads indices: the bound element buffer, or client memory. */
  datatype IndexSource = BoundElementBuffer | ClientIndices(bytes: seq<Byte>)

  /** What `glTexImage2D` uploads: the given texel bytes, or nothing (a null pointer). */
  datatype TexelSource = NoTexels | Texels(bytes: seq<Byte>)

  /** The driver state glitter's calls act on. */
  datatype Driver = Driver(bindings: map<BindPoint, nat>, active: GLenum, calls: seq<Call>)

  /**
   * Deleting texture `id`: every texture target, on every unit, that has it
   * bound falls back to the default texture 0. The OpenGL ES 2.0
   * specification states the fallback for a bound texture; later versions
   * spell out that it applies on every unit, and so does this model.
   */
  function UnbindTexture(bs: map<BindPoint, nat>, id: nat): (r: map<BindPoint, nat>)
    ensures r.Keys == bs.Keys
    ensures forall p :: p in r && p.PerUnit? ==> r[p] == (if bs[p] == id then 0 else bs[p])
    ensures forall p :: p in r && p.Global? ==> r[p] == bs[p]
  {
    map p | p in bs :: if p.PerUnit? && bs[p] == id then 0 else bs[p]
  }

  /**
   * Deleting framebuffer or renderbuffer `id`: when it is what `target` has
   * bound, the target falls back to the default object 0; nothing else
   * changes.
   */
  function UnbindGlobal(bs: map<BindPoint, nat>, target: GLenum, id: nat): (r: map<BindPoint, nat>)
    ensures r.Keys == bs.Keys
    ensures Global(target) in bs && bs[Global(target)] == id ==> r[Global(target)] == 0
    ensures forall p :: p in bs && (p != Global(target) || bs[p] != id) ==> r[p] == bs[p]
  {
    if Global(target) in bs && bs[Global(target)] == id then bs[Global(target) := 0] else bs
  }

  /**
   * Issue one call. Binding calls rebind their target (textures on the
   * active unit), `glActiveTexture` selects the active unit, deleting a
   * bound object unbinds it, and no other call changes a binding.
   */
  function Issue(d: Driver, c: Call): (e: Driver)
    ensures e.calls == d.calls + [c]
    ensures c.ActiveTexture? ==> e.active == c.texture
    ensures !c.ActiveTexture? ==> e.active == d.active
    ensures (c.BindBuffer? || c.BindFramebuffer? || c.BindRenderbuffer?) ==>
      e.bindings == d.bindings[Global(c.target) := c.id]
    ensures c.BindTexture? ==> e.bindings == d.bindings[PerUnit(c.target, d.active) := c.id]
    ensures c.DeleteTextures? ==> e.bindings == UnbindTexture(d.bindings, c.id)
    ensures c.DeleteFramebuffers? ==> e.bindings == UnbindGlobal(d.bindings, FRAMEBUFFER, c.id)
    ensures c.DeleteRenderbuffers? ==> e.bindings == UnbindGlobal(d.bindings, RENDERBUFFER, c.id)
    ensures !(c.BindBuffer? || c.BindFramebuffer? || c.BindRenderbuffer? || c.BindTexture?
              || c.DeleteTextures? || c.DeleteFramebuffers? || c.DeleteRenderbuffers?) ==>
      e.bindings == d.bindings
  {
    var calls := d.calls + [c];
    match c
    case BindBuffer(t, id) => Driver(d.bindings[Global(t) := id], d.active, calls)
    case BindFramebuffer(t, id) => Driver(d.bindings[Global(t) := id], d.active, calls)
    case BindRenderbuffer(t, id) => Driver(d.bindings[Global(t) := id], d.active, calls)
    case BindTexture(t, id) => Driver(d.bindings[PerUnit(t, d.active) := id], d.active, calls)
    case ActiveTexture(u) => Driver(d.bindings, u, calls)
    case DeleteTextures(id) => Driver(UnbindTexture(d.bindings, id), d.active, calls)
    case DeleteFramebuffers(id) => Driver(UnbindGlobal(d.bindings, FRAMEBUFFER, id), d.active, calls)
    case DeleteRenderbuffers(id) => Driver(UnbindGlobal(d.bindings, RENDERBUFFER, id), d.active, calls)
    case _ => Driver(d.bindings, d.active, calls)
  }

  /** Issue several calls in order. */
  function IssueAll(d: Driver, cs: seq<Call>): (e: Driver)
    ensures e.calls == d.calls + cs
    decreases |cs|
  {
    if cs == [] then d else IssueAll(Issue(d, cs[0]), cs[1..])
  }

  /** A call that binds, unbinds and activates nothing. */
  predicate Inert(c: Call) {
    !(c.BindBuffer? || c.BindFramebuffer? || c.BindRenderbuffer? || c.BindTexture? || c.ActiveTexture?
      || c.DeleteTextures? || c.DeleteFramebuffers? || c.DeleteRenderbuffers?)
  }

  /** Issuing only calls that bind nothing changes no binding and not the active unit. */
  lemma {:induction false} IssueAllInert(d: Driver, cs: seq<Call>)
    requires forall i :: 0 <= i < |cs| ==> Inert(cs[i])
    ensures IssueAll(d, cs).bindings == d.bindings
    ensures IssueAll(d, cs).active == d.active
    decreases |cs|
  {
    if cs != [] {
      IssueAllInert(Issue(d, cs[0]), cs[1..]);
    }
  }
}

=== FILE: gl_objects.dfy ===
/**
 * The owned OpenGL object handles (buffers, framebuffers, renderbuffers)
 * and the buffer and renderbuffer enumerations. A handle is its object id.
 */
module GlObjects {
  import Gl

  /** An owned buffer object. */
  datatype Buffer = Buffer(id: nat)

  /** An owned framebuffer object. */
  datatype Framebuffer = Framebuffer(id: nat)

  /** An owned renderbuffer object. */
  datatype Renderbuffer = Renderbuffer(id: nat)

  /** `GLObject::from_raw` for buffers: adopt an existing id. */
  function BufferFromRaw(id: nat): (b: Buffer)
    ensures b.id == id
  {
    Buffer(id)
  }

  /** `GLObject::into_raw` for buffers: give up ownership and return the id. */
  function BufferIntoRaw(b: Buffer): (id: nat)
    ensures id == b.id
  {
    b.id
  }

  /** `GLObject::from_raw` for framebuffers. */
  function FramebufferFromRaw(id: nat): (f: Framebuffer)
    ensures f.id == id
  {
    Framebuffer(id)
  }

  /** `GLObject::into_raw` for framebuffers. */
  function FramebufferIntoRaw(f: Framebuffer): (id: nat)
    ensures id == f.id
  {
    f.id
  }

  /** `GLObject::from_raw` for renderbuffers. */
  function RenderbufferFromRaw(id: nat): (r: Renderbuffer)
    ensures r.id == id
  {
    Renderbuffer(id)
  }

  /** `GLObject::into_raw` for renderbuffers. */
  function RenderbufferIntoRaw(r: Renderbuffer): (id: nat)
    ensures id == r.id
  {
    r.id
  }

  /** Adopting an id and giving it up again round-trips, in both orders. */
  lemma RawRoundTrips(id: nat, b: Buffer, f: Framebuffer, r: Renderbuffer)
    ensures BufferIntoRaw(BufferFromRaw(id)) == id && BufferFromRaw(BufferIntoRaw(b)) == b
    ensures FramebufferIntoRaw(FramebufferFromRaw(id)) == id && FramebufferFromRaw(FramebufferIntoRaw(f)) == f
    ensures RenderbufferIntoRaw(RenderbufferFromRaw(id)) == id && RenderbufferFromRaw(RenderbufferIntoRaw(r)) == r
  {
  }

  /** A vertex attribute location of a linked program (declared in `program.rs`). */
  datatype ProgramAttrib = ProgramAttrib(glIndex: nat)

  /** How the application intends to use a buffer's data store. */
  datatype BufferDataUsage = StreamDraw | StaticDraw | DynamicDraw

  /** The GL code of a usage hint. */
  function UsageGlEnum(u: BufferDataUsage): (code: Gl.GLenum)
    ensures code in {Gl.STREAM_DRAW, Gl.STATIC_DRAW, Gl.DYNAMIC_DRAW}
  {
    match u
    case StreamDraw => Gl.STREAM_DRAW
    case StaticDraw => Gl.STATIC_DRAW
    case DynamicDraw => Gl.DYNAMIC_DRAW
  }

  /** The targets a buffer can be bound to. */
  datatype BufferBindingTarget = ArrayBuffer | ElementArrayBuffer

  /** The GL code of a buffer binding target. */
  function BufferTargetGlEnum(t: BufferBindingTarget): (code: Gl.GLenum)
    ensures t.ArrayBuffer? <==> code == Gl.ARRAY_BUFFER
    ensures t.ElementArrayBuffer? <==> code == Gl.ELEMENT_ARRAY_BUFFER
  {
    match t
    case ArrayBuffer => Gl.ARRAY_BUFFER
    case ElementArrayBuffer => Gl.ELEMENT_ARRAY_BUFFER
  }

  /** The lone renderbuffer binding target. */
  datatype RenderbufferTarget = RenderbufferTarget

  /** The GL code of the renderbuffer target. */
  function RenderbufferTargetGlEnum(t: RenderbufferTarget): (code: Gl.GLenum)
    ensures code == Gl.RENDERBUFFER
  {
    Gl.RENDERBUFFER
  }
}

=== FILE: image_data.dfy ===
/**
 * Pixels and pixel buffers that can be uploaded as texture images, and the
 * image, texel and renderbuffer formats.
 */
module ImageData {
  import opened Results
  import Gl
  import opened Bytes

  /** One RGBA colour, four `u8` components laid out in that order. */
  datatype Pixel = Pixel(r: bv8, g: bv8, b: bv8, a: bv8)

  /** The packed `0xRRGGBBAA` form of a pixel. */
  function PackRgba(p: Pixel): bv32 {
    (p.r as bv32 << 24) | (p.g as bv32 << 16) | (p.b as bv32 << 8) | p.a as bv32
  }

  /** The packed `0xAARRGGBB` form of a pixel. */
  function PackArgb(p: Pixel): bv32 {
    (p.a as bv32 << 24) | (p.r as bv32 << 16) | (p.g as bv32 << 8) | p.b as bv32
  }

  /** `Pixel::r_g_b_a`: each component given separately. */
  function RGBA(r: bv8, g: bv8, b: bv8, a: bv8): (p: Pixel)
    ensures PackRgba(p) == (r as bv32 << 24) | (g as bv32 << 16) | (b as bv32 << 8) | a as bv32
  {
    Pixel(r, g, b, a)
  }

  /** `Pixel::r_g_b`: an opaque colour from separate components. */
  function RGB(r: bv8, g: bv8, b: bv8): (p: Pixel)
    ensures p == RGBA(r, g, b, 0xFF)
  {
    RGBA(r, g, b, 0xFF)
  }

  /**
   * `Pixel::rgb_a`: red, green and blue read from a `0x00RRGGBB` word (the
   * top byte is discarded), alpha given separately.
   */
  function RgbA(rgb: bv32, a: bv8): (p: Pixel)
    ensures p.a == a
    ensures PackArgb(p) & 0x00FF_FFFF == rgb & 0x00FF_FFFF
  {
    var r := (rgb & 0xFF0000) >> 16;
    var g := (rgb & 0x00FF00) >> 8;
    var b := rgb & 0x0000FF;
    RGBA(r as bv8, g as bv8, b as bv8, a)
  }

  /** `Pixel::rgb`: an opaque colour read from a `0x00RRGGBB` word. */
  function Rgb(rgb: bv32): (p: Pixel)
    ensures p.a == 0xFF
    ensures PackArgb(p) & 0x00FF_FFFF == rgb & 0x00FF_FFFF
  {
    RgbA(rgb, 0xFF)
  }

  /** `Pixel::argb`: a colour read from a `0xAARRGGBB` word. */
  function Argb(argb: bv32): (p: Pixel)
    ensures PackArgb(p) == argb
  {
    var a := (argb & 0xFF000000) >> 24;
    RgbA(argb, a as bv8)
  }

  /** `Pixel::rgba`: a colour read from a `0xRRGGBBAA` word. */
  function Rgba(rgba: bv32): (p: Pixel)
    ensures PackRgba(p) == rgba
  {
    var r := (rgba & 0xFF000000) >> 24;
    var g := (rgba & 0x00FF0000) >> 16;
    var b := (rgba & 0x0000FF00) >> 8;
    var a := rgba & 0x000000FF;
    RGBA(r as bv8, g as bv8, b as bv8, a as bv8)
  }

  /** Reading back a packed `0xRRGGBBAA` word gives the pixel that was packed. */
  lemma RgbaRoundTrip(p: Pixel)
    ensures Rgba(PackRgba(p)) == p
  {
  }

  /** Reading back a packed `0xAARRGGBB` word gives the pixel that was packed. */
  lemma ArgbRoundTrip(p: Pixel)
    ensures Argb(PackArgb(p)) == p
  {
  }

  /** The documented examples of the packed constructors. */
  lemma PackedConstructorExamples()
    ensures Rgb(0x55AABBCC) == Pixel(0xAA, 0xBB, 0xCC, 0xFF)
    ensures Argb(0xDDAABBCC) == Pixel(0xAA, 0xBB, 0xCC, 0xDD)
    ensures Rgba(0xAABBCCDD) == Pixel(0xAA, 0xBB, 0xCC, 0xDD)
    ensures RgbA(0x55AABBCC, 0xDD) == Pixel(0xAA, 0xBB, 0xCC, 0xDD)
  {
  }

  /** The in-memory bytes of a pixel (a C struct of four `u8`s). */
  function PixelBytes(p: Pixel): (bs: seq<Byte>)
    ensures |bs| == 4
  {
    [p.r, p.g, p.b, p.a]
  }

  /** The colour every pixel of a new buffer starts with: opaque blue. */
  const BLUE: Pixel := Rgb(0x0000FF)

  /** A `width` by `height` pixel buffer stored row by row. */
  datatype Pixels = Pixels(width: nat, height: nat, pixels: seq<Pixel>)

  /** The buffer holds exactly one pixel per row and column. */
  ghost predicate Valid(p: Pixels) {
    |p.pixels| == p.width * p.height
  }

  /** `Pixels::new`: a buffer of the given size with every pixel opaque blue. */
  function NewPixels(width: nat, height: nat): (p: Pixels)
    ensures Valid(p) && p.width == width && p.height == height
    ensures forall i :: 0 <= i < |p.pixels| ==> p.pixels[i] == Pixel(0, 0, 0xFF, 0xFF)
  {
    Pixels(width, height, seq(width * height, _ => BLUE))
  }

  /** Row `row` ends no later than the buffer when it is one of the `height` rows. */
  lemma RowInRange(row: nat, height: nat, width: nat)
    requires row < height
    ensures row * width + width <= width * height
  {
    assert (row + 1) * width <= height * width;
  }

  /** Two in-row positions of a buffer `width` wide share an offset only if they are equal. */
  lemma OffsetInjective(r1: nat, c1: nat, r2: nat, c2: nat, width: nat)
    requires c1 < width && c2 < width
    requires r1 * width + c1 == r2 * width + c2
    ensures r1 == r2 && c1 == c2
  {
    if r1 < r2 {
      RowInRange(r1, r2, width);
      assert false;
    } else if r2 < r1 {
      RowInRange(r2, r1, width);
      assert false;
    }
  }

  /** `Index<usize> for Pixels`: the pixels of one row, left to right. */
  function Row(p: Pixels, row: nat): (r: seq<Pixel>)
    requires Valid(p) && row < p.height
    ensures |r| == p.width
    ensures forall col :: 0 <= col < p.width ==>
      row * p.width + col < |p.pixels| && r[col] == p.pixels[row * p.width + col]
  {
    var start := row * p.width;
    RowInRange(row, p.height, p.width);
    p.pixels[start .. start + p.width]
  }

  /**
   * `IndexMut<usize> for Pixels`, used as `pixels[row][col] = colour`: the
   * one addressed pixel changes and every other pixel keeps its colour.
   */
  function SetPixel(p: Pixels, row: nat, col: nat, colour: Pixel): (q: Pixels)
    requires Valid(p) && row < p.height && col < p.width
    ensures Valid(q) && q.width == p.width && q.height == p.height
    ensures Row(q, row)[col] == colour
    ensures forall r, c :: 0 <= r < p.height && 0 <= c < p.width && (r != row || c != col) ==>
      Row(q, r)[c] == Row(p, r)[c]
  {
    RowInRange(row, p.height, p.width);
    var q := p.(pixels := p.pixels[row * p.width + col := colour]);
    forall r, c | 0 <= r < p.height && 0 <= c < p.width && (r != row || c != col)
      ensures Row(q, r)[c] == Row(p, r)[c]
    {
      if r * p.width + c == row * p.width + col {
        OffsetInjective(r, c, row, col, p.width);
      }
    }
    q
  }

  /** The texel bytes of a buffer: each pixel's four bytes, row by row. */
  function TexelBytes(p: Pixels): (bs: seq<Byte>)
    ensures |bs| == 4 * |p.pixels|
  {
    SliceBytes(p.pixels, PixelBytes, 4)
  }

  /** The texel bytes as the crate computes them (panicking on an empty buffer). */
  function TexelBytesAsWritten(p: Pixels): (r: Result<seq<Byte>, Panic>)
    ensures r.Err? <==> |p.pixels| == 0
    ensures r.Ok? ==> r.value == TexelBytes(p)
  {
    SliceBytesAsWritten(p.pixels, PixelBytes, 4)
  }

  /** Byte `k` of pixel `i` is component `k` of that pixel, in r, g, b, a order. */
  lemma TexelBytesLayout(p: Pixels, i: nat)
    requires i < |p.pixels|
    ensures TexelBytes(p)[4 * i] == p.pixels[i].r
    ensures TexelBytes(p)[4 * i + 1] == p.pixels[i].g
    ensures TexelBytes(p)[4 * i + 2] == p.pixels[i].b
    ensures TexelBytes(p)[4 * i + 3] == p.pixels[i].a
  {
    SliceBytesAt(p.pixels, PixelBytes, 4, i, 0);
    SliceBytesAt(p.pixels, PixelBytes, 4, i, 1);
    SliceBytesAt(p.pixels, PixelBytes, 4, i, 2);
    SliceBytesAt(p.pixels, PixelBytes, 4, i, 3);
  }

  /** Every pixel's four channels sit at its four bytes of the texel bytes. */
  lemma TexelBytesChannels(p: Pixels)
    ensures forall i :: 0 <= i < |p.pixels| ==>
      && TexelBytes(p)[4 * i] == p.pixels[i].r && TexelBytes(p)[4 * i + 1] == p.pixels[i].g
      && TexelBytes(p)[4 * i + 2] == p.pixels[i].b && TexelBytes(p)[4 * i + 3] == p.pixels[i].a
  {
    forall i | 0 <= i < |p.pixels|
      ensures && TexelBytes(p)[4 * i] == p.pixels[i].r && TexelBytes(p)[4 * i + 1] == p.pixels[i].g
              && TexelBytes(p)[4 * i + 2] == p.pixels[i].b && TexelBytes(p)[4 * i + 3] == p.pixels[i].a
    {
      TexelBytesLayout(p, i);
    }
  }

  /** The data type of one texel channel group. */
  datatype TexelType = UnsignedByteTexel | UnsignedShort565 | UnsignedShort4444 | UnsignedShort5551

  /** The channels a texel holds. */
  datatype TexelFormat = Alpha | RGBFormat | RGBAFormat

  /** The internal formats a renderbuffer can store. */
  datatype RenderbufferFormat = RGBA4 | RGB565 | RGB5A1 | DepthComponent16 | StencilIndex8

  /** The layout of an image's texel bytes. */
  datatype ImageFormat = ImageFormat(texelType: TexelType, texelFormat: TexelFormat)

  /** `ImageFormat::rgba8`: one unsigned byte per channel, four channels. */
  const RGBA8: ImageFormat := ImageFormat(UnsignedByteTexel, RGBAFormat)

  /** The GL code of a texel type. */
  function TexelTypeGlEnum(t: TexelType): (code: Gl.GLenum)
    ensures code in {Gl.UNSIGNED_BYTE, Gl.UNSIGNED_SHORT_5_6_5, Gl.UNSIGNED_SHORT_4_4_4_4, Gl.UNSIGNED_SHORT_5_5_5_1}
  {
    match t
    case UnsignedByteTexel => Gl.UNSIGNED_BYTE
    case UnsignedShort565 => Gl.UNSIGNED_SHORT_5_6_5
    case UnsignedShort4444 => Gl.UNSIGNED_SHORT_4_4_4_4
    case UnsignedShort5551 => Gl.UNSIGNED_SHORT_5_5_5_1
  }

  /** The GL code of a texel format. */
  function TexelFormatGlEnum(f: TexelFormat): (code: Gl.GLenum)
    ensures code in {Gl.ALPHA, Gl.RGB, Gl.RGBA}
  {
    match f
    case Alpha => Gl.ALPHA
    case RGBFormat => Gl.RGB
    case RGBAFormat => Gl.RGBA
  }

  /** The GL code of a renderbuffer format. */
  function RenderbufferFormatGlEnum(f: RenderbufferFormat): (code: Gl.GLenum)
    ensures code in {Gl.RGBA4, Gl.RGB565, Gl.RGB5_A1, Gl.DEPTH_COMPONENT16, Gl.STENCIL_INDEX8}
  {
    match f
    case RGBA4 => Gl.RGBA4
    case RGB565 => Gl.RGB565
    case RGB5A1 => Gl.RGB5_A1
    case DepthComponent16 => Gl.DEPTH_COMPONENT16
    case StencilIndex8 => Gl.STENCIL_INDEX8
  }

  /** Distinct texel formats reach the driver as distinct codes. */
  lemma TexelFormatGlEnumInjective(a: TexelFormat, b: TexelFormat)
    requires TexelFormatGlEnum(a) == TexelFormatGlEnum(b)
    ensures a == b
  {
  }

  /** Distinct renderbuffer formats reach the driver as distinct codes. */
  lemma RenderbufferFormatGlEnumInjective(a: RenderbufferFormat, b: RenderbufferFormat)
    requires RenderbufferFormatGlEnum(a) == RenderbufferFormatGlEnum(b)
    ensures a == b
  {
  }

  /** What any `Image2d` offers: its size, its format and its texel bytes. */
  datatype Image2d = Image2d(width: nat, height: nat, format: ImageFormat, texelBytes: seq<Byte>)

  /** `Image2d for Pixels`: an RGBA8 image with four bytes per pixel. */
  function PixelsImage(p: Pixels): (img: Image2d)
    requires Valid(p)
    ensures img.width == p.width && img.height == p.height && img.format == RGBA8
    ensures |img.texelBytes| == 4 * (p.width * p.height)
    ensures forall i :: 0 <= i < |p.pixels| ==>
      && img.texelBytes[4 * i] == p.pixels[i].r && img.texelBytes[4 * i + 1] == p.pixels[i].g
      && img.texelBytes[4 * i + 2] == p.pixels[i].b && img.texelBytes[4 * i + 3] == p.pixels[i].a
  {
    TexelBytesChannels(p);
    Image2d(p.width, p.height, RGBA8, TexelBytes(p))
  }
}

=== FILE: index_data.dfy ===
/** Index data: the element types an index buffer can hold and their byte views. */
module IndexData {
  import opened Results
  import opened Bytes
  import Gl

  /** The two index element types the driver accepts. */
  datatype IndexDatumType = UnsignedByte | UnsignedShort

  /** The Rust element types that implement `IndexDatum`: `u8` and `u16`. */
  datatype IndexDatum = U8 | U16

  /** `IndexDatum::index_datum_type`. */
  function DatumType(t: IndexDatum): (ty: IndexDatumType)
    ensures t.U8? <==> ty.UnsignedByte?
  {
    match t
    case U8 => UnsignedByte
    case U16 => UnsignedShort
  }

  /** `size_of` of an index element type. */
  function SizeOf(t: IndexDatum): (n: nat)
    ensures n == if DatumType(t).UnsignedByte? then 1 else 2
  {
    match t
    case U8 => 1
    case U16 => 2
  }

  /** The GL code the driver is given for an index element type. */
  function IndexTypeGlEnum(ty: IndexDatumType): (code: Gl.GLenum)
    ensures code == Gl.UNSIGNED_BYTE || code == Gl.UNSIGNED_SHORT
    ensures ty.UnsignedByte? <==> code == Gl.UNSIGNED_BYTE
  {
    match ty
    case UnsignedByte => Gl.UNSIGNED_BYTE
    case UnsignedShort => Gl.UNSIGNED_SHORT
  }

  /** A slice `[T]` of indices of element type `ty`. */
  datatype IndexSlice = IndexSlice(ty: IndexDatum, elems: seq<nat>)

  /** `index_datum_type` of a slice: the type of its elements. */
  function IndexDatumTypeOf(s: IndexSlice): (ty: IndexDatumType)
    ensures ty == DatumType(s.ty)
  {
    DatumType(s.ty)
  }

  /** `index_elements` of a slice: one index per element. */
  function IndexElements(s: IndexSlice): (n: nat)
    ensures n == |s.elems|
  {
    |s.elems|
  }

  /**
   * `index_bytes` of a slice, given the machine encoding of one element:
   * the encodings of the elements, in order.
   */
  function IndexBytes(s: IndexSlice, encode: nat -> seq<Byte>): (bs: seq<Byte>)
    requires forall i :: 0 <= i < |s.elems| ==> |encode(s.elems[i])| == SizeOf(s.ty)
    ensures |bs| == SizeOf(s.ty) * IndexElements(s)
  {
    SliceBytes(s.elems, encode, SizeOf(s.ty))
  }

  /** `index_bytes` as written: it panics on an empty slice. */
  function IndexBytesAsWritten(s: IndexSlice, encode: nat -> seq<Byte>): (r: Result<seq<Byte>, Panic>)
    requires forall i :: 0 <= i < |s.elems| ==> |encode(s.elems[i])| == SizeOf(s.ty)
    ensures r.Err? <==> IndexElements(s) == 0
    ensures r.Ok? ==> r.value == IndexBytes(s, encode)
  {
    SliceBytesAsWritten(s.elems, encode, SizeOf(s.ty))
  }
}

=== FILE: renderbuffer_context.dfy ===
/**
 * The renderbuffer part of a context: the renderbuffer binder and binding,
 * storage allocation, and the renderbuffer builder.
 */
module RenderbufferContext {
  import opened Results
  import opened Gl
  import opened Types
  import opened GlObjects
  import opened GlDriver
  import opened ImageData
  import opened ContextState

  /** The capability to bind the renderbuffer target. */
  datatype RenderbufferBinder = RenderbufferBinder

  /** Proof that renderbuffer `rbo` is bound. */
  datatype RenderbufferBinding = RenderbufferBinding(rbo: nat)

  /** `RenderbufferBinding::target`. */
  function BindingTarget(b: RenderbufferBinding): (t: RenderbufferTarget)
    ensures RenderbufferTargetGlEnum(t) == RENDERBUFFER
  {
    RenderbufferTarget
  }

  /** `RenderbufferBinder::current`. */
  function CurrentRenderbufferBinder(): (s: Slot<RenderbufferBinder>)
    ensures s.Free?
  {
    Free(RenderbufferBinder)
  }

  /** `RenderbufferBinder::bind`: bind `rbo` to the renderbuffer target. */
  function BindRenderbufferBinder(binder: RenderbufferBinder, rbo: Renderbuffer, d: Driver): (r: (RenderbufferBinding, Driver))
    ensures r.0.rbo == rbo.id
    ensures r.1 == Issue(d, BindRenderbuffer(RENDERBUFFER, rbo.id))
    ensures r.1.bindings[Global(RENDERBUFFER)] == rbo.id
  {
    var binding := RenderbufferBinding(rbo.id);
    (binding, Issue(d, BindRenderbuffer(RenderbufferTargetGlEnum(BindingTarget(binding)), rbo.id)))
  }

  /** `split_renderbuffer` on an owned context: the renderbuffer slot becomes `()`. */
  function SplitRenderbuffer<B, F, P, T>(c: ContextOf<B, F, P, Slot<RenderbufferBinder>, T>)
    : (r: (RenderbufferBinder, ContextOf<B, F, P, Slot<RenderbufferBinder>, T>))
    requires c.renderbuffer.Free?
    ensures c.renderbuffer == Free(r.0)
    ensures r.1 == c.(renderbuffer := Used)
  {
    var (binder, rest) := SwapRenderbuffer(c, Used);
    (binder.binder, rest)
  }

  /** `bind_renderbuffer`: split off the binder and bind `rbo`. */
  function BindRenderbufferCtx<B, F, P, T>(c: ContextOf<B, F, P, Slot<RenderbufferBinder>, T>, rbo: Renderbuffer, d: Driver)
    : (r: (RenderbufferBinding, ContextOf<B, F, P, Slot<RenderbufferBinder>, T>, Driver))
    requires c.renderbuffer.Free?
    ensures r.0.rbo == rbo.id
    ensures r.1 == c.(renderbuffer := Used)
    ensures r.2 == Issue(d, BindRenderbuffer(RENDERBUFFER, rbo.id))
  {
    var (binder, rest) := SplitRenderbuffer(c);
    var (binding, d') := BindRenderbufferBinder(binder, rbo, d);
    (binding, rest, d')
  }

  /** `gen_renderbuffer`: the driver names a new renderbuffer object `id`. */
  function GenRenderbuffer(id: nat, d: Driver): (r: (Renderbuffer, Driver))
    ensures r.0.id == id
    ensures r.1.calls == d.calls + [GenRenderbuffers(id)]
    ensures r.1.bindings == d.bindings && r.1.active == d.active
  {
    (Renderbuffer(id), Issue(d, GenRenderbuffers(id)))
  }

  /** `storage`: allocate storage of the given format and size for the bound renderbuffer. */
  function Storage(rb: RenderbufferBinding, format: RenderbufferFormat, width: nat, height: nat, d: Driver): (e: Driver)
    ensures e.calls == d.calls + [RenderbufferStorage(RENDERBUFFER, RenderbufferFormatGlEnum(format), width, height)]
    ensures e.bindings == d.bindings && e.active == d.active
  {
    Issue(d, RenderbufferStorage(RenderbufferTargetGlEnum(BindingTarget(rb)), RenderbufferFormatGlEnum(format), width, height))
  }

  /** The storage a renderbuffer builder will allocate. */
  datatype StorageParams = StorageParams(format: RenderbufferFormat, width: nat, height: nat)

  /** `RenderbufferBuilder`: the context it builds with and the storage chosen so far. */
  datatype RenderbufferBuilder<C> = RenderbufferBuilder(gl: C, storageParams: Option<StorageParams>)

  /** `build_renderbuffer`: a builder with no storage chosen. */
  function NewRenderbufferBuilder<C>(gl: C): (b: RenderbufferBuilder<C>)
    ensures b.gl == gl && b.storageParams.None?
  {
    RenderbufferBuilder(gl, None)
  }

  /** `storage`: choose the storage; a later choice replaces an earlier one. */
  function WithStorage<C>(b: RenderbufferBuilder<C>, format: RenderbufferFormat, width: nat, height: nat): (b': RenderbufferBuilder<C>)
    ensures b'.gl == b.gl
    ensures b'.storageParams == Some(StorageParams(format, width, height))
  {
    b.(storageParams := Some(StorageParams(format, width, height)))
  }

  /** Choosing storage twice keeps only the second choice. */
  lemma LastStorageWins<C>(b: RenderbufferBuilder<C>, f1: RenderbufferFormat, w1: nat, h1: nat,
                           f2: RenderbufferFormat, w2: nat, h2: nat)
    ensures WithStorage(WithStorage(b, f1, w1, h1), f2, w2, h2) == WithStorage(b, f2, w2, h2)
  {
  }

  /** The message `try_unwrap` reports when no storage was chosen. */
  const NoStorageMessage: string := "Error building renderbuffer: no format or dimensions provided"

  /**
   * `try_unwrap`: name a new renderbuffer `rboId`; with storage chosen, bind
   * it and allocate exactly that storage, otherwise report an error, which
   * drops (and so deletes) the new renderbuffer. The builder's context must
   * still offer its renderbuffer binder.
   */
  function TryUnwrap<B, F, P, T>(b: RenderbufferBuilder<ContextOf<B, F, P, Slot<RenderbufferBinder>, T>>, rboId: nat, d: Driver)
    : (r: (Result<Renderbuffer, GLError>, Driver))
    requires b.gl.renderbuffer.Free?
    ensures r.0.Err? <==> b.storageParams.None?
    ensures r.0.Err? ==> r.0.error == Message(NoStorageMessage)
    ensures r.0.Err? ==> r.1.calls == d.calls + [GenRenderbuffers(rboId), DeleteRenderbuffers(rboId)]
    ensures r.0.Err? ==> r.1.bindings == UnbindGlobal(d.bindings, RENDERBUFFER, rboId)
    ensures r.1.active == d.active
    ensures r.0.Ok? ==> r.0.value.id == rboId
    ensures r.0.Ok? ==>
      var s := b.storageParams.value;
      r.1.calls == d.calls + [GenRenderbuffers(rboId), BindRenderbuffer(RENDERBUFFER, rboId),
                              RenderbufferStorage(RENDERBUFFER, RenderbufferFormatGlEnum(s.format), s.width, s.height)]
      && r.1.bindings == d.bindings[Global(RENDERBUFFER) := rboId]
  {
    var (rbo, d1) := GenRenderbuffer(rboId, d);
    match b.storageParams
    case Some(StorageParams(format, width, height)) =>
      var (binding, _, d2) := BindRenderbufferCtx(b.gl, rbo, d1);
      (Ok(rbo), Storage(binding, format, width, height, d2))
    case None =>
      (Err(Message(NoStorageMessage)), Issue(d1, DeleteRenderbuffers(rboId)))
  }

  /** `unwrap`: panics exactly when `try_unwrap` fails. */
  function Unwrap<B, F, P, T>(b: RenderbufferBuilder<ContextOf<B, F, P, Slot<RenderbufferBinder>, T>>, rboId: nat, d: Driver)
    : (r: Result<Renderbuffer, Panic>)
    requires b.gl.renderbuffer.Free?
    ensures r.Err? <==> b.storageParams.None?
    ensures r.Ok? ==> r.value == Renderbuffer(rboId)
  {
    match TryUnwrap(b, rboId, d).0
    case Ok(rbo) => Ok(rbo)
    case Err(_) => Err(UnwrapPanic)
  }
}

=== FILE: results.dfy ===
/** Rust's `Option` and `Result`, as the glitter sources use them. */
module Results {

  /** An optional value: `Some(value)` or `None`. */
  datatype Option<+T> = None | Some(value: T)

  /** The outcome of a fallible call: `Ok(value)` or `Err(error)`. */
  datatype Result<+T, +E> = Ok(value: T) | Err(error: E)

  /**
   * Why a call panicked instead of returning: an out-of-bounds slice index,
   * `unwrap` of an `Err`, or an explicit `panic!` with its message.
   */
  datatype Panic = IndexOutOfBounds | UnwrapPanic | Explicit(message: string)
}

=== FILE: texture_binders.dfy ===
/**
 * Texture binders and bindings, and the driver calls made on a bound
 * texture: parameters, image upload and mipmap generation. A texture is
 * bound on whichever texture unit the driver has active.
 */
module TextureBinders {
  import opened Gl
  import opened Bytes
  import opened GlDriver
  import opened Textures
  import opened ImageData

  /** The capability to bind the 2D target of the active unit. */
  datatype Texture2dBinder = Texture2dBinder

  /** The capability to bind the cube-map target of the active unit. */
  datatype TextureCubeMapBinder = TextureCubeMapBinder

  /** Proof that texture `texture` of kind `kind` is bound. */
  datatype TextureBinding = TextureBinding(kind: TextureType, texture: nat)

  /** `Texture2dBinding`: a binding of a 2D texture. */
  type Texture2dBinding = b: TextureBinding | b.kind == Tx2d witness TextureBinding(Tx2d, 0)

  /** `TextureCubeMapBinding`: a binding of a cube-map texture. */
  type TextureCubeMapBinding = b: TextureBinding | b.kind == TxCubeMap witness TextureBinding(TxCubeMap, 0)

  /** `TextureBinding::target`: the binding target of the bound texture's kind. */
  function BindingTarget(b: TextureBinding): (t: TextureBindingTarget)
    ensures b.kind == Tx2d ==> t == Texture2dTarget && BindingTargetGlEnum(t) == TEXTURE_2D
    ensures b.kind == TxCubeMap ==> t == TextureCubeMapTarget && BindingTargetGlEnum(t) == TEXTURE_CUBE_MAP
  {
    Target(b.kind)
  }

  /** `Texture2dBinder::current`. */
  function CurrentTexture2dBinder(): (b: Texture2dBinder) { Texture2dBinder }

  /** `TextureCubeMapBinder::current`. */
  function CurrentTextureCubeMapBinder(): (b: TextureCubeMapBinder) { TextureCubeMapBinder }

  /**
   * `Texture2dBinder::bind`: bind a 2D texture to `TEXTURE_2D` of the unit
   * that is active in the driver, whichever that is.
   */
  function BindTexture2dBinder(binder: Texture2dBinder, tex: Texture, d: Driver): (r: (Texture2dBinding, Driver))
    requires tex.kind == Tx2d
    ensures r.0.texture == tex.id
    ensures r.1 == Issue(d, BindTexture(TEXTURE_2D, tex.id))
    ensures r.1.bindings == d.bindings[PerUnit(TEXTURE_2D, d.active) := tex.id]
  {
    (TextureBinding(Tx2d, tex.id), Issue(d, BindTexture(BindingTargetGlEnum(Target(tex.kind)), tex.id)))
  }

  /** `TextureCubeMapBinder::bind`: bind a cube map to `TEXTURE_CUBE_MAP` of the active unit. */
  function BindTextureCubeMapBinder(binder: TextureCubeMapBinder, tex: Texture, d: Driver): (r: (TextureCubeMapBinding, Driver))
    requires tex.kind == TxCubeMap
    ensures r.0.texture == tex.id
    ensures r.1 == Issue(d, BindTexture(TEXTURE_CUBE_MAP, tex.id))
    ensures r.1.bindings == d.bindings[PerUnit(TEXTURE_CUBE_MAP, d.active) := tex.id]
  {
    (TextureBinding(TxCubeMap, tex.id), Issue(d, BindTexture(BindingTargetGlEnum(Target(tex.kind)), tex.id)))
  }

  /** `gen_texture`: the driver names a new texture object `id` of the requested kind. */
  function GenTexture(id: nat, kind: TextureType, d: Driver): (r: (Texture, Driver))
    ensures r.0.id == id && r.0.kind == kind
    ensures r.1.calls == d.calls + [GenTextures(id)]
    ensures r.1.bindings == d.bindings && r.1.active == d.active
  {
    (Texture(id, kind), Issue(d, GenTextures(id)))
  }

  /** `_tex_parameter_iv`: set one parameter of the texture bound at `target`. */
  function TexParameter(target: TextureBindingTarget, pname: GLenum, param: GLenum, d: Driver): (e: Driver)
    ensures e.calls == d.calls + [TexParameteri(BindingTargetGlEnum(target), pname, param)]
    ensures e.bindings == d.bindings && e.active == d.active
  {
    Issue(d, TexParameteri(BindingTargetGlEnum(target), pname, param))
  }

  /** `set_min_filter`. */
  function SetMinFilter(gt: TextureBinding, filter: TextureMipmapFilter, d: Driver): (e: Driver)
    ensures e.calls == d.calls + [TexParameteri(if gt.kind == Tx2d then TEXTURE_2D else TEXTURE_CUBE_MAP, TEXTURE_MIN_FILTER, MipmapFilterGlEnum(filter))]
    ensures e.bindings == d.bindings && e.active == d.active
  {
    TexParameter(BindingTarget(gt), TEXTURE_MIN_FILTER, MipmapFilterGlEnum(filter), d)
  }

  /** `set_mag_filter`. */
  function SetMagFilter(gt: TextureBinding, filter: TextureFilter, d: Driver): (e: Driver)
    ensures e.calls == d.calls + [TexParameteri(if gt.kind == Tx2d then TEXTURE_2D else TEXTURE_CUBE_MAP, TEXTURE_MAG_FILTER, FilterGlEnum(filter))]
    ensures e.bindings == d.bindings && e.active == d.active
  {
    TexParameter(BindingTarget(gt), TEXTURE_MAG_FILTER, FilterGlEnum(filter), d)
  }

  /** `set_wrap_s`. */
  function SetWrapS(gt: TextureBinding, wrap: TextureWrapMode, d: Driver): (e: Driver)
    ensures e.calls == d.calls + [TexParameteri(if gt.kind == Tx2d then TEXTURE_2D else TEXTURE_CUBE_MAP, TEXTURE_WRAP_S, WrapModeGlEnum(wrap))]
    ensures e.bindings == d.bindings && e.active == d.active
  {
    TexParameter(BindingTarget(gt), TEXTURE_WRAP_S, WrapModeGlEnum(wrap), d)
  }

  /** `set_wrap_t`. */
  function SetWrapT(gt: TextureBinding, wrap: TextureWrapMode, d: Driver): (e: Driver)
    ensures e.calls == d.calls + [TexParameteri(if gt.kind == Tx2d then TEXTURE_2D else TEXTURE_CUBE_MAP, TEXTURE_WRAP_T, WrapModeGlEnum(wrap))]
    ensures e.bindings == d.bindings && e.active == d.active
  {
    TexParameter(BindingTarget(gt), TEXTURE_WRAP_T, WrapModeGlEnum(wrap), d)
  }

  /** `generate_mipmap`: build the mipmap chain of the bound texture. */
  function GenerateMipmapCall(gt: TextureBinding, d: Driver): (e: Driver)
    ensures e.calls == d.calls + [GenerateMipmap(if gt.kind == Tx2d then TEXTURE_2D else TEXTURE_CUBE_MAP)]
    ensures e.bindings == d.bindings && e.active == d.active
  {
    Issue(d, GenerateMipmap(BindingTargetGlEnum(BindingTarget(gt))))
  }

  /** An image target: the 2D image, or one face of a cube map. */
  datatype ImageTarget = Image2dOf(image: Tx2dImageTarget) | CubeFaceOf(face: TxCubeMapImageTarget)

  /** The image targets a binding of each kind accepts. */
  predicate ImageTargetFits(kind: TextureType, target: ImageTarget) {
    match kind
    case Tx2d => target.Image2dOf?
    case TxCubeMap => target.CubeFaceOf?
  }

  /** The GL code of an image target. */
  function ImageTargetGlEnum(t: ImageTarget): (code: GLenum)
    ensures t.Image2dOf? <==> code == TEXTURE_2D
  {
    match t
    case Image2dOf(i) => Tx2dImageTargetGlEnum(i)
    case CubeFaceOf(f) => CubeMapImageTargetGlEnum(f)
  }

  /**
   * `_tex_image_2d`: the raw upload. It asserts that the internal format is
   * the texel format of the image format, and passes both to the driver.
   */
  function RawTexImage2d(target: ImageTarget, level: nat, internalFormat: TexelFormat, width: nat, height: nat,
                         border: nat, format: ImageFormat, pixels: TexelSource, d: Driver): (e: Driver)
    requires internalFormat == format.texelFormat
    ensures e.calls == d.calls + [TexImage2D(ImageTargetGlEnum(target), level, TexelFormatGlEnum(format.texelFormat), width, height,
                                           border, TexelFormatGlEnum(format.texelFormat), TexelTypeGlEnum(format.texelType), pixels)]
    ensures e.bindings == d.bindings && e.active == d.active
  {
    Issue(d, TexImage2D(ImageTargetGlEnum(target), level, TexelFormatGlEnum(internalFormat), width, height,
                        border, TexelFormatGlEnum(format.texelFormat), TexelTypeGlEnum(format.texelType), pixels))
  }

  /**
   * `tex_image_2d`: upload an image to the bound texture. The internal
   * format handed down is always the image's texel format, so the raw
   * upload's assertion holds for every image.
   */
  function TexImage2d(gt: TextureBinding, target: ImageTarget, level: nat, img: Image2d, d: Driver): (e: Driver)
    requires ImageTargetFits(gt.kind, target)
    ensures |e.calls| == |d.calls| + 1 && e.calls[..|d.calls|] == d.calls
    ensures var c := e.calls[|d.calls|];
      c.TexImage2D? && c.internalFormat == c.format == TexelFormatGlEnum(img.format.texelFormat)
      && c.width == img.width && c.height == img.height && c.border == 0
      && c.texelType == TexelTypeGlEnum(img.format.texelType) && c.pixels == Texels(img.texelBytes)
    ensures e.calls[|d.calls|].target == ImageTargetGlEnum(target) && e.calls[|d.calls|].level == level
    ensures e.bindings == d.bindings && e.active == d.active
  {
    RawTexImage2d(target, level, img.format.texelFormat, img.width, img.height, 0, img.format, Texels(img.texelBytes), d)
  }

  /**
   * Uploading a pixel buffer hands the driver the pixels themselves: byte
   * 4i to 4i + 3 of the upload are pixel i's r, g, b and a.
   */
  lemma PixelsUploadLayout(gt: TextureBinding, target: ImageTarget, level: nat, p: Pixels, d: Driver, i: nat)
    requires ImageTargetFits(gt.kind, target)
    requires Valid(p) && i < |p.pixels|
    ensures var c := TexImage2d(gt, target, level, PixelsImage(p), d).calls[|d.calls|];
      && c.TexImage2D? && c.pixels.Texels? && |c.pixels.bytes| == 4 * |p.pixels|
      && c.pixels.bytes[4 * i] == p.pixels[i].r && c.pixels.bytes[4 * i + 1] == p.pixels[i].g
      && c.pixels.bytes[4 * i + 2] == p.pixels[i].b && c.pixels.bytes[4 * i + 3] == p.pixels[i].a
  {
    var img := PixelsImage(p);
    assert 4 * i + 3 < |img.texelBytes|;
  }

  /** `tex_image_2d_empty`: allocate storage of the given format and size, uploading nothing. */
  function TexImage2dEmpty(gt: TextureBinding, target: ImageTarget, level: nat, format: ImageFormat,
                           width: nat, height: nat, d: Driver): (e: Driver)
    ensures |e.calls| == |d.calls| + 1 && e.calls[..|d.calls|] == d.calls
    ensures var c := e.calls[|d.calls|];
      c.TexImage2D? && c.internalFormat == c.format == TexelFormatGlEnum(format.texelFormat)
      && c.width == width && c.height == height && c.border == 0 && c.pixels == NoTexels
      && c.texelType == TexelTypeGlEnum(format.texelType)
    ensures e.calls[|d.calls|].target == ImageTargetGlEnum(target) && e.calls[|d.calls|].level == level
    ensures e.bindings == d.bindings && e.active == d.active
  {
    RawTexImage2d(target, level, format.texelFormat, width, height, 0, format, NoTexels, d)
  }
}

=== FILE: texture_builder.dfy ===
/**
 * The 2D texture builder: collect parameters, storage and the mipmap
 * choice, then create the texture on texture unit 0, set what was asked
 * for, upload, and report the builder's own completeness errors.
 */
module TextureBuilder {
  import opened Results
  import opened Gl
  import opened Types
  import opened GlDriver
  import opened Textures
  import opened ImageData
  import opened ContextState
  import opened TextureBinders
  import opened TextureUnits

  /** The format and size of a texture created without image data. */
  datatype EmptyParams = EmptyParams(format: ImageFormat, width: nat, height: nat)

  /** `Texture2dBuilder<C>`: the context it builds on and the options collected so far. */
  datatype Texture2dBuilderOf<+C> = Texture2dBuilderOf(
    gl: C,
    minFilter: Option<TextureMipmapFilter>,
    magFilter: Option<TextureFilter>,
    wrapS: Option<TextureWrapMode>,
    wrapT: Option<TextureWrapMode>,
    genMipmap: bool,
    image: Option<Image2d>,
    emptyParams: Option<EmptyParams>)

  /** A context whose texture unit 0 is still available (`TextureUnit0Context`). */
  type Unit0Context<B, F, P, R, T1, T2, T3, T4, T5, T6, T7> =
    ContextOf<B, F, P, R, TextureUnitsOf<Slot<TextureUnit0>, T1, T2, T3, T4, T5, T6, T7>>

  const NoStorageMessage: string := "Error building texture: neither an image nor a format were provided"
  const EmptyDimensionsMessage: string := "Error building texture: texture must have positive dimensions"
  const MissingMipmapMessage: string := "Error building texture: texture uses a mipmap filter but does not have a mipmap"

  /** `build_texture_2d`: a builder with no option set. */
  function BuildTexture2d<C>(gl: C): (b: Texture2dBuilderOf<C>)
    ensures b.gl == gl
    ensures b.minFilter.None? && b.magFilter.None? && b.wrapS.None? && b.wrapT.None?
    ensures !b.genMipmap && b.image.None? && b.emptyParams.None?
  {
    Texture2dBuilderOf(gl, None, None, None, None, false, None, None)
  }

  /** `image_2d`: fill the texture with `img`; nothing else changes. */
  function WithImage2d<C>(b: Texture2dBuilderOf<C>, img: Image2d): (b': Texture2dBuilderOf<C>)
    ensures b'.image == Some(img) && b'.emptyParams == b.emptyParams
    ensures b'.gl == b.gl && b'.genMipmap == b.genMipmap
    ensures b'.minFilter == b.minFilter && b'.magFilter == b.magFilter
    ensures b'.wrapS == b.wrapS && b'.wrapT == b.wrapT
  {
    b.(image := Some(img))
  }

  /** `empty`: create the texture without data, with this format and size; nothing else changes. */
  function WithEmpty<C>(b: Texture2dBuilderOf<C>, format: ImageFormat, width: nat, height: nat): (b': Texture2dBuilderOf<C>)
    ensures b'.emptyParams == Some(EmptyParams(format, width, height)) && b'.image == b.image
    ensures b'.gl == b.gl && b'.genMipmap == b.genMipmap
    ensures b'.minFilter == b.minFilter && b'.magFilter == b.magFilter
    ensures b'.wrapS == b.wrapS && b'.wrapT == b.wrapT
  {
    b.(emptyParams := Some(EmptyParams(format, width, height)))
  }

  /** `generate_mipmap`: ask for the mipmap chain; nothing else changes. */
  function WithGenerateMipmap<C>(b: Texture2dBuilderOf<C>): (b': Texture2dBuilderOf<C>)
    ensures b'.genMipmap
    ensures b'.image == b.image && b'.emptyParams == b.emptyParams && b'.gl == b.gl
    ensures b'.minFilter == b.minFilter && b'.magFilter == b.magFilter
    ensures b'.wrapS == b.wrapS && b'.wrapT == b.wrapT
  {
    b.(genMipmap := true)
  }

  /** `min_filter` with a minification filter (possibly a mipmap one); nothing else changes. */
  function WithMinFilter<C>(b: Texture2dBuilderOf<C>, filter: TextureMipmapFilter): (b': Texture2dBuilderOf<C>)
    ensures b'.minFilter == Some(filter)
    ensures b'.image == b.image && b'.emptyParams == b.emptyParams && b'.gl == b.gl
    ensures b'.genMipmap == b.genMipmap && b'.magFilter == b.magFilter
    ensures b'.wrapS == b.wrapS && b'.wrapT == b.wrapT
  {
    b.(minFilter := Some(filter))
  }

  /** `min_filter` with a plain filter, converted by `From<TextureFilter>`: never a mipmap filter. */
  function WithPlainMinFilter<C>(b: Texture2dBuilderOf<C>, filter: TextureFilter): (b': Texture2dBuilderOf<C>)
    ensures b'.minFilter.Some? && !b'.minFilter.value.MipmapFilter?
    ensures MipmapFilterGlEnum(b'.minFilter.value) == FilterGlEnum(filter)
    ensures b'.image == b.image && b'.emptyParams == b.emptyParams && b'.gl == b.gl
    ensures b'.genMipmap == b.genMipmap && b'.magFilter == b.magFilter
    ensures b'.wrapS == b.wrapS && b'.wrapT == b.wrapT
  {
    WithMinFilter(b, FromFilter(filter))
  }

  /** `mag_filter`; nothing else changes. */
  function WithMagFilter<C>(b: Texture2dBuilderOf<C>, filter: TextureFilter): (b': Texture2dBuilderOf<C>)
    ensures b'.magFilter == Some(filter)
    ensures b'.image == b.image && b'.emptyParams == b.emptyParams && b'.gl == b.gl
    ensures b'.genMipmap == b.genMipmap && b'.minFilter == b.minFilter
    ensures b'.wrapS == b.wrapS && b'.wrapT == b.wrapT
  {
    b.(magFilter := Some(filter))
  }

  /** `wrap_s`; nothing else changes. */
  function WithWrapS<C>(b: Texture2dBuilderOf<C>, wrap: TextureWrapMode): (b': Texture2dBuilderOf<C>)
    ensures b'.wrapS == Some(wrap)
    ensures b'.image == b.image && b'.emptyParams == b.emptyParams && b'.gl == b.gl
    ensures b'.genMipmap == b.genMipmap && b'.minFilter == b.minFilter
    ensures b'.magFilter == b.magFilter && b'.wrapT == b.wrapT
  {
    b.(wrapS := Some(wrap))
  }

  /** `wrap_t`; nothing else changes. */
  function WithWrapT<C>(b: Texture2dBuilderOf<C>, wrap: TextureWrapMode): (b': Texture2dBuilderOf<C>)
    ensures b'.wrapT == Some(wrap)
    ensures b'.image == b.image && b'.emptyParams == b.emptyParams && b'.gl == b.gl
    ensures b'.genMipmap == b.genMipmap && b'.minFilter == b.minFilter
    ensures b'.magFilter == b.magFilter && b'.wrapS == b.wrapS
  {
    b.(wrapT := Some(wrap))
  }

  /** Storage was asked for: image data, or an empty texture of some size. */
  predicate HasStorage<C>(b: Texture2dBuilderOf<C>) {
    b.image.Some? || b.emptyParams.Some?
  }

  /** The storage is an empty texture (no image was given) with a zero side. */
  predicate EmptyWithZeroSide<C>(b: Texture2dBuilderOf<C>) {
    b.image.None? && b.emptyParams.Some? && (b.emptyParams.value.width == 0 || b.emptyParams.value.height == 0)
  }

  /** The minification filter samples mipmaps, but no mipmap chain is generated. */
  predicate MipmapMissing<C>(b: Texture2dBuilderOf<C>) {
    !b.genMipmap && b.minFilter.Some? && b.minFilter.value.MipmapFilter?
  }

  /** The builder's own completeness conditions. */
  predicate Buildable<C>(b: Texture2dBuilderOf<C>) {
    HasStorage(b) && !EmptyWithZeroSide(b) && !MipmapMissing(b)
  }

  /** One optional parameter call: nothing when the option is unset. */
  function OptionalParameter(isSet: bool, pname: GLenum, param: GLenum): (cs: seq<Call>)
    ensures |cs| == if isSet then 1 else 0
    ensures isSet ==> cs[0] == TexParameteri(TEXTURE_2D, pname, param)
    ensures forall c :: c in cs ==> isSet && c == TexParameteri(TEXTURE_2D, pname, param)
  {
    if isSet then [TexParameteri(TEXTURE_2D, pname, param)] else []
  }

  /** The GL code a set option is sent as, or zero for an unset one (never sent). */
  function MinCode(m: Option<TextureMipmapFilter>): GLenum {
    if m.Some? then MipmapFilterGlEnum(m.value) else 0
  }

  function MagCode(m: Option<TextureFilter>): GLenum {
    if m.Some? then FilterGlEnum(m.value) else 0
  }

  function WrapCode(w: Option<TextureWrapMode>): GLenum {
    if w.Some? then WrapModeGlEnum(w.value) else 0
  }

  /** Appending four sequences one by one appends them laid end to end. */
  lemma AppendFour<T>(x: seq<T>, a: seq<T>, b: seq<T>, c: seq<T>, d: seq<T>)
    ensures x + a + b + c + d == x + (a + b + c + d)
  {
  }

  /** Every element of four sequences laid end to end comes from one of them. */
  lemma ElementsOfFour<T>(a: seq<T>, b: seq<T>, c: seq<T>, d: seq<T>)
    ensures forall i :: 0 <= i < |a + b + c + d| ==>
      (a + b + c + d)[i] in a || (a + b + c + d)[i] in b || (a + b + c + d)[i] in c || (a + b + c + d)[i] in d
  {
  }

  /** The parameter calls of a build, laid end to end in the builder's order. */
  function RawParameterCalls<C>(b: Texture2dBuilderOf<C>): seq<Call> {
    OptionalParameter(b.minFilter.Some?, TEXTURE_MIN_FILTER, MinCode(b.minFilter))
    + OptionalParameter(b.magFilter.Some?, TEXTURE_MAG_FILTER, MagCode(b.magFilter))
    + OptionalParameter(b.wrapS.Some?, TEXTURE_WRAP_S, WrapCode(b.wrapS))
    + OptionalParameter(b.wrapT.Some?, TEXTURE_WRAP_T, WrapCode(b.wrapT))
  }

  /** Each parameter call comes from one of the four optional parameters. */
  lemma RawParameterCallsFrom<C>(b: Texture2dBuilderOf<C>)
    ensures |RawParameterCalls(b)| <= 4
    ensures forall i :: 0 <= i < |RawParameterCalls(b)| ==>
      && RawParameterCalls(b)[i].TexParameteri? && RawParameterCalls(b)[i].target == TEXTURE_2D
      && (RawParameterCalls(b)[i].pname == TEXTURE_MIN_FILTER ==> b.minFilter.Some? && RawParameterCalls(b)[i].param == MinCode(b.minFilter))
      && (RawParameterCalls(b)[i].pname == TEXTURE_MAG_FILTER ==> b.magFilter.Some? && RawParameterCalls(b)[i].param == MagCode(b.magFilter))
      && (RawParameterCalls(b)[i].pname == TEXTURE_WRAP_S ==> b.wrapS.Some? && RawParameterCalls(b)[i].param == WrapCode(b.wrapS))
      && (RawParameterCalls(b)[i].pname == TEXTURE_WRAP_T ==> b.wrapT.Some? && RawParameterCalls(b)[i].param == WrapCode(b.wrapT))
  {
    var mn := OptionalParameter(b.minFilter.Some?, TEXTURE_MIN_FILTER, MinCode(b.minFilter));
    var mg := OptionalParameter(b.magFilter.Some?, TEXTURE_MAG_FILTER, MagCode(b.magFilter));
    var ws := OptionalParameter(b.wrapS.Some?, TEXTURE_WRAP_S, WrapCode(b.wrapS));
    var wt := OptionalParameter(b.wrapT.Some?, TEXTURE_WRAP_T, WrapCode(b.wrapT));
    ElementsOfFour(mn, mg, ws, wt);
  }

  /** Every optional parameter that was set has its call among the parameter calls. */
  lemma RawParameterCallsCover<C>(b: Texture2dBuilderOf<C>)
    ensures b.minFilter.Some? ==> TexParameteri(TEXTURE_2D, TEXTURE_MIN_FILTER, MinCode(b.minFilter)) in RawParameterCalls(b)
    ensures b.magFilter.Some? ==> TexParameteri(TEXTURE_2D, TEXTURE_MAG_FILTER, MagCode(b.magFilter)) in RawParameterCalls(b)
    ensures b.wrapS.Some? ==> TexParameteri(TEXTURE_2D, TEXTURE_WRAP_S, WrapCode(b.wrapS)) in RawParameterCalls(b)
    ensures b.wrapT.Some? ==> TexParameteri(TEXTURE_2D, TEXTURE_WRAP_T, WrapCode(b.wrapT)) in RawParameterCalls(b)
  {
    var mn := OptionalParameter(b.minFilter.Some?, TEXTURE_MIN_FILTER, MinCode(b.minFilter));
    var mg := OptionalParameter(b.magFilter.Some?, TEXTURE_MAG_FILTER, MagCode(b.magFilter));
    var ws := OptionalParameter(b.wrapS.Some?, TEXTURE_WRAP_S, WrapCode(b.wrapS));
    var wt := OptionalParameter(b.wrapT.Some?, TEXTURE_WRAP_T, WrapCode(b.wrapT));
    assert b.minFilter.Some? ==> mn[0] in mn;
    assert b.magFilter.Some? ==> mg[0] in mg;
    assert b.wrapS.Some? ==> ws[0] in ws;
    assert b.wrapT.Some? ==> wt[0] in wt;
  }

  /**
   * The parameter calls of a build, in the order the builder makes them:
   * minification filter, magnification filter, wrap s, wrap t — each only
   * when it was set, each carrying the value that was set.
   */
  function ParameterCalls<C>(b: Texture2dBuilderOf<C>): (cs: seq<Call>)
    ensures |cs| <= 4
    ensures forall i :: 0 <= i < |cs| ==> cs[i].TexParameteri? && cs[i].target == TEXTURE_2D
    ensures forall i :: 0 <= i < |cs| && cs[i].pname == TEXTURE_MIN_FILTER ==>
      b.minFilter.Some? && cs[i].param == MipmapFilterGlEnum(b.minFilter.value)
    ensures forall i :: 0 <= i < |cs| && cs[i].pname == TEXTURE_MAG_FILTER ==>
      b.magFilter.Some? && cs[i].param == FilterGlEnum(b.magFilter.value)
    ensures forall i :: 0 <= i < |cs| && cs[i].pname == TEXTURE_WRAP_S ==>
      b.wrapS.Some? && cs[i].param == WrapModeGlEnum(b.wrapS.value)
    ensures forall i :: 0 <= i < |cs| && cs[i].pname == TEXTURE_WRAP_T ==>
      b.wrapT.Some? && cs[i].param == WrapModeGlEnum(b.wrapT.value)
    ensures b.minFilter.Some? ==> TexParameteri(TEXTURE_2D, TEXTURE_MIN_FILTER, MipmapFilterGlEnum(b.minFilter.value)) in cs
    ensures b.magFilter.Some? ==> TexParameteri(TEXTURE_2D, TEXTURE_MAG_FILTER, FilterGlEnum(b.magFilter.value)) in cs
    ensures b.wrapS.Some? ==> TexParameteri(TEXTURE_2D, TEXTURE_WRAP_S, WrapModeGlEnum(b.wrapS.value)) in cs
    ensures b.wrapT.Some? ==> TexParameteri(TEXTURE_2D, TEXTURE_WRAP_T, WrapModeGlEnum(b.wrapT.value)) in cs
  {
    RawParameterCallsFrom(b);
    RawParameterCallsCover(b);
    RawParameterCalls(b)
  }

  /** `set_min_filter` when a minification filter was given. */
  function MinFilterStep(gt: Texture2dBinding, m: Option<TextureMipmapFilter>, d: Driver): (e: Driver)
    ensures e.calls == d.calls + OptionalParameter(m.Some?, TEXTURE_MIN_FILTER, MinCode(m))
    ensures e.bindings == d.bindings && e.active == d.active
  {
    if m.Some? then SetMinFilter(gt, m.value, d) else d
  }

  /** `set_mag_filter` when a magnification filter was given. */
  function MagFilterStep(gt: Texture2dBinding, m: Option<TextureFilter>, d: Driver): (e: Driver)
    ensures e.calls == d.calls + OptionalParameter(m.Some?, TEXTURE_MAG_FILTER, MagCode(m))
    ensures e.bindings == d.bindings && e.active == d.active
  {
    if m.Some? then SetMagFilter(gt, m.value, d) else d
  }

  /** `set_wrap_s` when a wrap mode for s was given. */
  function WrapSStep(gt: Texture2dBinding, w: Option<TextureWrapMode>, d: Driver): (e: Driver)
    ensures e.calls == d.calls + OptionalParameter(w.Some?, TEXTURE_WRAP_S, WrapCode(w))
    ensures e.bindings == d.bindings && e.active == d.active
  {
    if w.Some? then SetWrapS(gt, w.value, d) else d
  }

  /** `set_wrap_t` when a wrap mode for t was given. */
  function WrapTStep(gt: Texture2dBinding, w: Option<TextureWrapMode>, d: Driver): (e: Driver)
    ensures e.calls == d.calls + OptionalParameter(w.Some?, TEXTURE_WRAP_T, WrapCode(w))
    ensures e.bindings == d.bindings && e.active == d.active
  {
    if w.Some? then SetWrapT(gt, w.value, d) else d
  }

  /** Issue the parameter calls on the bound texture, through the `set_*` calls. */
  function ApplyParameters<C>(b: Texture2dBuilderOf<C>, gt: Texture2dBinding, d: Driver): (e: Driver)
    ensures e.calls == d.calls + ParameterCalls(b)
    ensures e.bindings == d.bindings && e.active == d.active
  {
    var d1 := MinFilterStep(gt, b.minFilter, d);
    var d2 := MagFilterStep(gt, b.magFilter, d1);
    var d3 := WrapSStep(gt, b.wrapS, d2);
    var d4 := WrapTStep(gt, b.wrapT, d3);
    AppendFour(d.calls, OptionalParameter(b.minFilter.Some?, TEXTURE_MIN_FILTER, MinCode(b.minFilter)),
      OptionalParameter(b.magFilter.Some?, TEXTURE_MAG_FILTER, MagCode(b.magFilter)),
      OptionalParameter(b.wrapS.Some?, TEXTURE_WRAP_S, WrapCode(b.wrapS)),
      OptionalParameter(b.wrapT.Some?, TEXTURE_WRAP_T, WrapCode(b.wrapT)));
    assert ParameterCalls(b) == RawParameterCalls(b);
    d4
  }

  /**
   * Setting the parameters is the same as issuing the parameter calls
   * directly: none of them binds anything or changes the active unit.
   */
  lemma ApplyParametersIsIssueAll<C>(b: Texture2dBuilderOf<C>, gt: Texture2dBinding, d: Driver)
    ensures ApplyParameters(b, gt, d) == IssueAll(d, ParameterCalls(b))
  {
    var cs := ParameterCalls(b);
    assert forall i :: 0 <= i < |cs| ==> Inert(cs[i]);
    IssueAllInert(d, cs);
  }

  /**
   * The upload step: the image if one was given (the empty parameters are
   * then ignored), else an empty texture of the given size — uploaded
   * before its size is checked — else an error.
   */
  function Upload<C>(b: Texture2dBuilderOf<C>, gt: Texture2dBinding, d: Driver): (r: (Option<GLError>, Driver))
    ensures r.1.bindings == d.bindings && r.1.active == d.active
    ensures !HasStorage(b) <==> r.1 == d
    ensures !HasStorage(b) ==> r.0 == Some(Message(NoStorageMessage))
    ensures HasStorage(b) ==> |r.1.calls| == |d.calls| + 1 && r.1.calls[..|d.calls|] == d.calls
    ensures b.image.Some? ==> r.0.None?
    ensures b.image.Some? ==>
      var c := r.1.calls[|d.calls|];
      c.TexImage2D? && c.target == TEXTURE_2D && c.level == 0 && c.pixels == Texels(b.image.value.texelBytes)
      && c.width == b.image.value.width && c.height == b.image.value.height
      && c.format == TexelFormatGlEnum(b.image.value.format.texelFormat)
    ensures b.image.None? && b.emptyParams.Some? ==>
      var c := r.1.calls[|d.calls|];
      c.TexImage2D? && c.target == TEXTURE_2D && c.level == 0 && c.pixels == NoTexels
      && c.width == b.emptyParams.value.width && c.height == b.emptyParams.value.height
      && c.format == TexelFormatGlEnum(b.emptyParams.value.format.texelFormat)
    ensures HasStorage(b) ==> (r.0.Some? <==> EmptyWithZeroSide(b))
    ensures EmptyWithZeroSide(b) ==> r.0 == Some(Message(EmptyDimensionsMessage))
  {
    if b.image.Some? then
      (None, TexImage2d(gt, Image2dOf(Texture2dImage), 0, b.image.value, d))
    else if b.emptyParams.Some? then
      var p := b.emptyParams.value;
      var e := TexImage2dEmpty(gt, Image2dOf(Texture2dImage), 0, p.format, p.width, p.height, d);
      if !(p.width > 0 && p.height > 0) then (Some(Message(EmptyDimensionsMessage)), e)
      else (None, e)
    else
      (Some(Message(NoStorageMessage)), d)
  }

  /**
   * The mipmap step: generate the chain if asked; otherwise a mipmap
   * minification filter is an error.
   */
  function Mipmap<C>(b: Texture2dBuilderOf<C>, gt: Texture2dBinding, d: Driver): (r: (Option<GLError>, Driver))
    ensures b.genMipmap ==> r.0.None? && r.1.calls == d.calls + [GenerateMipmap(TEXTURE_2D)]
    ensures !b.genMipmap ==> r.1 == d
    ensures r.0.Some? <==> MipmapMissing(b)
    ensures r.0.Some? ==> r.0 == Some(Message(MissingMipmapMessage))
    ensures r.1.bindings == d.bindings && r.1.active == d.active
  {
    if b.genMipmap then (None, GenerateMipmapCall(gt, d))
    else if b.minFilter.Some? && b.minFilter.value.MipmapFilter? then (Some(Message(MissingMipmapMessage)), d)
    else (None, d)
  }

  /** Where the upload call sits in the call sequence of a build. */
  function UploadIndex<C>(b: Texture2dBuilderOf<C>, d: Driver): nat {
    |d.calls| + 3 + |ParameterCalls(b)|
  }

  /**
   * `try_unwrap`: name a new texture `texId`, activate unit 0, bind the
   * texture to the 2D target of the active unit (unit 0, just activated), set the parameters that were given, upload,
   * and generate the mipmap chain or check that none is needed. The errors
   * are the builder's: no storage, an empty texture with a zero side, or a
   * mipmap filter without mipmaps — checked in that order. On an error the
   * new texture is dropped, and dropping it deletes it, which unbinds it.
   */
  function TryUnwrap<B, F, P, R, T1, T2, T3, T4, T5, T6, T7>(
    b: Texture2dBuilderOf<Unit0Context<B, F, P, R, T1, T2, T3, T4, T5, T6, T7>>, texId: nat, d: Driver)
    : (r: (Result<Texture, GLError>, Driver))
    requires b.gl.texUnits.unit0.Free?
    ensures r.0.Ok? <==> Buildable(b)
    ensures r.0.Ok? ==> r.0.value == Texture(texId, Tx2d)
    ensures !HasStorage(b) ==> r.0 == Err(Message(NoStorageMessage))
    ensures EmptyWithZeroSide(b) ==> r.0 == Err(Message(EmptyDimensionsMessage))
    ensures HasStorage(b) && !EmptyWithZeroSide(b) && MipmapMissing(b) ==> r.0 == Err(Message(MissingMipmapMessage))
    ensures r.0.Ok? ==> r.1.bindings == d.bindings[PerUnit(TEXTURE_2D, TEXTURE0) := texId]
    ensures r.0.Err? ==> r.1.bindings == UnbindTexture(d.bindings[PerUnit(TEXTURE_2D, TEXTURE0) := texId], texId)
    ensures r.0.Err? ==> r.1.bindings[PerUnit(TEXTURE_2D, TEXTURE0)] == 0
    ensures r.1.active == TEXTURE0
    ensures |r.1.calls| >= UploadIndex(b, d)
    ensures r.1.calls[..UploadIndex(b, d)] ==
      d.calls + [GenTextures(texId), ActiveTexture(TEXTURE0), BindTexture(TEXTURE_2D, texId)]
      + ParameterCalls(b)
    ensures HasStorage(b) ==> UploadIndex(b, d) < |r.1.calls| && r.1.calls[UploadIndex(b, d)].TexImage2D?
    ensures b.image.Some? ==> r.1.calls[UploadIndex(b, d)].pixels == Texels(b.image.value.texelBytes)
    ensures b.image.None? && b.emptyParams.Some? ==> r.1.calls[UploadIndex(b, d)].pixels == NoTexels
    ensures |r.1.calls| == UploadIndex(b, d) + (if HasStorage(b) then 1 else 0)
                           + (if HasStorage(b) && !EmptyWithZeroSide(b) && b.genMipmap then 1 else 0)
                           + (if r.0.Err? then 1 else 0)
    ensures r.0.Ok? && b.genMipmap ==> r.1.calls[|r.1.calls| - 1] == GenerateMipmap(TEXTURE_2D)
    ensures r.0.Err? ==> r.1.calls[|r.1.calls| - 1] == DeleteTextures(texId)
  {
    var (texture, d1) := GenTexture(texId, Tx2d, d);
    var (unit, _, d2) := ActiveTexture0(b.gl, d1);
    var (gt, _, d3) := BindTexture2dAsWritten(unit, texture, d2);
    var d4 := ApplyParameters(b, gt, d3);
    assert d3.calls == d.calls + [GenTextures(texId), ActiveTexture(TEXTURE0), BindTexture(TEXTURE_2D, texId)];
    var (uploadErr, d5) := Upload(b, gt, d4);
    if uploadErr.Some? then (Err(uploadErr.value), Issue(d5, DeleteTextures(texId)))
    else
      var (mipmapErr, d6) := Mipmap(b, gt, d5);
      assert d6.calls[..|d5.calls|] == d5.calls;
      if mipmapErr.Some? then (Err(mipmapErr.value), Issue(d6, DeleteTextures(texId)))
      else (Ok(texture), d6)
  }

  /** `unwrap`: the built texture, or a panic exactly when `try_unwrap` fails. */
  function Unwrap<B, F, P, R, T1, T2, T3, T4, T5, T6, T7>(
    b: Texture2dBuilderOf<Unit0Context<B, F, P, R, T1, T2, T3, T4, T5, T6, T7>>, texId: nat, d: Driver)
    : (r: (Result<Texture, Panic>, Driver))
    requires b.gl.texUnits.unit0.Free?
    ensures r.0.Ok? <==> Buildable(b)
    ensures r.0.Ok? ==> r.0.value == Texture(texId, Tx2d)
    ensures r.0.Err? ==> r.0.error == UnwrapPanic
  {
    var (res, e) := TryUnwrap(b, texId, d);
    if res.Ok? then (Ok(res.value), e) else (Err(UnwrapPanic), e)
  }

  /**
   * Image data takes precedence: once an image is given, adding empty
   * parameters changes neither the outcome nor a single driver call.
   */
  lemma ImageOverridesEmpty<B, F, P, R, T1, T2, T3, T4, T5, T6, T7>(
    b: Texture2dBuilderOf<Unit0Context<B, F, P, R, T1, T2, T3, T4, T5, T6, T7>>,
    img: Image2d, format: ImageFormat, width: nat, height: nat, texId: nat, d: Driver)
    requires b.gl.texUnits.unit0.Free?
    ensures TryUnwrap(WithEmpty(WithImage2d(b, img), format, width, height), texId, d)
         == TryUnwrap(WithImage2d(b.(emptyParams := None), img), texId, d)
  {
    var b1 := WithEmpty(WithImage2d(b, img), format, width, height);
    var b2 := WithImage2d(b.(emptyParams := None), img);
    assert ParameterCalls(b1) == ParameterCalls(b2);
  }

  /**
   * Generating mipmaps clears the mipmap-filter error: with storage of
   * positive size, the build then succeeds whatever filters were set.
   */
  lemma GenerateMipmapAlwaysComplete<B, F, P, R, T1, T2, T3, T4, T5, T6, T7>(
    b: Texture2dBuilderOf<Unit0Context<B, F, P, R, T1, T2, T3, T4, T5, T6, T7>>, texId: nat, d: Driver)
    requires b.gl.texUnits.unit0.Free?
    requires HasStorage(b) && !EmptyWithZeroSide(b)
    ensures TryUnwrap(WithGenerateMipmap(b), texId, d).0 == Ok(Texture(texId, Tx2d))
  {
  }

  /** A builder given nothing but a sized image always builds, and calls nothing after the upload. */
  lemma ImageOnlyBuilds<B, F, P, R, T1, T2, T3, T4, T5, T6, T7>(
    gl: Unit0Context<B, F, P, R, T1, T2, T3, T4, T5, T6, T7>, img: Image2d, texId: nat, d: Driver)
    requires gl.texUnits.unit0.Free?
    ensures var r := TryUnwrap(WithImage2d(BuildTexture2d(gl), img), texId, d);
      r.0 == Ok(Texture(texId, Tx2d)) && |r.1.calls| == |d.calls| + 4
  {
    assert ParameterCalls(WithImage2d(BuildTexture2d(gl), img)) == [];
  }
}

=== FILE: texture_units.dfy ===
/**
 * The eight texture units of a context, activating a unit, and the 2D and
 * cube-map slots of an active unit's binding.
 *
 * Each unit has its own type, so slot k of `TextureUnitsOf` can only ever
 * hold unit k or `()`. Binding a texture acts on the driver's active unit;
 * a unit binding remembers which unit it activated.
 */
module TextureUnits {
  import opened Gl
  import opened GlDriver
  import opened Textures
  import opened UniformData
  import opened ContextState
  import opened TextureBinders
  /** Texture unit 0. */
  datatype TextureUnit0 = TextureUnit0
  /** Texture unit 1. */
  datatype TextureUnit1 = TextureUnit1
  /** Texture unit 2. */
  datatype TextureUnit2 = TextureUnit2
  /** Texture unit 3. */
  datatype TextureUnit3 = TextureUnit3
  /** Texture unit 4. */
  datatype TextureUnit4 = TextureUnit4
  /** Texture unit 5. */
  datatype TextureUnit5 = TextureUnit5
  /** Texture unit 6. */
  datatype TextureUnit6 = TextureUnit6
  /** Texture unit 7. */
  datatype TextureUnit7 = TextureUnit7
  /** The index of a texture unit the context hands out. */
  type UnitIndex = k: nat | k < 8

  /** `TextureUnit0::idx`. */
  function Idx0(u: TextureUnit0): UnitIndex { 0 }
  /** `TextureUnit1::idx`. */
  function Idx1(u: TextureUnit1): UnitIndex { 1 }
  /** `TextureUnit2::idx`. */
  function Idx2(u: TextureUnit2): UnitIndex { 2 }
  /** `TextureUnit3::idx`. */
  function Idx3(u: TextureUnit3): UnitIndex { 3 }
  /** `TextureUnit4::idx`. */
  function Idx4(u: TextureUnit4): UnitIndex { 4 }
  /** `TextureUnit5::idx`. */
  function Idx5(u: TextureUnit5): UnitIndex { 5 }
  /** `TextureUnit6::idx`. */
  function Idx6(u: TextureUnit6): UnitIndex { 6 }
  /** `TextureUnit7::idx`. */
  function Idx7(u: TextureUnit7): UnitIndex { 7 }

  /** The units' indices are 0 to 7 in order, so no two units share an index. */
  lemma UnitIndices()
    ensures Idx0(TextureUnit0) == 0 && Idx1(TextureUnit1) == 1 && Idx2(TextureUnit2) == 2 && Idx3(TextureUnit3) == 3
    ensures Idx4(TextureUnit4) == 4 && Idx5(TextureUnit5) == 5 && Idx6(TextureUnit6) == 6 && Idx7(TextureUnit7) == 7
  {
  }

  /**
   * The GL name of texture unit `idx`: GL reads the unit number as the
   * offset of the name from `TEXTURE0`.
   */
  function UnitCode(idx: UnitIndex): (code: GLenum)
    ensures TEXTURE0 <= code < TEXTURE0 + 8
    ensures code as int - TEXTURE0 as int == idx
  {
    TEXTURE0 + idx as GLenum
  }

  /** Distinct units have distinct GL names. */
  lemma UnitCodeInjective(i: UnitIndex, j: UnitIndex)
    requires UnitCode(i) == UnitCode(j)
    ensures i == j
  {
  }

  /** `TextureUnitsOf<T0, ..., T7>`: one slot per texture unit. */
  datatype TextureUnitsOf<+T0, +T1, +T2, +T3, +T4, +T5, +T6, +T7> =
    TextureUnitsOf(unit0: T0, unit1: T1, unit2: T2, unit3: T3, unit4: T4, unit5: T5, unit6: T6, unit7: T7)

  /** The eight unit slots with the unit-or-used choice written as a value. */
  type TextureUnits = TextureUnitsOf<Slot<TextureUnit0>, Slot<TextureUnit1>, Slot<TextureUnit2>, Slot<TextureUnit3>, Slot<TextureUnit4>, Slot<TextureUnit5>, Slot<TextureUnit6>, Slot<TextureUnit7>>

  /** `TextureUnitsOf::current`: every unit is free. */
  function CurrentTextureUnits(): (u: TextureUnits)
    ensures u.unit0.Free? && u.unit1.Free? && u.unit2.Free? && u.unit3.Free? && u.unit4.Free? && u.unit5.Free? && u.unit6.Free? && u.unit7.Free?
  {
    TextureUnitsOf(Free(TextureUnit0), Free(TextureUnit1), Free(TextureUnit2), Free(TextureUnit3), Free(TextureUnit4), Free(TextureUnit5), Free(TextureUnit6), Free(TextureUnit7))
  }

  /** `swap_0`: take out unit slot 0, put `n` in its place. */
  function Swap0<T0, T1, T2, T3, T4, T5, T6, T7, N0>(u: TextureUnitsOf<T0, T1, T2, T3, T4, T5, T6, T7>, n: N0): (r: (T0, TextureUnitsOf<N0, T1, T2, T3, T4, T5, T6, T7>))
    ensures r.0 == u.unit0 && r.1.unit0 == n
    ensures r.1.unit1 == u.unit1 && r.1.unit2 == u.unit2 && r.1.unit3 == u.unit3 && r.1.unit4 == u.unit4 && r.1.unit5 == u.unit5 && r.1.unit6 == u.unit6 && r.1.unit7 == u.unit7
  {
    (u.unit0, TextureUnitsOf(n, u.unit1, u.unit2, u.unit3, u.unit4, u.unit5, u.unit6, u.unit7))
  }

  /** `swap_1`: take out unit slot 1, put `n` in its place. */
  function Swap1<T0, T1, T2, T3, T4, T5, T6, T7, N1>(u: TextureUnitsOf<T0, T1, T2, T3, T4, T5, T6, T7>, n: N1): (r: (T1, TextureUnitsOf<T0, N1, T2, T3, T4, T5, T6, T7>))
    ensures r.0 == u.unit1 && r.1.unit1 == n
    ensures r.1.unit0 == u.unit0 && r.1.unit2 == u.unit2 && r.1.unit3 == u.unit3 && r.1.unit4 == u.unit4 && r.1.unit5 == u.unit5 && r.1.unit6 == u.unit6 && r.1.unit7 == u.unit7
  {
    (u.unit1, TextureUnitsOf(u.unit0, n, u.unit2, u.unit3, u.unit4, u.unit5, u.unit6, u.unit7))
  }

  /** `swap_2`: take out unit slot 2, put `n` in its place. */
  function Swap2<T0, T1, T2, T3, T4, T5, T6, T7, N2>(u: TextureUnitsOf<T0, T1, T2, T3, T4, T5, T6, T7>, n: N2): (r: (T2, TextureUnitsOf<T0, T1, N2, T3, T4, T5, T6, T7>))
    ensures r.0 == u.unit2 && r.1.unit2 == n
    ensures r.1.unit0 == u.unit0 && r.1.unit1 == u.unit1 && r.1.unit3 == u.unit3 && r.1.unit4 == u.unit4 && r.1.unit5 == u.unit5 && r.1.unit6 == u.unit6 && r.1.unit7 == u.unit7
  {
    (u.unit2, TextureUnitsOf(u.unit0, u.unit1, n, u.unit3, u.unit4, u.unit5, u.unit6, u.unit7))
  }

  /** `swap_3`: take out unit slot 3, put `n` in its place. */
  function Swap3<T0, T1, T2, T3, T4, T5, T6, T7, N3>(u: TextureUnitsOf<T0, T1, T2, T3, T4, T5, T6, T7>, n: N3): (r: (T3, TextureUnitsOf<T0, T1, T2, N3, T4, T5, T6, T7>))
    ensures r.0 == u.unit3 && r.1.unit3 == n
    ensures r.1.unit0 == u.unit0 && r.1.unit1 == u.unit1 && r.1.unit2 == u.unit2 && r.1.unit4 == u.unit4 && r.1.unit5 == u.unit5 && r.1.unit6 == u.unit6 && r.1.unit7 == u.unit7
  {
    (u.unit3, TextureUnitsOf(u.unit0, u.unit1, u.unit2, n, u.unit4, u.unit5, u.unit6, u.unit7))
  }

  /** `swap_4`: take out unit slot 4, put `n` in its place. */
  function Swap4<T0, T1, T2, T3, T4, T5, T6, T7, N4>(u: TextureUnitsOf<T0, T1, T2, T3, T4, T5, T6, T7>, n: N4): (r: (T4, TextureUnitsOf<T0, T1, T2, T3, N4, T5, T6, T7>))
    ensures r.0 == u.unit4 && r.1.unit4 == n
    ensures r.1.unit0 == u.unit0 && r.1.unit1 == u.unit1 && r.1.unit2 == u.unit2 && r.1.unit3 == u.unit3 && r.1.unit5 == u.unit5 && r.1.unit6 == u.unit6 && r.1.unit7 == u.unit7
  {
    (u.unit4, TextureUnitsOf(u.unit0, u.unit1, u.unit2, u.unit3, n, u.unit5, u.unit6, u.unit7))
  }

  /** `swap_5`: take out unit slot 5, put `n` in its place. */
  function Swap5<T0, T1, T2, T3, T4, T5, T6, T7, N5>(u: TextureUnitsOf<T0, T1, T2, T3, T4, T5, T6, T7>, n: N5): (r: (T5, TextureUnitsOf<T0, T1, T2, T3, T4, N5, T6, T7>))
    ensures r.0 == u.unit5 && r.1.unit5 == n
    ensures r.1.unit0 == u.unit0 && r.1.unit1 == u.unit1 && r.1.unit2 == u.unit2 && r.1.unit3 == u.unit3 && r.1.unit4 == u.unit4 && r.1.unit6 == u.unit6 && r.1.unit7 == u.unit7
  {
    (u.unit5, TextureUnitsOf(u.unit0, u.unit1, u.unit2, u.unit3, u.unit4, n, u.unit6, u.unit7))
  }

  /** `swap_6`: take out unit slot 6, put `n` in its place. */
  function Swap6<T0, T1, T2, T3, T4, T5, T6, T7, N6>(u: TextureUnitsOf<T0, T1, T2, T3, T4, T5, T6, T7>, n: N6): (r: (T6, TextureUnitsOf<T0, T1, T2, T3, T4, T5, N6, T7>))
    ensures r.0 == u.unit6 && r.1.unit6 == n
    ensures r.1.unit0 == u.unit0 && r.1.unit1 == u.unit1 && r.1.unit2 == u.unit2 && r.1.unit3 == u.unit3 && r.1.unit4 == u.unit4 && r.1.unit5 == u.unit5 && r.1.unit7 == u.unit7
  {
    (u.unit6, TextureUnitsOf(u.unit0, u.unit1, u.unit2, u.unit3, u.unit4, u.unit5, n, u.unit7))
  }

  /** `swap_7`: take out unit slot 7, put `n` in its place. */
  function Swap7<T0, T1, T2, T3, T4, T5, T6, T7, N7>(u: TextureUnitsOf<T0, T1, T2, T3, T4, T5, T6, T7>, n: N7): (r: (T7, TextureUnitsOf<T0, T1, T2, T3, T4, T5, T6, N7>))
    ensures r.0 == u.unit7 && r.1.unit7 == n
    ensures r.1.unit0 == u.unit0 && r.1.unit1 == u.unit1 && r.1.unit2 == u.unit2 && r.1.unit3 == u.unit3 && r.1.unit4 == u.unit4 && r.1.unit5 == u.unit5 && r.1.unit6 == u.unit6
  {
    (u.unit7, TextureUnitsOf(u.unit0, u.unit1, u.unit2, u.unit3, u.unit4, u.unit5, u.unit6, n))
  }

  /** Swapping a unit slot out and the old contents back in restores the units. */
  lemma UnitSwapRoundTrips<T0, T1, T2, T3, T4, T5, T6, T7, N>(u: TextureUnitsOf<T0, T1, T2, T3, T4, T5, T6, T7>, n: N)
    ensures var (o, rest) := Swap0(u, n); Swap0(rest, o).1 == u
    ensures var (o, rest) := Swap1(u, n); Swap1(rest, o).1 == u
    ensures var (o, rest) := Swap2(u, n); Swap2(rest, o).1 == u
    ensures var (o, rest) := Swap3(u, n); Swap3(rest, o).1 == u
    ensures var (o, rest) := Swap4(u, n); Swap4(rest, o).1 == u
    ensures var (o, rest) := Swap5(u, n); Swap5(rest, o).1 == u
    ensures var (o, rest) := Swap6(u, n); Swap6(rest, o).1 == u
    ensures var (o, rest) := Swap7(u, n); Swap7(rest, o).1 == u
  {
  }

  /**
   * `split_tex_unit_0` on an owned context: hand out unit 0 and leave `()`
   * (here `Used`) in its slot; the other units and slots are untouched.
   */
  function SplitTexUnit0<B, F, P, R, T1, T2, T3, T4, T5, T6, T7>(c: ContextOf<B, F, P, R, TextureUnitsOf<Slot<TextureUnit0>, T1, T2, T3, T4, T5, T6, T7>>)
    : (r: (TextureUnit0, ContextOf<B, F, P, R, TextureUnitsOf<Slot<TextureUnit0>, T1, T2, T3, T4, T5, T6, T7>>))
    requires c.texUnits.unit0.Free?
    ensures c.texUnits.unit0 == Free(r.0)
    ensures r.1 == c.(texUnits := c.texUnits.(unit0 := Used))
  {
    var (texUnits, gl) := SwapTexUnits(c, ());
    var (unit, restTexUnits) := Swap0(texUnits, Used);
    var (_, gl) := SwapTexUnits(gl, restTexUnits);
    (unit.binder, gl)
  }

  /** `active_texture_0`: split off unit 0 and make it the driver's active unit. */
  function ActiveTexture0<B, F, P, R, T1, T2, T3, T4, T5, T6, T7>(c: ContextOf<B, F, P, R, TextureUnitsOf<Slot<TextureUnit0>, T1, T2, T3, T4, T5, T6, T7>>, d: Driver)
    : (r: (TextureUnitBinding, ContextOf<B, F, P, R, TextureUnitsOf<Slot<TextureUnit0>, T1, T2, T3, T4, T5, T6, T7>>, Driver))
    requires c.texUnits.unit0.Free?
    ensures r.0.idx == 0 && r.0.texture2d.Free? && r.0.textureCubeMap.Free?
    ensures r.1 == c.(texUnits := c.texUnits.(unit0 := Used))
    ensures r.2 == Issue(d, ActiveTexture(TEXTURE0 + 0))
  {
    var (unit, rest) := SplitTexUnit0(c);
    var (binding, d') := Active(Idx0(unit), d);
    (binding, rest, d')
  }

  /**
   * `split_tex_unit_1` on an owned context: hand out unit 1 and leave `()`
   * (here `Used`) in its slot; the other units and slots are untouched.
   */
  function SplitTexUnit1<B, F, P, R, T0, T2, T3, T4, T5, T6, T7>(c: ContextOf<B, F, P, R, TextureUnitsOf<T0, Slot<TextureUnit1>, T2, T3, T4, T5, T6, T7>>)
    : (r: (TextureUnit1, ContextOf<B, F, P, R, TextureUnitsOf<T0, Slot<TextureUnit1>, T2, T3, T4, T5, T6, T7>>))
    requires c.texUnits.unit1.Free?
    ensures c.texUnits.unit1 == Free(r.0)
    ensures r.1 == c.(texUnits := c.texUnits.(unit1 := Used))
  {
    var (texUnits, gl) := SwapTexUnits(c, ());
    var (unit, restTexUnits) := Swap1(texUnits, Used);
    var (_, gl) := SwapTexUnits(gl, restTexUnits);
    (unit.binder, gl)
  }

  /** `active_texture_1`: split off unit 1 and make it the driver's active unit. */
  function ActiveTexture1<B, F, P, R, T0, T2, T3, T4, T5, T6, T7>(c: ContextOf<B, F, P, R, TextureUnitsOf<T0, Slot<TextureUnit1>, T2, T3, T4, T5, T6, T7>>, d: Driver)
    : (r: (TextureUnitBinding, ContextOf<B, F, P, R, TextureUnitsOf<T0, Slot<TextureUnit1>, T2, T3, T4, T5, T6, T7>>, Driver))
    requires c.texUnits.unit1.Free?
    ensures r.0.idx == 1 && r.0.texture2d.Free? && r.0.textureCubeMap.Free?
    ensures r.1 == c.(texUnits := c.texUnits.(unit1 := Used))
    ensures r.2 == Issue(d, ActiveTexture(TEXTURE0 + 1))
  {
    var (unit, rest) := SplitTexUnit1(c);
    var (binding, d') := Active(Idx1(unit), d);
    (binding, rest, d')
  }

  /**
   * `split_tex_unit_2` on an owned context: hand out unit 2 and leave `()`
   * (here `Used`) in its slot; the other units and slots are untouched.
   */
  function SplitTexUnit2<B, F, P, R, T0, T1, T3, T4, T5, T6, T7>(c: ContextOf<B, F, P, R, TextureUnitsOf<T0, T1, Slot<TextureUnit2>, T3, T4, T5, T6, T7>>)
    : (r: (TextureUnit2, ContextOf<B, F, P, R, TextureUnitsOf<T0, T1, Slot<TextureUnit2>, T3, T4, T5, T6, T7>>))
    requires c.texUnits.unit2.Free?
    ensures c.texUnits.unit2 == Free(r.0)
    ensures r.1 == c.(texUnits := c.texUnits.(unit2 := Used))
  {
    var (texUnits, gl) := SwapTexUnits(c, ());
    var (unit, restTexUnits) := Swap2(texUnits, Used);
    var (_, gl) := SwapTexUnits(gl, restTexUnits);
    (unit.binder, gl)
  }

  /** `active_texture_2`: split off unit 2 and make it the driver's active unit. */
  function ActiveTexture2<B, F, P, R, T0, T1, T3, T4, T5, T6, T7>(c: ContextOf<B, F, P, R, TextureUnitsOf<T0, T1, Slot<TextureUnit2>, T3, T4, T5, T6, T7>>, d: Driver)
    : (r: (TextureUnitBinding, ContextOf<B, F, P, R, TextureUnitsOf<T0, T1, Slot<TextureUnit2>, T3, T4, T5, T6, T7>>, Driver))
    requires c.texUnits.unit2.Free?
    ensures r.0.idx == 2 && r.0.texture2d.Free? && r.0.textureCubeMap.Free?
    ensures r.1 == c.(texUnits := c.texUnits.(unit2 := Used))
    ensures r.2 == Issue(d, ActiveTexture(TEXTURE0 + 2))
  {
    var (unit, rest) := SplitTexUnit2(c);
    var (binding, d') := Active(Idx2(unit), d);
    (binding, rest, d')
  }

  /**
   * `split_tex_unit_3` on an owned context: hand out unit 3 and leave `()`
   * (here `Used`) in its slot; the other units and slots are untouched.
   */
  function SplitTexUnit3<B, F, P, R, T0, T1, T2, T4, T5, T6, T7>(c: ContextOf<B, F, P, R, TextureUnitsOf<T0, T1, T2, Slot<TextureUnit3>, T4, T5, T6, T7>>)
    : (r: (TextureUnit3, ContextOf<B, F, P, R, TextureUnitsOf<T0, T1, T2, Slot<TextureUnit3>, T4, T5, T6, T7>>))
    requires c.texUnits.unit3.Free?
    ensures c.texUnits.unit3 == Free(r.0)
    ensures r.1 == c.(texUnits := c.texUnits.(unit3 := Used))
  {
    var (texUnits, gl) := SwapTexUnits(c, ());
    var (unit, restTexUnits) := Swap3(texUnits, Used);
    var (_, gl) := SwapTexUnits(gl, restTexUnits);
    (unit.binder, gl)
  }

  /** `active_texture_3`: split off unit 3 and make it the driver's active unit. */
  function ActiveTexture3<B, F, P, R, T0, T1, T2, T4, T5, T6, T7>(c: ContextOf<B, F, P, R, TextureUnitsOf<T0, T1, T2, Slot<TextureUnit3>, T4, T5, T6, T7>>, d: Driver)
    : (r: (TextureUnitBinding, ContextOf<B, F, P, R, TextureUnitsOf<T0, T1, T2, Slot<TextureUnit3>, T4, T5, T6, T7>>, Driver))
    requires c.texUnits.unit3.Free?
    ensures r.0.idx == 3 && r.0.texture2d.Free? && r.0.textureCubeMap.Free?
    ensures r.1 == c.(texUnits := c.texUnits.(unit3 := Used))
    ensures r.2 == Issue(d, ActiveTexture(TEXTURE0 + 3))
  {
    var (unit, rest) := SplitTexUnit3(c);
    var (binding, d') := Active(Idx3(unit), d);
    (binding, rest, d')
  }

  /**
   * `split_tex_unit_4` on an owned context: hand out unit 4 and leave `()`
   * (here `Used`) in its slot; the other units and slots are untouched.
   */
  function SplitTexUnit4<B, F, P, R, T0, T1, T2, T3, T5, T6, T7>(c: ContextOf<B, F, P, R, TextureUnitsOf<T0, T1, T2, T3, Slot<TextureUnit4>, T5, T6, T7>>)
    : (r: (TextureUnit4, ContextOf<B, F, P, R, TextureUnitsOf<T0, T1, T2, T3, Slot<TextureUnit4>, T5, T6, T7>>))
    requires c.texUnits.unit4.Free?
    ensures c.texUnits.unit4 == Free(r.0)
    ensures r.1 == c.(texUnits := c.texUnits.(unit4 := Used))
  {
    var (texUnits, gl) := SwapTexUnits(c, ());
    var (unit, restTexUnits) := Swap4(texUnits, Used);
    var (_, gl) := SwapTexUnits(gl, restTexUnits);
    (unit.binder, gl)
  }

  /** `active_texture_4`: split off unit 4 and make it the driver's active unit. */
  function ActiveTexture4<B, F, P, R, T0, T1, T2, T3, T5, T6, T7>(c: ContextOf<B, F, P, R, TextureUnitsOf<T0, T1, T2, T3, Slot<TextureUnit4>, T5, T6, T7>>, d: Driver)
    : (r: (TextureUnitBinding, ContextOf<B, F, P, R, TextureUnitsOf<T0, T1, T2, T3, Slot<TextureUnit4>, T5, T6, T7>>, Driver))
    requires c.texUnits.unit4.Free?
    ensures r.0.idx == 4 && r.0.texture2d.Free? && r.0.textureCubeMap.Free?
    ensures r.1 == c.(texUnits := c.texUnits.(unit4 := Used))
    ensures r.2 == Issue(d, ActiveTexture(TEXTURE0 + 4))
  {
    var (unit, rest) := SplitTexUnit4(c);
    var (binding, d') := Active(Idx4(unit), d);
    (binding, rest, d')
  }

  /**
   * `split_tex_unit_5` on an owned context: hand out unit 5 and leave `()`
   * (here `Used`) in its slot; the other units and slots are untouched.
   */
  function SplitTexUnit5<B, F, P, R, T0, T1, T2, T3, T4, T6, T7>(c: ContextOf<B, F, P, R, TextureUnitsOf<T0, T1, T2, T3, T4, Slot<TextureUnit5>, T6, T7>>)
    : (r: (TextureUnit5, ContextOf<B, F, P, R, TextureUnitsOf<T0, T1, T2, T3, T4, Slot<TextureUnit5>, T6, T7>>))
    requires c.texUnits.unit5.Free?
    ensures c.texUnits.unit5 == Free(r.0)
    ensures r.1 == c.(texUnits := c.texUnits.(unit5 := Used))
  {
    var (texUnits, gl) := SwapTexUnits(c, ());
    var (unit, restTexUnits) := Swap5(texUnits, Used);
    var (_, gl) := SwapTexUnits(gl, restTexUnits);
    (unit.binder, gl)
  }

  /** `active_texture_5`: split off unit 5 and make it the driver's active unit. */
  function ActiveTexture5<B, F, P, R, T0, T1, T2, T3, T4, T6, T7>(c: ContextOf<B, F, P, R, TextureUnitsOf<T0, T1, T2, T3, T4, Slot<TextureUnit5>, T6, T7>>, d: Driver)
    : (r: (TextureUnitBinding, ContextOf<B, F, P, R, TextureUnitsOf<T0, T1, T2, T3, T4, Slot<TextureUnit5>, T6, T7>>, Driver))
    requires c.texUnits.unit5.Free?
    ensures r.0.idx == 5 && r.0.texture2d.Free? && r.0.textureCubeMap.Free?
    ensures r.1 == c.(texUnits := c.texUnits.(unit5 := Used))
    ensures r.2 == Issue(d, ActiveTexture(TEXTURE0 + 5))
  {
    var (unit, rest) := SplitTexUnit5(c);
    var (binding, d') := Active(Idx5(unit), d);
    (binding, rest, d')
  }

  /**
   * `split_tex_unit_6` on an owned context: hand out unit 6 and leave `()`
   * (here `Used`) in its slot; the other units and slots are untouched.
   */
  function SplitTexUnit6<B, F, P, R, T0, T1, T2, T3, T4, T5, T7>(c: ContextOf<B, F, P, R, TextureUnitsOf<T0, T1, T2, T3, T4, T5, Slot<TextureUnit6>, T7>>)
    : (r: (TextureUnit6, ContextOf<B, F, P, R, TextureUnitsOf<T0, T1, T2, T3, T4, T5, Slot<TextureUnit6>, T7>>))
    requires c.texUnits.unit6.Free?
    ensures c.texUnits.unit6 == Free(r.0)
    ensures r.1 == c.(texUnits := c.texUnits.(unit6 := Used))
  {
    var (texUnits, gl) := SwapTexUnits(c, ());
    var (unit, restTexUnits) := Swap6(texUnits, Used);
    var (_, gl) := SwapTexUnits(gl, restTexUnits);
    (unit.binder, gl)
  }

  /** `active_texture_6`: split off unit 6 and make it the driver's active unit. */
  function ActiveTexture6<B, F, P, R, T0, T1, T2, T3, T4, T5, T7>(c: ContextOf<B, F, P, R, TextureUnitsOf<T0, T1, T2, T3, T4, T5, Slot<TextureUnit6>, T7>>, d: Driver)
    : (r: (TextureUnitBinding, ContextOf<B, F, P, R, TextureUnitsOf<T0, T1, T2, T3, T4, T5, Slot<TextureUnit6>, T7>>, Driver))
    requires c.texUnits.unit6.Free?
    ensures r.0.idx == 6 && r.0.texture2d.Free? && r.0.textureCubeMap.Free?
    ensures r.1 == c.(texUnits := c.texUnits.(unit6 := Used))
    ensures r.2 == Issue(d, ActiveTexture(TEXTURE0 + 6))
  {
    var (unit, rest) := SplitTexUnit6(c);
    var (binding, d') := Active(Idx6(unit), d);
    (binding, rest, d')
  }

  /**
   * `split_tex_unit_7` on an owned context: hand out unit 7 and leave `()`
   * (here `Used`) in its slot; the other units and slots are untouched.
   */
  function SplitTexUnit7<B, F, P, R, T0, T1, T2, T3, T4, T5, T6>(c: ContextOf<B, F, P, R, TextureUnitsOf<T0, T1, T2, T3, T4, T5, T6, Slot<TextureUnit7>>>)
    : (r: (TextureUnit7, ContextOf<B, F, P, R, TextureUnitsOf<T0, T1, T2, T3, T4, T5, T6, Slot<TextureUnit7>>>))
    requires c.texUnits.unit7.Free?
    ensures c.texUnits.unit7 == Free(r.0)
    ensures r.1 == c.(texUnits := c.texUnits.(unit7 := Used))
  {
    var (texUnits, gl) := SwapTexUnits(c, ());
    var (unit, restTexUnits) := Swap7(texUnits, Used);
    var (_, gl) := SwapTexUnits(gl, restTexUnits);
    (unit.binder, gl)
  }

  /** `active_texture_7`: split off unit 7 and make it the driver's active unit. */
  function ActiveTexture7<B, F, P, R, T0, T1, T2, T3, T4, T5, T6>(c: ContextOf<B, F, P, R, TextureUnitsOf<T0, T1, T2, T3, T4, T5, T6, Slot<TextureUnit7>>>, d: Driver)
    : (r: (TextureUnitBinding, ContextOf<B, F, P, R, TextureUnitsOf<T0, T1, T2, T3, T4, T5, T6, Slot<TextureUnit7>>>, Driver))
    requires c.texUnits.unit7.Free?
    ensures r.0.idx == 7 && r.0.texture2d.Free? && r.0.textureCubeMap.Free?
    ensures r.1 == c.(texUnits := c.texUnits.(unit7 := Used))
    ensures r.2 == Issue(d, ActiveTexture(TEXTURE0 + 7))
  {
    var (unit, rest) := SplitTexUnit7(c);
    var (binding, d') := Active(Idx7(unit), d);
    (binding, rest, d')
  }

  /**
   * `TextureUnitBindingOf<T2, TC>`: proof that unit `idx` was activated,
   * with its 2D and cube-map binder slots.
   */
  datatype TextureUnitBindingOf<+T2, +TC> = TextureUnitBindingOf(idx: UnitIndex, texture2d: T2, textureCubeMap: TC)

  /** A unit binding with the binder-or-used choice written as a value. */
  type TextureUnitBinding = TextureUnitBindingOf<Slot<Texture2dBinder>, Slot<TextureCubeMapBinder>>

  /** `current_at_idx`: a binding of unit `idx` with both texture targets free. */
  function CurrentAtIdx(idx: UnitIndex): (b: TextureUnitBinding)
    ensures b.idx == idx && b.texture2d.Free? && b.textureCubeMap.Free?
  {
    TextureUnitBindingOf(idx, Free(CurrentTexture2dBinder()), Free(CurrentTextureCubeMapBinder()))
  }

  /** `TextureUnit::active`: make unit `idx` the active unit and hand out its binding. */
  function Active(idx: UnitIndex, d: Driver): (r: (TextureUnitBinding, Driver))
    ensures r.0 == CurrentAtIdx(idx)
    ensures r.1 == Issue(d, ActiveTexture(UnitCode(idx)))
    ensures r.1.active == UnitCode(idx) && r.1.bindings == d.bindings
  {
    (CurrentAtIdx(idx), Issue(d, ActiveTexture(UnitCode(idx))))
  }

  /** `gl_idx`: the index of the activated unit. */
  function GlIdx<T2, TC>(b: TextureUnitBindingOf<T2, TC>): (k: UnitIndex)
    ensures UnitCode(k) == TEXTURE0 + b.idx as GLenum
  {
    b.idx
  }

  /** `TextureSampler`: the value a sampler uniform is set to, a unit index. */
  datatype TextureSampler = TextureSampler(idx: int)

  /** `sampler`: a sampler naming the activated unit. */
  function Sampler<T2, TC>(b: TextureUnitBindingOf<T2, TC>): (s: TextureSampler)
    ensures s.idx == GlIdx(b)
  {
    TextureSampler(b.idx)
  }

  /** A sampler is uploaded as one signed integer. */
  function SamplerDatumType(s: TextureSampler): (t: UniformDatumType)
    ensures t == Vec1(IntPrim) && Components(t) == 1
  {
    Vec1(IntPrim)
  }

  /** `split_texture_2d`: hand out the 2D binder; the index and the cube-map slot stay. */
  function SplitTexture2d<TC>(b: TextureUnitBindingOf<Slot<Texture2dBinder>, TC>)
    : (r: (Texture2dBinder, TextureUnitBindingOf<Slot<Texture2dBinder>, TC>))
    requires b.texture2d.Free?
    ensures b.texture2d == Free(r.0)
    ensures r.1.idx == b.idx && r.1.texture2d == Used && r.1.textureCubeMap == b.textureCubeMap
  {
    (b.texture2d.binder, TextureUnitBindingOf(b.idx, Used, b.textureCubeMap))
  }

  /** `split_texture_cube_map`: hand out the cube-map binder; the index and the 2D slot stay. */
  function SplitTextureCubeMap<T2>(b: TextureUnitBindingOf<T2, Slot<TextureCubeMapBinder>>)
    : (r: (TextureCubeMapBinder, TextureUnitBindingOf<T2, Slot<TextureCubeMapBinder>>))
    requires b.textureCubeMap.Free?
    ensures b.textureCubeMap == Free(r.0)
    ensures r.1.idx == b.idx && r.1.textureCubeMap == Used && r.1.texture2d == b.texture2d
  {
    (b.textureCubeMap.binder, TextureUnitBindingOf(b.idx, b.texture2d, Used))
  }

  /**
   * `bind_texture_2d` as written: split off the 2D binder and bind. The
   * texture goes to whichever unit the driver has active, which need not be
   * the unit this binding stands for.
   */
  function BindTexture2dAsWritten<TC>(b: TextureUnitBindingOf<Slot<Texture2dBinder>, TC>, tex: Texture, d: Driver)
    : (r: (Texture2dBinding, TextureUnitBindingOf<Slot<Texture2dBinder>, TC>, Driver))
    requires b.texture2d.Free? && tex.kind == Tx2d
    ensures r.0.texture == tex.id
    ensures r.1 == b.(texture2d := Used)
    ensures r.2.bindings == d.bindings[PerUnit(TEXTURE_2D, d.active) := tex.id]
    ensures r.2.active == d.active
    ensures r.2.calls == d.calls + [BindTexture(TEXTURE_2D, tex.id)]
  {
    var (binder, rest) := SplitTexture2d(b);
    var (binding, d') := BindTexture2dBinder(binder, tex, d);
    (binding, rest, d')
  }

  /**
   * `bind_texture_2d`, binding on the unit the binding stands for: the unit
   * is made active again before the texture is bound.
   */
  function BindTexture2d<TC>(b: TextureUnitBindingOf<Slot<Texture2dBinder>, TC>, tex: Texture, d: Driver)
    : (r: (Texture2dBinding, TextureUnitBindingOf<Slot<Texture2dBinder>, TC>, Driver))
    requires b.texture2d.Free? && tex.kind == Tx2d
    ensures r.0.texture == tex.id
    ensures r.1 == b.(texture2d := Used)
    ensures r.2.bindings == d.bindings[PerUnit(TEXTURE_2D, UnitCode(b.idx)) := tex.id]
    ensures r.2.active == UnitCode(b.idx)
    ensures r.2.calls == d.calls + [ActiveTexture(UnitCode(b.idx)), BindTexture(TEXTURE_2D, tex.id)]
  {
    var (binder, rest) := SplitTexture2d(b);
    var d1 := Issue(d, ActiveTexture(UnitCode(b.idx)));
    var (binding, d2) := BindTexture2dBinder(binder, tex, d1);
    (binding, rest, d2)
  }

  /** `bind_texture_cube_map` as written: binds on whichever unit is active. */
  function BindTextureCubeMapAsWritten<T2>(b: TextureUnitBindingOf<T2, Slot<TextureCubeMapBinder>>, tex: Texture, d: Driver)
    : (r: (TextureCubeMapBinding, TextureUnitBindingOf<T2, Slot<TextureCubeMapBinder>>, Driver))
    requires b.textureCubeMap.Free? && tex.kind == TxCubeMap
    ensures r.0.texture == tex.id
    ensures r.1 == b.(textureCubeMap := Used)
    ensures r.2.bindings == d.bindings[PerUnit(TEXTURE_CUBE_MAP, d.active) := tex.id]
    ensures r.2.active == d.active
    ensures r.2.calls == d.calls + [BindTexture(TEXTURE_CUBE_MAP, tex.id)]
  {
    var (binder, rest) := SplitTextureCubeMap(b);
    var (binding, d') := BindTextureCubeMapBinder(binder, tex, d);
    (binding, rest, d')
  }

  /** `bind_texture_cube_map`, binding on the unit the binding stands for. */
  function BindTextureCubeMap<T2>(b: TextureUnitBindingOf<T2, Slot<TextureCubeMapBinder>>, tex: Texture, d: Driver)
    : (r: (TextureCubeMapBinding, TextureUnitBindingOf<T2, Slot<TextureCubeMapBinder>>, Driver))
    requires b.textureCubeMap.Free? && tex.kind == TxCubeMap
    ensures r.0.texture == tex.id
    ensures r.1 == b.(textureCubeMap := Used)
    ensures r.2.bindings == d.bindings[PerUnit(TEXTURE_CUBE_MAP, UnitCode(b.idx)) := tex.id]
    ensures r.2.active == UnitCode(b.idx)
    ensures r.2.calls == d.calls + [ActiveTexture(UnitCode(b.idx)), BindTexture(TEXTURE_CUBE_MAP, tex.id)]
  {
    var (binder, rest) := SplitTextureCubeMap(b);
    var d1 := Issue(d, ActiveTexture(UnitCode(b.idx)));
    var (binding, d2) := BindTextureCubeMapBinder(binder, tex, d1);
    (binding, rest, d2)
  }

  /**
   * Right after a unit is activated, both versions of `bind_texture_2d`
   * bind to the same place.
   */
  lemma BindTexture2dAgreesWhenActive<TC>(b: TextureUnitBindingOf<Slot<Texture2dBinder>, TC>, tex: Texture, d: Driver)
    requires b.texture2d.Free? && tex.kind == Tx2d
    requires d.active == UnitCode(b.idx)
    ensures BindTexture2dAsWritten(b, tex, d).2.bindings == BindTexture2d(b, tex, d).2.bindings
  {
  }

  /**
   * The unit-aliasing counterexample: activate unit 0, then unit 1, then bind
   * a 2D texture through the unit-0 binding. As written, the texture lands
   * on unit 1 and unit 0's 2D target is untouched; with the unit
   * re-activated, it lands on unit 0.
   */
  lemma TextureUnitAliasing<B, F, P, R>(c: ContextOf<B, F, P, R, TextureUnits>, tex: Texture, d: Driver)
    requires c.texUnits == CurrentTextureUnits()
    requires tex.kind == Tx2d
    ensures var (b0, c1, d1) := ActiveTexture0(c, d);
            var (b1, c2, d2) := ActiveTexture1(c1, d1);
            var written := BindTexture2dAsWritten(b0, tex, d2).2;
            var fixed := BindTexture2d(b0, tex, d2).2;
            b0.idx == 0 && b1.idx == 1
            && written.bindings[PerUnit(TEXTURE_2D, TEXTURE0 + 1)] == tex.id
            && (PerUnit(TEXTURE_2D, TEXTURE0) in written.bindings <==> PerUnit(TEXTURE_2D, TEXTURE0) in d.bindings)
            && (PerUnit(TEXTURE_2D, TEXTURE0) in d.bindings ==>
                  written.bindings[PerUnit(TEXTURE_2D, TEXTURE0)] == d.bindings[PerUnit(TEXTURE_2D, TEXTURE0)])
            && fixed.bindings[PerUnit(TEXTURE_2D, TEXTURE0)] == tex.id
  {
    var (b0, c1, d1) := ActiveTexture0(c, d);
    var (b1, c2, d2) := ActiveTexture1(c1, d1);
    assert d2.active == TEXTURE0 + 1;
    assert d2.bindings == d.bindings;
  }
}

=== FILE: textures.dfy ===
/**
 * Texture handles, texture kinds and their binding and image targets, and
 * the texture filter and wrap-mode parameters with their GL codes.
 */
module Textures {
  import opened Results
  import Gl

  /** The two kinds of texture (`Tx2d` and `TxCubeMap`). */
  datatype TextureType = Tx2d | TxCubeMap

  /** The targets a texture can be bound to. */
  datatype TextureBindingTarget = Texture2dTarget | TextureCubeMapTarget

  /** The GL code of a texture binding target. */
  function BindingTargetGlEnum(t: TextureBindingTarget): (code: Gl.GLenum)
    ensures code == Gl.TEXTURE_2D || code == Gl.TEXTURE_CUBE_MAP
    ensures t.Texture2dTarget? <==> code == Gl.TEXTURE_2D
  {
    match t
    case Texture2dTarget => Gl.TEXTURE_2D
    case TextureCubeMapTarget => Gl.TEXTURE_CUBE_MAP
  }

  /** `TextureType::target`: each kind of texture binds to its own target. */
  function Target(k: TextureType): (t: TextureBindingTarget)
    ensures k.Tx2d? <==> t.Texture2dTarget?
  {
    match k
    case Tx2d => Texture2dTarget
    case TxCubeMap => TextureCubeMapTarget
  }

  /** An owned texture object of a given kind. */
  datatype Texture = Texture(id: nat, kind: TextureType)

  /** The image target of a 2D texture: its one and only image. */
  datatype Tx2dImageTarget = Texture2dImage

  /** The image targets of a cube map: one per face. */
  datatype TxCubeMapImageTarget =
    | CubeMapPositiveX | CubeMapNegativeX
    | CubeMapPositiveY | CubeMapNegativeY
    | CubeMapPositiveZ | CubeMapNegativeZ

  /** The GL code of the 2D image target, which is the 2D binding target's code. */
  function Tx2dImageTargetGlEnum(t: Tx2dImageTarget): (code: Gl.GLenum)
    ensures code == BindingTargetGlEnum(Texture2dTarget)
  {
    Gl.TEXTURE_2D
  }

  /** The GL code of a cube-map face. */
  function CubeMapImageTargetGlEnum(t: TxCubeMapImageTarget): (code: Gl.GLenum)
    ensures Gl.TEXTURE_CUBE_MAP_POSITIVE_X <= code <= Gl.TEXTURE_CUBE_MAP_NEGATIVE_Z
  {
    match t
    case CubeMapPositiveX => Gl.TEXTURE_CUBE_MAP_POSITIVE_X
    case CubeMapNegativeX => Gl.TEXTURE_CUBE_MAP_NEGATIVE_X
    case CubeMapPositiveY => Gl.TEXTURE_CUBE_MAP_POSITIVE_Y
    case CubeMapNegativeY => Gl.TEXTURE_CUBE_MAP_NEGATIVE_Y
    case CubeMapPositiveZ => Gl.TEXTURE_CUBE_MAP_POSITIVE_Z
    case CubeMapNegativeZ => Gl.TEXTURE_CUBE_MAP_NEGATIVE_Z
  }

  /** The six faces of a cube map are six different image targets. */
  lemma CubeMapImageTargetGlEnumInjective(a: TxCubeMapImageTarget, b: TxCubeMapImageTarget)
    requires CubeMapImageTargetGlEnum(a) == CubeMapImageTargetGlEnum(b)
    ensures a == b
  {
  }

  /**
   * The crate-level `TEXTURE_2D` value, usable both as a binding target and
   * as an image target.
   */
  datatype VariantTexture2d = VariantTexture2d

  /** `From<VariantTexture2d> for TextureBindingTarget`. */
  function VariantAsBindingTarget(v: VariantTexture2d): (t: TextureBindingTarget)
    ensures BindingTargetGlEnum(t) == Gl.TEXTURE_2D
  {
    Texture2dTarget
  }

  /** `From<VariantTexture2d> for Tx2dImageTarget`. */
  function VariantAsImageTarget(v: VariantTexture2d): (t: Tx2dImageTarget)
    ensures Tx2dImageTargetGlEnum(t) == Gl.TEXTURE_2D
  {
    Texture2dImage
  }

  /** Both readings of `TEXTURE_2D` reach the driver as the same code. */
  lemma VariantTexture2dAgrees(v: VariantTexture2d)
    ensures BindingTargetGlEnum(VariantAsBindingTarget(v)) == Tx2dImageTargetGlEnum(VariantAsImageTarget(v))
  {
  }

  /** A magnification filter, or the sampling criterion of a minification filter. */
  datatype TextureFilter = Nearest | Linear

  /** A minification filter: a plain filter, or one that also samples between mipmaps. */
  datatype TextureMipmapFilter =
    | Filter(filter: TextureFilter)
    | MipmapFilter(criterion: TextureFilter, mipmap: TextureFilter)

  const NEAREST: TextureFilter := Nearest
  const LINEAR: TextureFilter := Linear
  const NEAREST_MIPMAP_NEAREST: TextureMipmapFilter := MipmapFilter(Nearest, Nearest)
  const LINEAR_MIPMAP_NEAREST: TextureMipmapFilter := MipmapFilter(Linear, Nearest)
  const NEAREST_MIPMAP_LINEAR: TextureMipmapFilter := MipmapFilter(Nearest, Linear)
  const LINEAR_MIPMAP_LINEAR: TextureMipmapFilter := MipmapFilter(Linear, Linear)

  /** The GL code of a filter. */
  function FilterGlEnum(f: TextureFilter): (code: Gl.GLenum)
    ensures code == Gl.NEAREST || code == Gl.LINEAR
  {
    match f
    case Nearest => Gl.NEAREST
    case Linear => Gl.LINEAR
  }

  /** `TextureFilter::from_gl`: decode a filter code; any other code is an error. */
  function FilterFromGl(code: Gl.GLenum): (r: Result<TextureFilter, ()>)
    ensures r.Ok? <==> code == Gl.NEAREST || code == Gl.LINEAR
    ensures r.Ok? ==> FilterGlEnum(r.value) == code
  {
    if code == Gl.NEAREST then Ok(NEAREST)
    else if code == Gl.LINEAR then Ok(LINEAR)
    else Err(())
  }

  /** The GL code of a minification filter. */
  function MipmapFilterGlEnum(m: TextureMipmapFilter): (code: Gl.GLenum)
    ensures m.Filter? ==> code == FilterGlEnum(m.filter)
    ensures m.MipmapFilter? <==> Gl.NEAREST_MIPMAP_NEAREST <= code <= Gl.LINEAR_MIPMAP_LINEAR
  {
    match m
    case Filter(Linear) => Gl.LINEAR
    case Filter(Nearest) => Gl.NEAREST
    case MipmapFilter(Nearest, Nearest) => Gl.NEAREST_MIPMAP_NEAREST
    case MipmapFilter(Linear, Nearest) => Gl.LINEAR_MIPMAP_NEAREST
    case MipmapFilter(Nearest, Linear) => Gl.NEAREST_MIPMAP_LINEAR
    case MipmapFilter(Linear, Linear) => Gl.LINEAR_MIPMAP_LINEAR
  }

  /** `TextureMipmapFilter::from_gl`: decode one of the six minification codes. */
  function MipmapFilterFromGl(code: Gl.GLenum): (r: Result<TextureMipmapFilter, ()>)
    ensures r.Ok? <==> code == Gl.NEAREST || code == Gl.LINEAR
                       || Gl.NEAREST_MIPMAP_NEAREST <= code <= Gl.LINEAR_MIPMAP_LINEAR
    ensures r.Ok? ==> MipmapFilterGlEnum(r.value) == code
  {
    if code == Gl.NEAREST then Ok(Filter(NEAREST))
    else if code == Gl.LINEAR then Ok(Filter(LINEAR))
    else if code == Gl.NEAREST_MIPMAP_NEAREST then Ok(NEAREST_MIPMAP_NEAREST)
    else if code == Gl.LINEAR_MIPMAP_NEAREST then Ok(LINEAR_MIPMAP_NEAREST)
    else if code == Gl.NEAREST_MIPMAP_LINEAR then Ok(NEAREST_MIPMAP_LINEAR)
    else if code == Gl.LINEAR_MIPMAP_LINEAR then Ok(LINEAR_MIPMAP_LINEAR)
    else Err(())
  }

  /** Decoding the code of a filter gives the filter back. */
  lemma FilterRoundTrip(f: TextureFilter)
    ensures FilterFromGl(FilterGlEnum(f)) == Ok(f)
  {
  }

  /** Decoding the code of a minification filter gives the filter back. */
  lemma MipmapFilterRoundTrip(m: TextureMipmapFilter)
    ensures MipmapFilterFromGl(MipmapFilterGlEnum(m)) == Ok(m)
  {
  }

  /** No two minification filters share a code. */
  lemma MipmapFilterGlEnumInjective(a: TextureMipmapFilter, b: TextureMipmapFilter)
    requires MipmapFilterGlEnum(a) == MipmapFilterGlEnum(b)
    ensures a == b
  {
    MipmapFilterRoundTrip(a);
    MipmapFilterRoundTrip(b);
  }

  /** The named constants pair criterion and mipmap filter as their names say. */
  lemma MipmapConstantsDecode()
    ensures MipmapFilterFromGl(Gl.NEAREST_MIPMAP_NEAREST) == Ok(MipmapFilter(Nearest, Nearest))
    ensures MipmapFilterFromGl(Gl.LINEAR_MIPMAP_NEAREST) == Ok(MipmapFilter(Linear, Nearest))
    ensures MipmapFilterFromGl(Gl.NEAREST_MIPMAP_LINEAR) == Ok(MipmapFilter(Nearest, Linear))
    ensures MipmapFilterFromGl(Gl.LINEAR_MIPMAP_LINEAR) == Ok(MipmapFilter(Linear, Linear))
  {
  }

  /** `From<TextureFilter> for TextureMipmapFilter`: a plain (non-mipmap) filter. */
  function FromFilter(f: TextureFilter): (m: TextureMipmapFilter)
    ensures !m.MipmapFilter?
    ensures MipmapFilterGlEnum(m) == FilterGlEnum(f)
  {
    Filter(f)
  }

  /** How texture coordinates outside [0, 1] are wrapped. */
  datatype TextureWrapMode = ClampToEdge | MirroredRepeat | Repeat

  /** The GL code of a wrap mode. */
  function WrapModeGlEnum(w: TextureWrapMode): (code: Gl.GLenum)
    ensures code in {Gl.CLAMP_TO_EDGE, Gl.MIRRORED_REPEAT, Gl.REPEAT}
  {
    match w
    case ClampToEdge => Gl.CLAMP_TO_EDGE
    case MirroredRepeat => Gl.MIRRORED_REPEAT
    case Repeat => Gl.REPEAT
  }

  /** The three wrap modes reach the driver as three different codes. */
  lemma WrapModeGlEnumInjective(a: TextureWrapMode, b: TextureWrapMode)
    requires WrapModeGlEnum(a) == WrapModeGlEnum(b)
    ensures a == b
  {
  }
}

=== FILE: types.dfy ===
/**
 * General-purpose types shared by the whole crate: the error enums with
 * their display and description texts, viewports, and the primitive-mode
 * and data-type enumerations together with their GL codes.
 */
module Types {
  import opened Results
  import opened Gl

  /** Why a framebuffer is not framebuffer-complete. */
  datatype GLFramebufferError =
    | IncompleteAttachment
    | IncompleteDimensions
    | IncompleteMissingAttachment
    | Unsupported

  /** An error reported by the driver or raised by glitter itself. */
  datatype GLError =
    | InvalidEnum
    | InvalidValue
    | InvalidOperation
    | InvalidFramebufferOperation
    | OutOfMemory
    | FramebufferError(reason: GLFramebufferError)
    | Message(text: string)

  /** The user-facing text of a framebuffer error (its `Display`). */
  function FramebufferErrorDisplay(e: GLFramebufferError): (s: string)
    ensures |s| > 0
  {
    match e
    case IncompleteAttachment => "Incomplete attachment"
    case IncompleteDimensions => "Incomplete dimensions"
    case IncompleteMissingAttachment => "Missing attachments"
    case Unsupported => "Unsupported"
  }

  /** The longer explanation of a framebuffer error (its `description`). */
  function FramebufferErrorDescription(e: GLFramebufferError): (s: string)
    ensures |s| > 0
  {
    match e
    case IncompleteAttachment => "One or more framebuffer attachments are not complete"
    case IncompleteDimensions => "Not all images attached to the framebuffer have the same width and height"
    case IncompleteMissingAttachment => "The framebuffer has no images attached"
    case Unsupported => "The framebuffer contains an unsupported combination of attachments"
  }

  /** The derived `Debug` text of a framebuffer error: its variant name. */
  function FramebufferErrorDebug(e: GLFramebufferError): (s: string)
    ensures |s| > 0
  {
    match e
    case IncompleteAttachment => "IncompleteAttachment"
    case IncompleteDimensions => "IncompleteDimensions"
    case IncompleteMissingAttachment => "IncompleteMissingAttachment"
    case Unsupported => "Unsupported"
  }

  /**
   * The `Display` text of an error. A wrapped framebuffer error is shown
   * through its `Debug` form; a message is shown verbatim.
   */
  function Display(e: GLError): (s: string)
    ensures e.Message? ==> s == e.text
    ensures e.FramebufferError? ==> s == FramebufferErrorDebug(e.reason)
    ensures !e.Message? ==> |s| > 0
  {
    match e
    case InvalidEnum => "Invalid enum"
    case InvalidValue => "Invalid value"
    case InvalidOperation => "Invalid operation"
    case InvalidFramebufferOperation => "Invalid framebuffer operation"
    case OutOfMemory => "Out of memory"
    case FramebufferError(r) => FramebufferErrorDebug(r)
    case Message(m) => m
  }

  /**
   * The `description` of an error. A wrapped framebuffer error delegates to
   * the wrapped error's description; a message is its own description.
   */
  function Description(e: GLError): (s: string)
    ensures e.Message? ==> s == e.text
    ensures e.FramebufferError? ==> s == FramebufferErrorDescription(e.reason)
    ensures !e.Message? ==> |s| > 0
  {
    match e
    case FramebufferError(r) => FramebufferErrorDescription(r)
    case Message(m) => m
    case _ => DriverErrorDescription(e)
  }

  /** The fixed description of each of the five driver error codes. */
  function DriverErrorDescription(e: GLError): (s: string)
    requires !e.FramebufferError? && !e.Message?
    ensures |s| > 0
  {
    match e
    case InvalidEnum => "Invalid enum variant in OpenGL call."
    case InvalidValue => "Out-of-range value in OpenGL call."
    case InvalidOperation => "The specified OpenGL operation is not allowed in the current state."
    case InvalidFramebufferOperation => "OpenGL command tried to read or write to an incomplete framebuffer."
    case OutOfMemory => "There is not enough memory left to execute the specified OpenGL command."
  }

  /** The underlying cause of an error: only a wrapped framebuffer error has one. */
  function Cause(e: GLError): (c: Option<GLFramebufferError>)
    ensures c.Some? <==> e.FramebufferError?
    ensures c.Some? ==> c.value == e.reason
  {
    match e
    case FramebufferError(r) => Some(r)
    case _ => None
  }

  /** `From<GLFramebufferError> for GLError`: wrap the framebuffer error. */
  function FromFramebufferError(r: GLFramebufferError): (e: GLError)
    ensures Cause(e) == Some(r)
  {
    FramebufferError(r)
  }

  /** Wrapping a framebuffer error loses nothing: distinct reasons stay distinct. */
  lemma FromFramebufferErrorInjective(a: GLFramebufferError, b: GLFramebufferError)
    requires FromFramebufferError(a) == FromFramebufferError(b)
    ensures a == b
  {
    assert Cause(FromFramebufferError(a)) == Some(a);
  }

  /** Every error other than a free-form message displays a text of its own. */
  lemma DisplayDistinguishes(a: GLError, b: GLError)
    requires !a.Message? && !b.Message?
    requires Display(a) == Display(b)
    ensures a == b
  {
  }

  /** The four framebuffer errors have four different descriptions. */
  lemma FramebufferErrorDescriptionDistinguishes(a: GLFramebufferError, b: GLFramebufferError)
    requires FramebufferErrorDescription(a) == FramebufferErrorDescription(b)
    ensures a == b
  {
  }

  /** The four framebuffer errors display four different texts. */
  lemma FramebufferErrorDisplayDistinguishes(a: GLFramebufferError, b: GLFramebufferError)
    requires FramebufferErrorDisplay(a) == FramebufferErrorDisplay(b)
    ensures a == b
  {
  }

  /** An OpenGL viewport: origin and size, each a `u32`. */
  datatype Viewport = Viewport(x: nat, y: nat, width: nat, height: nat)

  /** `Viewport::new`: the origin and size are stored as given. */
  function NewViewport(x: nat, y: nat, width: nat, height: nat): (v: Viewport)
    ensures v.x == x && v.y == y && v.width == width && v.height == height
  {
    Viewport(x, y, width, height)
  }

  /** The primitive modes for drawing raw vertex data. */
  datatype DrawingMode = Points | LineStrip | LineLoop | Lines | TriangleStrip | TriangleFan | Triangles

  /** The GL code of a drawing mode. */
  function DrawingModeGlEnum(m: DrawingMode): (code: GLenum)
    ensures code <= TRIANGLE_FAN
  {
    match m
    case Points => POINTS
    case LineStrip => LINE_STRIP
    case LineLoop => LINE_LOOP
    case Lines => LINES
    case TriangleStrip => TRIANGLE_STRIP
    case TriangleFan => TRIANGLE_FAN
    case Triangles => TRIANGLES
  }

  /** The GL scalar data types. */
  datatype DataType = Byte | UnsignedByte | Short | UnsignedShort | Fixed | Float

  /** The GL code of a data type. */
  function DataTypeGlEnum(t: DataType): (code: GLenum)
    ensures BYTE <= code <= FIXED
  {
    match t
    case Byte => BYTE
    case UnsignedByte => UNSIGNED_BYTE
    case Short => SHORT
    case UnsignedShort => UNSIGNED_SHORT
    case Fixed => FIXED
    case Float => FLOAT
  }

  /** Distinct drawing modes are sent to the driver as distinct codes. */
  lemma DrawingModeGlEnumInjective(a: DrawingMode, b: DrawingMode)
    requires DrawingModeGlEnum(a) == DrawingModeGlEnum(b)
    ensures a == b
  {
  }

  /** Distinct data types are sent to the driver as distinct codes. */
  lemma DataTypeGlEnumInjective(a: DataType, b: DataType)
    requires DataTypeGlEnum(a) == DataTypeGlEnum(b)
    ensures a == b
  {
  }
}

=== FILE: uniform_data.dfy ===
/**
 * Uniform data: the types a shader uniform can be set from, the uniform
 * type each reports, and byte views.
 */
module UniformData {
  import opened Results
  import opened Bytes

  /** The scalar kinds of uniform components. */
  datatype UniformPrimitiveType = FloatPrim | IntPrim

  /** The uniform types glitter can upload. */
  datatype UniformDatumType =
    | Vec1(p: UniformPrimitiveType)
    | Vec2(p: UniformPrimitiveType)
    | Vec3(p: UniformPrimitiveType)
    | Vec4(p: UniformPrimitiveType)
    | Matrix2x2
    | Matrix3x3
    | Matrix4x4

  /** The Rust scalar types that implement `UniformPrimitive`: `f32` and `i32`. */
  datatype UniformPrimitive = F32 | I32

  /** `UniformPrimitive::uniform_primitive_type`. */
  function PrimitiveType(p: UniformPrimitive): (t: UniformPrimitiveType)
    ensures p.F32? <==> t.FloatPrim?
  {
    match p
    case F32 => FloatPrim
    case I32 => IntPrim
  }

  /** The array lengths for which `[T; n]` is a uniform datum. */
  type ArrayLen = n: nat | 1 <= n <= 4 witness 1

  /** The side lengths for which `[[f32; n]; n]` is a uniform datum. */
  type MatrixSide = n: nat | 2 <= n <= 4 witness 2

  /** A uniform datum: a bare primitive, an array `[T; n]`, or a square `f32` matrix. */
  datatype UniformDatum =
    | UScalar(prim: UniformPrimitive)
    | UArray(prim: UniformPrimitive, len: ArrayLen)
    | UMatrix(side: MatrixSide)

  /** Whether a uniform type is one of the square matrices. */
  predicate IsMatrix(t: UniformDatumType) {
    t.Matrix2x2? || t.Matrix3x3? || t.Matrix4x4?
  }

  /** How many scalars a uniform type holds. */
  function Components(t: UniformDatumType): (n: nat)
    ensures 1 <= n <= 16
  {
    match t
    case Vec1(_) => 1
    case Vec2(_) => 2
    case Vec3(_) => 3
    case Vec4(_) => 4
    case Matrix2x2 => 4
    case Matrix3x3 => 9
    case Matrix4x4 => 16
  }

  /** How many scalars a datum's Rust type holds. */
  function DatumScalars(d: UniformDatum): (n: nat)
    ensures 1 <= n <= 16
  {
    match d
    case UScalar(_) => 1
    case UArray(_, len) => len
    case UMatrix(side) => side * side
  }

  /** The primitive kind of a datum's scalars. */
  function DatumPrimitive(d: UniformDatum): (t: UniformPrimitiveType)
    ensures d.UMatrix? ==> t.FloatPrim?
  {
    match d
    case UScalar(p) => PrimitiveType(p)
    case UArray(p, _) => PrimitiveType(p)
    case UMatrix(_) => FloatPrim
  }

  /** The uniform type of a square matrix of the given side. */
  function MatrixType(side: MatrixSide): (t: UniformDatumType)
    ensures IsMatrix(t)
    ensures Components(t) == side * side
  {
    if side == 2 then Matrix2x2 else if side == 3 then Matrix3x3 else Matrix4x4
  }

  /**
   * `UniformDatum::uniform_datum_type` as written: every array `[T; n]`,
   * whatever its length, reports a one-component vector.
   */
  function UniformDatumTypeAsWritten(d: UniformDatum): (t: UniformDatumType)
    ensures !d.UMatrix? ==> t == Vec1(DatumPrimitive(d))
    ensures d.UMatrix? <==> IsMatrix(t)
    ensures d.UMatrix? ==> Components(t) == DatumScalars(d)
  {
    match d
    case UScalar(p) => Vec1(PrimitiveType(p))
    case UArray(p, _) => Vec1(PrimitiveType(p))
    case UMatrix(side) => MatrixType(side)
  }

  /** The uniform type of a datum with as many components as the datum has scalars. */
  function DatumType(d: UniformDatum): (t: UniformDatumType)
    ensures d.UMatrix? <==> IsMatrix(t)
    ensures Components(t) == DatumScalars(d)
    ensures !IsMatrix(t) ==> t.p == DatumPrimitive(d)
  {
    match d
    case UScalar(p) => Vec1(PrimitiveType(p))
    case UArray(p, len) =>
      if len == 1 then Vec1(PrimitiveType(p))
      else if len == 2 then Vec2(PrimitiveType(p))
      else if len == 3 then Vec3(PrimitiveType(p))
      else Vec4(PrimitiveType(p))
    case UMatrix(side) => MatrixType(side)
  }

  /** As written, a `[f32; 3]` uniform is described as holding a single float. */
  lemma ArrayTypeAsWrittenLosesLength()
    ensures UniformDatumTypeAsWritten(UArray(F32, 3)) == Vec1(FloatPrim)
    ensures Components(UniformDatumTypeAsWritten(UArray(F32, 3))) != DatumScalars(UArray(F32, 3))
    ensures DatumType(UArray(F32, 3)) == Vec3(FloatPrim)
  {
  }

  /** The two descriptions agree exactly on scalars, one-element arrays and matrices. */
  lemma UniformDatumTypeAgreement(d: UniformDatum)
    ensures UniformDatumTypeAsWritten(d) == DatumType(d) <==> !(d.UArray? && d.len > 1)
  {
  }

  /** `size_of` of a uniform datum: four bytes per scalar. */
  function DatumSize(d: UniformDatum): (n: nat)
    ensures n == 4 * Components(DatumType(d))
  {
    4 * DatumScalars(d)
  }

  /** `uniform_elements` of a single datum. */
  function UniformElementsOfDatum(d: UniformDatum): (n: nat)
    ensures n == 1
  {
    1
  }

  /** `uniform_elements` of a slice of data: one element per datum. */
  function UniformElementsOfSlice(ds: seq<UniformDatum>): (n: nat)
    ensures n == |ds|
  {
    |ds|
  }

  /** `uniform_bytes` of a single datum: its in-memory encoding. */
  function UniformBytesOfDatum(d: UniformDatum, encode: UniformDatum -> seq<Byte>): (bs: seq<Byte>)
    requires |encode(d)| == DatumSize(d)
    ensures |bs| == DatumSize(d) * UniformElementsOfDatum(d)
  {
    encode(d)
  }

  /** `uniform_bytes` of a slice of data of one uniform type: the encodings in order. */
  function UniformBytesOfSlice(ds: seq<UniformDatum>, encode: UniformDatum -> seq<Byte>, size: nat): (bs: seq<Byte>)
    requires forall i :: 0 <= i < |ds| ==> |encode(ds[i])| == size
    ensures |bs| == size * UniformElementsOfSlice(ds)
  {
    SliceBytes(ds, encode, size)
  }

  /** `uniform_bytes` of a slice as written: it panics on an empty slice. */
  function UniformBytesOfSliceAsWritten(ds: seq<UniformDatum>, encode: UniformDatum -> seq<Byte>, size: nat): (r: Result<seq<Byte>, Panic>)
    requires forall i :: 0 <= i < |ds| ==> |encode(ds[i])| == size
    ensures r.Err? <==> UniformElementsOfSlice(ds) == 0
    ensures r.Ok? ==> r.value == UniformBytesOfSlice(ds, encode, size)
  {
    SliceBytesAsWritten(ds, encode, size)
  }
}

=== FILE: vertex_buffers.dfy ===
/**
 * Vertex and index buffers: the attribute binder that matches a vertex
 * type's attributes against program attributes by name, buffers that
 * remember how many elements they hold, and the draws that read them.
 */
module VertexBuffers {
  import opened Results
  import opened Gl
  import opened Bytes
  import opened Types
  import opened GlObjects
  import opened GlDriver
  import opened IndexData
  import opened VertexData
  import opened ContextState
  import opened BufferContext

  /** `AttribAddError`: an attribute name was added twice. */
  datatype AttribAddError = DuplicateAttrib(name: string)

  /**
   * `AttribError`: the visited names the binder lacks, in visiting order,
   * and the binder's names no visited attribute matched.
   */
  datatype AttribError = AttribError(missing: seq<string>, unknown: set<string>)

  /** `AttribBinder`: program attributes by vertex-attribute name. */
  datatype AttribBinder = AttribBinder(attribs: map<string, ProgramAttrib>)

  /** `AttribBinder::new`: no attributes. */
  function NewAttribBinder(): (b: AttribBinder)
    ensures |b.attribs| == 0
  {
    AttribBinder(map[])
  }

  /**
   * `add`: map `name` to `attrib`. A name already present is reported as a
   * duplicate, and its entry is still replaced by the new attribute.
   */
  function Add(b: AttribBinder, name: string, attrib: ProgramAttrib): (r: (AttribBinder, Result<(), AttribAddError>))
    ensures r.0.attribs.Keys == b.attribs.Keys + {name}
    ensures r.0.attribs[name] == attrib
    ensures forall n :: n in b.attribs && n != name ==> r.0.attribs[n] == b.attribs[n]
    ensures r.1.Err? <==> name in b.attribs
    ensures r.1.Err? ==> r.1.error == DuplicateAttrib(name)
  {
    var inserted := b.attribs[name := attrib];
    if name in b.attribs then (AttribBinder(inserted), Err(DuplicateAttrib(name)))
    else (AttribBinder(inserted), Ok(()))
  }

  /** The names of a list of (name, attribute) pairs are pairwise different. */
  predicate DistinctNames(pairs: seq<(string, ProgramAttrib)>) {
    forall i, j :: 0 <= i < j < |pairs| ==> pairs[i].0 != pairs[j].0
  }

  /** The names of a list of pairs. */
  function PairNames(pairs: seq<(string, ProgramAttrib)>): set<string> {
    set i | 0 <= i < |pairs| :: pairs[i].0
  }

  /** A non-empty list's names: the first name and the rest's names. */
  lemma PairNamesCons(pairs: seq<(string, ProgramAttrib)>)
    requires pairs != []
    ensures PairNames(pairs) == {pairs[0].0} + PairNames(pairs[1..])
  {
    forall n | n in PairNames(pairs) ensures n in {pairs[0].0} + PairNames(pairs[1..]) {
      var i :| 0 <= i < |pairs| && pairs[i].0 == n;
      if i > 0 { assert pairs[1..][i - 1].0 == n; }
    }
    forall n | n in PairNames(pairs[1..]) ensures n in PairNames(pairs) {
      var i :| 0 <= i < |pairs[1..]| && pairs[1..][i].0 == n;
      assert pairs[i + 1].0 == n;
    }
  }

  /** A non-empty list has distinct names exactly when its rest does and the first name is new. */
  lemma DistinctNamesCons(pairs: seq<(string, ProgramAttrib)>)
    requires pairs != []
    ensures DistinctNames(pairs) <==> DistinctNames(pairs[1..]) && pairs[0].0 !in PairNames(pairs[1..])
  {
    if DistinctNames(pairs) {
      forall i, j | 0 <= i < j < |pairs[1..]| ensures pairs[1..][i].0 != pairs[1..][j].0 {
        assert pairs[1..][i] == pairs[i + 1] && pairs[1..][j] == pairs[j + 1];
      }
    }
    if DistinctNames(pairs[1..]) && pairs[0].0 !in PairNames(pairs[1..]) {
      forall i, j | 0 <= i < j < |pairs| ensures pairs[i].0 != pairs[j].0 {
        assert pairs[j] == pairs[1..][j - 1];
        if i > 0 { assert pairs[i] == pairs[1..][i - 1]; }
      }
    }
  }

  /** `add(..).unwrap()` for each pair in turn, starting from `b`. */
  function AddAll(b: AttribBinder, pairs: seq<(string, ProgramAttrib)>): (r: Result<AttribBinder, Panic>)
    ensures r.Ok? <==> DistinctNames(pairs) && PairNames(pairs) !! b.attribs.Keys
    ensures r.Err? ==> r.error == UnwrapPanic
    ensures r.Ok? ==> r.value.attribs.Keys == b.attribs.Keys + PairNames(pairs)
    ensures r.Ok? ==> forall i :: 0 <= i < |pairs| ==> r.value.attribs[pairs[i].0] == pairs[i].1
    ensures r.Ok? ==> forall n :: n in b.attribs ==> r.value.attribs[n] == b.attribs[n]
    decreases |pairs|
  {
    if pairs == [] then Ok(b)
    else
      var (b', added) := Add(b, pairs[0].0, pairs[0].1);
      PairNamesCons(pairs);
      DistinctNamesCons(pairs);
      if added.Err? then Err(UnwrapPanic)
      else
        var rest := AddAll(b', pairs[1..]);
        assert forall i :: 1 <= i < |pairs| ==> pairs[i] == pairs[1..][i - 1];
        rest
  }

  /**
   * The `attrib_pointers!` macro: a new binder with each pair added and
   * unwrapped. It builds exactly when the names are pairwise different.
   */
  function AttribPointers(pairs: seq<(string, ProgramAttrib)>): (r: Result<AttribBinder, Panic>)
    ensures r.Ok? <==> DistinctNames(pairs)
    ensures r.Ok? ==> r.value.attribs.Keys == PairNames(pairs)
    ensures r.Ok? ==> forall i :: 0 <= i < |pairs| ==> r.value.attribs[pairs[i].0] == pairs[i].1
  {
    AddAll(NewAttribBinder(), pairs)
  }

  /** The names of the attributes a vertex type visits. */
  function NamesOf(vs: seq<VertexAttribute>): set<string> {
    set i | 0 <= i < |vs| :: vs[i].name
  }

  /** One more visited attribute adds its name. */
  lemma NamesOfSnoc(vs: seq<VertexAttribute>, a: VertexAttribute)
    ensures NamesOf(vs + [a]) == NamesOf(vs) + {a.name}
  {
    var ws := vs + [a];
    forall n | n in NamesOf(ws) ensures n in NamesOf(vs) + {a.name} {
      var i :| 0 <= i < |ws| && ws[i].name == n;
      if i < |vs| { assert ws[i] == vs[i]; }
    }
    forall n | n in NamesOf(vs) ensures n in NamesOf(ws) {
      var i :| 0 <= i < |vs| && vs[i].name == n;
      assert ws[i] == vs[i];
    }
    assert ws[|vs|] == a;
  }

  /** The visited names absent from `attribs`, in visiting order, repeats kept. */
  function MissingNames(attribs: map<string, ProgramAttrib>, vs: seq<VertexAttribute>): (names: seq<string>)
    decreases |vs|
  {
    if vs == [] then []
    else
      var last := vs[|vs| - 1];
      MissingNames(attribs, vs[..|vs| - 1]) + (if last.name in attribs then [] else [last.name])
  }

  /** No name is missing exactly when every visited name is in `attribs`. */
  lemma {:induction false} MissingNamesEmpty(attribs: map<string, ProgramAttrib>, vs: seq<VertexAttribute>)
    ensures MissingNames(attribs, vs) == [] <==> NamesOf(vs) <= attribs.Keys
    decreases |vs|
  {
    if vs != [] {
      var init := vs[..|vs| - 1];
      var last := vs[|vs| - 1];
      MissingNamesEmpty(attribs, init);
      assert vs == init + [last];
      NamesOfSnoc(init, last);
    }
  }

  /** The matches `for_each` hands to its callback: by name, the vertex and program attribute. */
  type Matches = map<string, (VertexAttribute, ProgramAttrib)>

  /** Each match pairs a visited attribute of that name with the binder's attribute of that name. */
  predicate MatchesFrom(m: Matches, b: AttribBinder, vs: seq<VertexAttribute>) {
    forall n :: n in m ==> n in b.attribs && m[n].1 == b.attribs[n] && m[n].0.name == n && m[n].0 in vs
  }

  /**
   * `for_each`'s matching: walk the visited attributes, pair each with the
   * binder's attribute of the same name or record it as missing; the
   * binder's names left unpaired are unknown. It succeeds, with the pairs,
   * exactly when the visited names and the binder's names are the same set.
   */
  method MatchAttributes(b: AttribBinder, visited: seq<VertexAttribute>) returns (r: Result<Matches, AttribError>)
    ensures r.Ok? <==> NamesOf(visited) == b.attribs.Keys
    ensures r.Ok? ==> r.value.Keys == b.attribs.Keys && MatchesFrom(r.value, b, visited)
    ensures r.Err? ==> r.error.missing == MissingNames(b.attribs, visited)
    ensures r.Err? ==> r.error.unknown == b.attribs.Keys - NamesOf(visited)
  {
    var matched: Matches := map[];
    var missing: seq<string> := [];
    var i := 0;
    while i < |visited|
      invariant 0 <= i <= |visited|
      invariant matched.Keys == NamesOf(visited[..i]) * b.attribs.Keys
      invariant MatchesFrom(matched, b, visited)
      invariant missing == MissingNames(b.attribs, visited[..i])
    {
      var a := visited[i];
      if a.name in b.attribs {
        matched := matched[a.name := (a, b.attribs[a.name])];
      } else {
        missing := missing + [a.name];
      }
      assert visited[..i + 1] == visited[..i] + [a];
      NamesOfSnoc(visited[..i], a);
      i := i + 1;
    }
    assert visited[..|visited|] == visited;
    MissingNamesEmpty(b.attribs, visited);
    var unknown := b.attribs.Keys - matched.Keys;
    assert unknown == b.attribs.Keys - NamesOf(visited);
    assert unknown == {} <==> b.attribs.Keys <= NamesOf(visited) by {
      if unknown == {} {
        forall n | n in b.attribs.Keys ensures n in NamesOf(visited) {
          assert n !in unknown;
        }
      }
    }
    if missing == [] && unknown == {} {
      r := Ok(matched);
    } else {
      r := Err(AttribError(missing, unknown));
    }
  }

  /** `order` lists each of `keys` exactly once (the binder's hash-map iteration order). */
  predicate Enumerates(order: seq<string>, keys: set<string>) {
    |order| == |keys|
    && (forall i :: 0 <= i < |order| ==> order[i] in keys)
    && (forall i, j :: 0 <= i < j < |order| ==> order[i] != order[j])
  }

  /** The enable calls for a binder: one `glEnableVertexAttribArray` per attribute, in `order`. */
  function EnableCalls(b: AttribBinder, order: seq<string>): (cs: seq<Call>)
    requires forall i :: 0 <= i < |order| ==> order[i] in b.attribs
    ensures |cs| == |order|
    ensures forall i :: 0 <= i < |order| ==> cs[i] == EnableVertexAttribArray(b.attribs[order[i]].glIndex)
  {
    seq(|order|, i requires 0 <= i < |order| => EnableVertexAttribArray(b.attribs[order[i]].glIndex))
  }

  /**
   * Every visited attribute has one to four components, as every vertex
   * datum does; `vertex_attrib_pointer` asserts it.
   */
  predicate ComponentsInRange(visited: seq<VertexAttribute>) {
    forall i :: 0 <= i < |visited| ==> 1 <= visited[i].ty.components <= 4
  }

  /** The attribute-pointer call for one match: the vertex attribute's layout, at the program attribute. */
  function PointerCall(va: VertexAttribute, pa: ProgramAttrib): (c: Call)
    requires 1 <= va.ty.components <= 4
    ensures c.VertexAttribPointer? && c.index == pa.glIndex
    ensures c.size == va.ty.components && c.dataType == DataTypeGlEnum(va.ty.data)
    ensures c.normalized == va.ty.normalize && c.stride == va.stride && c.offset == va.offset
  {
    Call.VertexAttribPointer(pa.glIndex, va.ty.components, DataTypeGlEnum(va.ty.data), va.ty.normalize, va.stride, va.offset)
  }

  /** Some visited attribute named `name` describes the pointer call `c` at the program attribute `pa`. */
  predicate PointerFor(visited: seq<VertexAttribute>, name: string, pa: ProgramAttrib, c: Call) {
    exists i :: 0 <= i < |visited| && visited[i].name == name
      && 1 <= visited[i].ty.components <= 4 && c == PointerCall(visited[i], pa)
  }

  /** No call of these kinds binds anything or changes the active unit. */
  lemma AttribCallsInert(cs: seq<Call>)
    requires forall i :: 0 <= i < |cs| ==> cs[i].EnableVertexAttribArray? || cs[i].VertexAttribPointer?
    ensures forall i :: 0 <= i < |cs| ==> Inert(cs[i])
  {
  }

  /**
   * `enable`: when the attributes match, enable every program attribute of
   * the binder, once each; when they do not, call nothing.
   */
  method Enable(b: AttribBinder, visited: seq<VertexAttribute>, order: seq<string>, d: Driver)
    returns (r: Result<(), AttribError>, e: Driver)
    requires Enumerates(order, b.attribs.Keys)
    ensures r.Ok? <==> NamesOf(visited) == b.attribs.Keys
    ensures r.Err? ==> e == d
    ensures r.Ok? ==> e.calls == d.calls + EnableCalls(b, order)
    ensures e.bindings == d.bindings && e.active == d.active
  {
    var m := MatchAttributes(b, visited);
    if m.Err? {
      r, e := Err(m.error), d;
    } else {
      var cs := seq(|order|, i requires 0 <= i < |order| => EnableVertexAttribArray(m.value[order[i]].1.glIndex));
      assert cs == EnableCalls(b, order);
      AttribCallsInert(cs);
      IssueAllInert(d, cs);
      r, e := Ok(()), IssueAll(d, cs);
    }
  }

  /**
   * `bind`: when the attributes match, point every program attribute of the
   * binder at the layout of the vertex attribute of the same name, once
   * each; when they do not, call nothing.
   */
  method Bind(b: AttribBinder, visited: seq<VertexAttribute>, order: seq<string>, d: Driver)
    returns (r: Result<(), AttribError>, e: Driver)
    requires Enumerates(order, b.attribs.Keys)
    requires ComponentsInRange(visited)
    ensures r.Ok? <==> NamesOf(visited) == b.attribs.Keys
    ensures r.Err? ==> e == d
    ensures r.Ok? ==> |e.calls| == |d.calls| + |order| && e.calls[..|d.calls|] == d.calls
    ensures r.Ok? ==> forall i :: 0 <= i < |order| ==>
      PointerFor(visited, order[i], b.attribs[order[i]], e.calls[|d.calls| + i])
    ensures e.bindings == d.bindings && e.active == d.active
  {
    var m := MatchAttributes(b, visited);
    if m.Err? {
      r, e := Err(m.error), d;
    } else {
      var mv := m.value;
      assert forall n :: n in mv ==> 1 <= mv[n].0.ty.components <= 4;
      var cs := seq(|order|, i requires 0 <= i < |order| => PointerCall(mv[order[i]].0, mv[order[i]].1));
      AttribCallsInert(cs);
      IssueAllInert(d, cs);
      e := IssueAll(d, cs);
      assert e.calls == d.calls + cs;
      forall i | 0 <= i < |order|
        ensures PointerFor(visited, order[i], b.attribs[order[i]], e.calls[|d.calls| + i])
      {
        var va := mv[order[i]].0;
        assert va in visited;
        var k :| 0 <= k < |visited| && visited[k] == va;
        assert e.calls[|d.calls| + i] == cs[i];
      }
      r := Ok(());
    }
  }

  /** `VertexBuffer<V>`: a buffer, the attribute binder to use with it, and how many vertices it holds. */
  datatype VertexBuffer = VertexBuffer(attribBinder: Option<AttribBinder>, buffer: Buffer, count: nat)

  /** `VertexBufferBinding`: a vertex buffer bound to `ARRAY_BUFFER`. */
  datatype VertexBufferBinding = VertexBufferBinding(glBuffer: ArrayBufferBinding, vbo: VertexBuffer)

  /** `new_vertex_buffer`: a fresh buffer named `id`, holding nothing, with no attribute binder. */
  function NewVertexBuffer(id: nat, d: Driver): (r: (VertexBuffer, Driver))
    ensures r.0.attribBinder.None? && r.0.count == 0 && r.0.buffer.id == id
    ensures r.1.calls == d.calls + [GenBuffers(id)]
    ensures r.1.bindings == d.bindings && r.1.active == d.active
  {
    var (buffer, d') := GenBuffer(id, d);
    (VertexBuffer(None, buffer, 0), d')
  }

  /** `bind_attrib_pointers`: use `binder` from now on; the buffer and count stay. */
  function BindAttribPointers(vbo: VertexBuffer, binder: AttribBinder): (v: VertexBuffer)
    ensures v.attribBinder == Some(binder)
    ensures v.buffer == vbo.buffer && v.count == vbo.count
  {
    vbo.(attribBinder := Some(binder))
  }

  const NoAttribBindingsMessage: string := "No attribute bindings provided for vertex buffer"

  /**
   * `bind_vertex_buffer`: panic without an attribute binder; otherwise bind
   * the buffer to `ARRAY_BUFFER`, then enable and point the attributes,
   * unwrapping both (so a name mismatch panics). `enable` and `bind` each
   * walk the binder's map on their own, so each gets its own order.
   */
  method BindVertexBuffer<E, F, P, R, T>(c: ContextOf<BufferBinderOf<Slot<ArrayBufferBinder>, E>, F, P, R, T>,
                                         vbo: VertexBuffer, visited: seq<VertexAttribute>,
                                         enableOrder: seq<string>, bindOrder: seq<string>, d: Driver)
    returns (r: Result<(VertexBufferBinding, ContextOf<BufferBinderOf<Slot<ArrayBufferBinder>, E>, F, P, R, T>), Panic>, e: Driver)
    requires c.buffers.arrayBuffer.Free?
    requires vbo.attribBinder.Some? ==> Enumerates(enableOrder, vbo.attribBinder.value.attribs.Keys)
    requires vbo.attribBinder.Some? ==> Enumerates(bindOrder, vbo.attribBinder.value.attribs.Keys)
    requires ComponentsInRange(visited)
    ensures vbo.attribBinder.None? <==> r == Err(Explicit(NoAttribBindingsMessage))
    ensures r.Ok? <==> vbo.attribBinder.Some? && NamesOf(visited) == vbo.attribBinder.value.attribs.Keys
    ensures vbo.attribBinder.Some? && r.Err? ==> r.error == UnwrapPanic
    ensures r.Ok? ==> r.value.0.vbo == vbo && r.value.0.glBuffer.buffer == vbo.buffer.id
    ensures r.Ok? ==> r.value.1 == c.(buffers := c.buffers.(arrayBuffer := Used))
    ensures r.Ok? ==> e.bindings == d.bindings[Global(ARRAY_BUFFER) := vbo.buffer.id]
    ensures r.Ok? ==> |e.calls| == |d.calls| + 1 + |enableOrder| + |bindOrder|
    ensures r.Ok? ==> e.calls[..|d.calls| + 1 + |enableOrder|]
                      == d.calls + [BindBuffer(ARRAY_BUFFER, vbo.buffer.id)] + EnableCalls(vbo.attribBinder.value, enableOrder)
    ensures r.Ok? ==> forall i :: 0 <= i < |bindOrder| ==>
      PointerFor(visited, bindOrder[i], vbo.attribBinder.value.attribs[bindOrder[i]],
                 e.calls[|d.calls| + 1 + |enableOrder| + i])
  {
    if vbo.attribBinder.None? {
      r, e := Err(Explicit(NoAttribBindingsMessage)), d;
      return;
    }
    var binder := vbo.attribBinder.value;
    var (glBuffer, rest, d1) := BindArrayBuffer(c, vbo.buffer, d);
    var enabled, d2 := Enable(binder, visited, enableOrder, d1);
    if enabled.Err? {
      r, e := Err(UnwrapPanic), d2;
      return;
    }
    var bound, d3 := Bind(binder, visited, bindOrder, d2);
    assert bound.Ok?;
    assert d3.calls[..|d2.calls|] == d2.calls;
    assert d3.calls[..|d.calls| + 1 + |enableOrder|] == d2.calls;
    r, e := Ok((VertexBufferBinding(glBuffer, vbo), rest)), d3;
  }

  /**
   * `buffer_vertices`: replace the buffer's contents with the byte view of
   * `vertices`, and set the count to the number of vertices.
   */
  function BufferVertices<V>(vbb: VertexBufferBinding, vertices: seq<V>, encode: V -> seq<Byte>, size: nat,
                             usage: BufferDataUsage, d: Driver): (r: (VertexBufferBinding, Driver))
    requires forall i :: 0 <= i < |vertices| ==> |encode(vertices[i])| == size
    ensures r.0.vbo.count == |vertices|
    ensures r.0.vbo.buffer == vbb.vbo.buffer && r.0.vbo.attribBinder == vbb.vbo.attribBinder
    ensures r.0.glBuffer == vbb.glBuffer
    ensures r.1.calls == d.calls + [BufferData(ARRAY_BUFFER, VertexBytes(vertices, encode, size), UsageGlEnum(usage))]
    ensures r.1.bindings == d.bindings && r.1.active == d.active
  {
    var vbo := vbb.vbo.(count := |vertices|);
    (VertexBufferBinding(vbb.glBuffer, vbo), BufferBytes(ArrayBindingTarget(vbb.glBuffer), VertexBytes(vertices, encode, size), usage, d))
  }

  /**
   * `draw_arrays_range_vbo`: draw `length` vertices from `start`, which
   * must lie within the buffered vertices.
   */
  function DrawArraysRangeVbo(vbb: VertexBufferBinding, mode: DrawingMode, start: nat, length: nat, d: Driver): (e: Driver)
    requires start + length <= vbb.vbo.count
    ensures e.calls == d.calls + [DrawArrays(DrawingModeGlEnum(mode), start, length)]
    ensures e.calls[|d.calls|].first + e.calls[|d.calls|].count <= vbb.vbo.count
    ensures e.bindings == d.bindings && e.active == d.active
  {
    DrawArraysRange(vbb.glBuffer, mode, start, length, d)
  }

  /** `draw_arrays_vbo`: draw every buffered vertex, which is the range `[0, count)`. */
  function DrawArraysVbo(vbb: VertexBufferBinding, mode: DrawingMode, d: Driver): (e: Driver)
    ensures e == DrawArraysRangeVbo(vbb, mode, 0, vbb.vbo.count, d)
  {
    DrawArraysRange(vbb.glBuffer, mode, 0, vbb.vbo.count, d)
  }

  /** `IndexBuffer<I>`: a buffer of indices of element type `ty`, and how many it holds. */
  datatype IndexBuffer = IndexBuffer(ty: IndexDatum, buffer: Buffer, count: nat)

  /** `IndexBufferBinding`: an index buffer bound to `ELEMENT_ARRAY_BUFFER`. */
  datatype IndexBufferBinding = IndexBufferBinding(glBuffer: ElementArrayBufferBinding, ibo: IndexBuffer)

  /** `new_index_buffer`: a fresh buffer named `id` holding no indices. */
  function NewIndexBuffer(ty: IndexDatum, id: nat, d: Driver): (r: (IndexBuffer, Driver))
    ensures r.0.ty == ty && r.0.count == 0 && r.0.buffer.id == id
    ensures r.1.calls == d.calls + [GenBuffers(id)]
    ensures r.1.bindings == d.bindings && r.1.active == d.active
  {
    var (buffer, d') := GenBuffer(id, d);
    (IndexBuffer(ty, buffer, 0), d')
  }

  /** `bind_index_buffer`: bind the buffer to `ELEMENT_ARRAY_BUFFER`. */
  function BindIndexBuffer<A, F, P, R, T>(c: ContextOf<BufferBinderOf<A, Slot<ElementArrayBufferBinder>>, F, P, R, T>,
                                          ibo: IndexBuffer, d: Driver)
    : (r: (IndexBufferBinding, ContextOf<BufferBinderOf<A, Slot<ElementArrayBufferBinder>>, F, P, R, T>, Driver))
    requires c.buffers.elementArray.Free?
    ensures r.0.ibo == ibo && r.0.glBuffer.buffer == ibo.buffer.id
    ensures r.1 == c.(buffers := c.buffers.(elementArray := Used))
    ensures r.2.bindings == d.bindings[Global(ELEMENT_ARRAY_BUFFER) := ibo.buffer.id]
  {
    var (glBuffer, rest, d') := BindElementArrayBuffer(c, ibo.buffer, d);
    (IndexBufferBinding(glBuffer, ibo), rest, d')
  }

  /**
   * `buffer_indices`: replace the buffer's contents with the byte view of
   * `indices`, and set the count to the number of indices.
   */
  function BufferIndices(ibb: IndexBufferBinding, indices: seq<nat>, encode: nat -> seq<Byte>,
                         usage: BufferDataUsage, d: Driver): (r: (IndexBufferBinding, Driver))
    requires forall i :: 0 <= i < |indices| ==> |encode(indices[i])| == SizeOf(ibb.ibo.ty)
    ensures r.0.ibo.count == |indices|
    ensures r.0.ibo.ty == ibb.ibo.ty && r.0.ibo.buffer == ibb.ibo.buffer && r.0.glBuffer == ibb.glBuffer
    ensures r.1.calls == d.calls + [BufferData(ELEMENT_ARRAY_BUFFER, IndexBytes(IndexSlice(ibb.ibo.ty, indices), encode),
                                               UsageGlEnum(usage))]
    ensures r.1.bindings == d.bindings && r.1.active == d.active
  {
    var slice := IndexSlice(ibb.ibo.ty, indices);
    var ibo := ibb.ibo.(count := IndexElements(slice));
    (IndexBufferBinding(ibb.glBuffer, ibo),
     BufferBytes(ElementArrayBindingTarget(ibb.glBuffer), IndexBytes(slice, encode), usage, d))
  }

  /**
   * `draw_n_elements_buffered_vbo`: draw `length` indices read from the
   * bound index buffer, which must hold at least that many.
   */
  function DrawNElementsBufferedVbo(vbb: VertexBufferBinding, ibb: IndexBufferBinding, mode: DrawingMode,
                                    length: nat, d: Driver): (e: Driver)
    requires length <= ibb.ibo.count
    ensures e.calls == d.calls + [DrawElements(DrawingModeGlEnum(mode), length, IndexTypeGlEnum(DatumType(ibb.ibo.ty)),
                                               BoundElementBuffer)]
    ensures e.calls[|d.calls|].count <= ibb.ibo.count
    ensures e.bindings == d.bindings && e.active == d.active
  {
    DrawNElementsBuffered(vbb.glBuffer, ibb.glBuffer, mode, length, DatumType(ibb.ibo.ty), d)
  }

  /** `draw_elements_buffered_vbo`: draw every buffered index. */
  function DrawElementsBufferedVbo(vbb: VertexBufferBinding, ibb: IndexBufferBinding, mode: DrawingMode, d: Driver): (e: Driver)
    ensures e == DrawNElementsBufferedVbo(vbb, ibb, mode, ibb.ibo.count, d)
  {
    DrawNElementsBuffered(vbb.glBuffer, ibb.glBuffer, mode, ibb.ibo.count, DatumType(ibb.ibo.ty), d)
  }

  /** `draw_n_elements_vbo`: draw the first `count` of the given client-side indices. */
  function DrawNElementsVbo(vbb: VertexBufferBinding, mode: DrawingMode, count: nat, indices: IndexSlice,
                            encode: nat -> seq<Byte>, d: Driver): (e: Driver)
    requires count <= IndexElements(indices)
    requires forall i :: 0 <= i < |indices.elems| ==> |encode(indices.elems[i])| == SizeOf(indices.ty)
    ensures e == DrawNElements(vbb.glBuffer, mode, count, indices, encode, d)
    ensures e.calls[|d.calls|].count <= |indices.elems|
  {
    DrawNElements(vbb.glBuffer, mode, count, indices, encode, d)
  }

  /** `draw_elements_vbo`: draw every one of the given client-side indices. */
  function DrawElementsVbo(vbb: VertexBufferBinding, mode: DrawingMode, indices: IndexSlice,
                           encode: nat -> seq<Byte>, d: Driver): (e: Driver)
    requires forall i :: 0 <= i < |indices.elems| ==> |encode(indices.elems[i])| == SizeOf(indices.ty)
    ensures e == DrawNElementsVbo(vbb, mode, |indices.elems|, indices, encode, d)
  {
    DrawAllElements(vbb.glBuffer, mode, indices, encode, d)
  }

  /** After buffering vertices, drawing them all draws exactly those vertices, from the first. */
  lemma BufferedVerticesAllDrawn<V>(vbb: VertexBufferBinding, vertices: seq<V>, encode: V -> seq<Byte>, size: nat,
                                    usage: BufferDataUsage, mode: DrawingMode, d: Driver)
    requires forall i :: 0 <= i < |vertices| ==> |encode(vertices[i])| == size
    ensures var (vbb', d1) := BufferVertices(vbb, vertices, encode, size, usage, d);
            var e := DrawArraysVbo(vbb', mode, d1);
            e.calls[|d1.calls|] == DrawArrays(DrawingModeGlEnum(mode), 0, |vertices|)
  {
  }

  /** After buffering indices, drawing them all reads exactly that many from the buffer. */
  lemma BufferedIndicesAllDrawn(vbb: VertexBufferBinding, ibb: IndexBufferBinding, indices: seq<nat>,
                                encode: nat -> seq<Byte>, usage: BufferDataUsage, mode: DrawingMode, d: Driver)
    requires forall i :: 0 <= i < |indices| ==> |encode(indices[i])| == SizeOf(ibb.ibo.ty)
    ensures var (ibb', d1) := BufferIndices(ibb, indices, encode, usage, d);
            var e := DrawElementsBufferedVbo(vbb, ibb', mode, d1);
            e.calls[|d1.calls|].count == |indices|
  {
  }
}

=== FILE: vertex_data.dfy ===
/**
 * Vertex data: the primitive and compound types a vertex attribute can be
 * built from, the attribute descriptions they produce, and byte views.
 */
module VertexData {
  import opened Results
  import opened Bytes
  import opened Types

  /** The Rust scalar types that implement `VertexPrimitive`. */
  datatype VertexPrimitive = I8 | U8 | I16 | U16 | F32

  /**
   * The GL data type of a vertex primitive: signed and unsigned bytes and
   * shorts map to their GL namesakes, `f32` to `FLOAT`, and nothing to
   * `FIXED`.
   */
  function PrimitiveDataType(p: VertexPrimitive): (t: DataType)
    ensures !t.Fixed?
    ensures t == Byte <==> p == I8
    ensures t == UnsignedByte <==> p == U8
    ensures t == Short <==> p == I16
    ensures t == UnsignedShort <==> p == U16
    ensures t == Float <==> p == F32
  {
    match p
    case I8 => Byte
    case U8 => UnsignedByte
    case I16 => Short
    case U16 => UnsignedShort
    case F32 => Float
  }

  /** Different primitives are described to GL by different data types. */
  lemma PrimitiveDataTypeInjective(p: VertexPrimitive, q: VertexPrimitive)
    ensures PrimitiveDataType(p) == PrimitiveDataType(q) <==> p == q
  {
  }

  /**
   * The width in bytes GL reads for one component of each data type
   * (table 2.2 of the OpenGL ES 2.0 specification).
   */
  function GlTypeSize(t: DataType): nat {
    match t
    case Byte => 1
    case UnsignedByte => 1
    case Short => 2
    case UnsignedShort => 2
    case Fixed => 4
    case Float => 4
  }

  /**
   * `size_of` of a vertex primitive: the width GL reads for the data type
   * the primitive is described by, so strides and offsets computed from
   * Rust sizes address the bytes GL reads.
   */
  function PrimitiveSize(p: VertexPrimitive): (n: nat)
    ensures n in {1, 2, 4}
    ensures n == GlTypeSize(PrimitiveDataType(p))
  {
    match p
    case I8 => 1
    case U8 => 1
    case I16 => 2
    case U16 => 2
    case F32 => 4
  }

  /** The array lengths for which `[T; n]` is a vertex datum. */
  type ArrayLen = n: nat | 1 <= n <= 4 witness 1

  /** A vertex datum: a bare primitive `T`, or an array `[T; n]` of one to four of them. */
  datatype VertexDatum = Scalar(prim: VertexPrimitive) | Array(prim: VertexPrimitive, len: ArrayLen)

  /** How the driver reads one attribute: scalar type, component count, normalisation. */
  datatype VertexAttributeType = VertexAttributeType(data: DataType, components: int, normalize: bool)

  /** One attribute of a vertex type: its type, name, byte offset and stride. */
  datatype VertexAttribute = VertexAttribute(ty: VertexAttributeType, name: string, offset: nat, stride: nat)

  /**
   * `VertexDatum::attrib_type`: a bare primitive has one component, an
   * array one per element; built-in data are never normalised.
   */
  function AttribType(d: VertexDatum): (t: VertexAttributeType)
    ensures t.data == PrimitiveDataType(d.prim)
    ensures t.components == (if d.Scalar? then 1 else d.len)
    ensures 1 <= t.components <= 4
    ensures !t.normalize
  {
    match d
    case Scalar(p) => VertexAttributeType(PrimitiveDataType(p), 1, false)
    case Array(p, n) => VertexAttributeType(PrimitiveDataType(p), n, false)
  }

  /** `size_of` of a vertex datum: one primitive per component. */
  function DatumSize(d: VertexDatum): (n: nat)
    ensures n == PrimitiveSize(d.prim) * AttribType(d).components
  {
    match d
    case Scalar(p) => PrimitiveSize(p)
    case Array(p, len) => PrimitiveSize(p) * len
  }

  /**
   * `vertex_bytes` of a slice of vertices, given the in-memory encoding of
   * one vertex (`size` bytes, the vertex type's `size_of`).
   */
  function VertexBytes<V>(vs: seq<V>, encode: V -> seq<Byte>, size: nat): (bs: seq<Byte>)
    requires forall i :: 0 <= i < |vs| ==> |encode(vs[i])| == size
    ensures |bs| == size * |vs|
  {
    SliceBytes(vs, encode, size)
  }

  /** `vertex_bytes` of a slice as written: it panics on an empty slice. */
  function VertexBytesAsWritten<V>(vs: seq<V>, encode: V -> seq<Byte>, size: nat): (r: Result<seq<Byte>, Panic>)
    requires forall i :: 0 <= i < |vs| ==> |encode(vs[i])| == size
    ensures r.Err? <==> |vs| == 0
    ensures r.Ok? ==> r.value == VertexBytes(vs, encode, size)
  {
    SliceBytesAsWritten(vs, encode, size)
  }
}
